=== FILE: README.md ===
# Timeseria core in Dafny

This project models the core of Timeseria, a Python library for time series built from points and slots. It covers four parts.

- **Series.** `Serie.append` and the append checks of its subclasses: item type, succession or order, strictly increasing times, a single data schema, a single slot span and a single timezone. The model also covers the construction of points and slots, coverage and data loss.
- **Periodicity index.** `get_periodicity_index`: `int(t / d) % p`, optionally shifted by the daylight-saving offset, with every error branch.
- **Periodic-average reconstruction.** The gap scan of `Reconstructor._apply` in both versions of the source. It finds maximal runs of items whose data loss is at or above a threshold, and `_reconstruct` fills each run with the periodic average plus an offset. The `average` offset keeps the mean of the gap. The model also covers the fit of the averages and the window selection of the current `_evaluate`.
- **Models.** The guards and the `fitted` state of `Model` and `ParametricModel`, `mean_error`, and the periodic-average forecaster (`_fit`, `_forecast`, `Forecaster._apply`).

Modules and what they model:

- `Items` and `Series` model timeseria/datastructures.py.
  - Python classes become a `Class` tag and `IsInstance`.
  - The attributes that the append checks cache become fields of the `Serie` record (`prev_t`, `item_data_reference`, `slot_span`, `tz`).
  - A Python exception becomes the `Err` case of `Result`. `Attempt` keeps the attributes set before a check raised.
- `Periodicity` models `get_periodicity_index`. Python's truncating `int()` and its sign-of-divisor `%` are spelt out. The DST offset of the slot start is an input.
- `Gaps`, `Averages`, `Reconstruction`, `Reconstructors` and `Evaluation` model the periodic-average reconstructor.
  - `Legacy` is the version in timeseria/models.py and `Current` is the one in timeseria/models/reconstructors.py.
  - These modules work on a `Sample` record: start, end, the value of the one data label, the data loss (None when unknown) and the reconstruction mark. Timeseria/models.py and timeseria/models/reconstructors.py use a series API (`DataTimeSlotSeries`, `data_labels`, `data_indexes`) that timeseria/datastructures.py does not define, so they are modelled on their own terms rather than on top of `Series`.
  - The periodicity index of a start time is a function parameter. The fits and the forecaster take one that may raise (`real -> Result<int, Error>`), and they raise its first error. For the legacy models `Periodicity.IndexFor` builds it from `get_periodicity_index`. The current reconstructor calls `_get_periodicity_index`, which is not part of this model. The gap scan and `_reconstruct` take a total index (see "Left out").
- `Forecasting` models the periodic-average forecaster.
  - The offset divides the window's total residual by `window - 1`. That is the last value of the loop variable, not the window length. The model reproduces this as written, and `WindowOffsetOfConstantResiduals` states what it implies.
- `Lifecycle` models the guards and the `fitted` flag.
- `Metrics` models `mean_error`.

`is_close` is an uninterpreted predicate `close`. The detected periodicity is a parameter.

## Model

| member | source | states |
|---|---|---|
| Items.PointEq | timeseria/datastructures.py:119-125 | For `a == b`, Python runs the `__eq__` of `b` when its class is a proper subclass of `a`'s, and of `a` otherwise. The comparison raises AttributeError exactly when that operand is a data point and either point lacks data. Otherwise it holds exactly when the coordinate dictionaries agree and, when a data point's `__eq__` runs, the data agree. |
| Items.CoordMap | timeseria/datastructures.py:110-112 | The `coordinates` dictionary holds exactly the attributes whose name does not start with `_`. Each holds the value last set for it. |
| Items.NamesAreDistinct | timeseria/datastructures.py:110-112 | The names of the `coordinates` dictionary are listed once each. |
| Items.NewPoint | timeseria/datastructures.py:101-184 | A point is built exactly when a data class is given `data`, a time class is given the one coordinate `t` and no other, and the point has at least one coordinate. Otherwise the missing-data, only-`t` and no-coordinate Exceptions are raised, in the source's order. The point keeps its class, its public coordinates and its data, and a TimePoint has its `t` and its timezone (UTC by default). On a point without the `data` property, `data` is the coordinate of that name, if any. On a point without the `tz` property, `tz` is read the same way. |
| Items.PointEqIsSymmetric | timeseria/datastructures.py:119-125 | Between two points whose classes both carry data, or both do not, `==` does not depend on the order of its operands. |
| Items.PointEqIsOneSided | timeseria/datastructures.py:187-190 | TimePoint(t=1) == DataPoint(t=1, data=1) is True, while the reverse raises AttributeError on the missing `_data`. |
| Items.PointEqIsReflexive | timeseria/datastructures.py:187-190 | Every point, with its data when it is a data point, is equal to itself. |
| Items.PointGt | timeseria/datastructures.py:155-159 | `>` is defined for a TimePoint with a time against an item with a time. It holds exactly when the point's time is later. Any other point raises TypeError. |
| Items.NewSlot | timeseria/datastructures.py:336-353 | A slot is built exactly when all of these hold: the data argument matches the class; the timezones of a TimeSlot's start and end agree; both endpoints are of the point type; they have the same coordinate names; and `start == end` is False under Python's choice of `__eq__`. The slot then keeps its arguments, and a TimeSlot takes the start's timezone. A data class without data and a plain class with data raise their own errors. |
| Items.NewSlotFromTimeToDataPoint | timeseria/datastructures.py:336-351 | A Slot from a TimePoint to a DataPoint is built. The reverse raises AttributeError in the DataPoint's `__eq__`. |
| Items.ComputeSpan | timeseria/datastructures.py:382-387 | The span is defined exactly when the start has coordinates and the end has each of them. A coordinate missing from the end raises KeyError, and a start without coordinates divides by zero. With one coordinate the span is end minus start on it. |
| Items.ComputeSpanOfShift | timeseria/datastructures.py:382-387 | When the end lies d beyond the start on every coordinate, the span is d. |
| Items.CoverageAndDataLoss | timeseria/datastructures.py:455-467 | The coverage of a data slot is the one given. Coverage and data loss are both None or add up to 1. |
| Items.TimeSlotSpanIsDuration | timeseria/datastructures.py:417-419 | A TimeSlot between two times has as its span its duration `end.t - start.t`, and the two times differ. |
| Items.Succedes | timeseria/datastructures.py:408-415 | For a TimeSlot and a slot `other`, the test succeeds exactly when other's end and this slot's start both have a time. It raises AttributeError otherwise. When it succeeds, the answer is true exactly when the two times are equal or close. A generic slot succeeds a slot exactly when the other's end equals its start under Python's `!=`: the same coordinates and, when a data point's `__eq__` runs, the same data. That comparison raises AttributeError exactly when the running point is a data point and either point lacks data. A point is never succeeded. |
| Items.SlotEq | timeseria/datastructures.py:362-367 | Equal slots have the same start and end coordinates. When the slot whose `__eq__` runs is a data slot, missing data raises AttributeError and different data gives False. When no endpoint is a data point, the comparison holds exactly when the starts and the ends have the same coordinates and, for a running data slot, the same data. |
| Items.SlotEqIsReflexive | timeseria/datastructures.py:362-367 | A slot whose data, and whose endpoints' data, are present equals itself. |
| Items.SlotEqDispatch | timeseria/datastructures.py:446-449 | A TimeSlot equals a DataSlot over the same points, because only `Slot.__eq__` runs. Compared with a DataTimeSlot it raises AttributeError, because the DataTimeSlot's `__eq__` runs and reads the TimeSlot's missing `_data`. |
| Series.EmptySerieIsValid | timeseria/datastructures.py:26-36 | A new serie of any class satisfies the serie invariant. |
| Series.AppendSpec | timeseria/datastructures.py:38-66 | An append to a valid serie succeeds exactly when the item is of the serie's type, follows the last item and passes every subclass check. The serie is then the old items followed by the new one, and it is still valid. |
| Series.AppendRejects | timeseria/datastructures.py:42-61 | Once the subclass checks pass, an item of the wrong type raises TypeError. An item that does not succeed or exceed the last one raises the error of the order check. |
| Series.DataMismatchRaises | timeseria/datastructures.py:538-555 | In a data serie, data of another Python type than the first item's raises TypeError. A list of another length or a dict with other keys raises ValueError. |
| Series.StepMeetsCheck | timeseria/datastructures.py:269-288 | On a valid serie, each subclass check passes exactly when its property holds of the items and the new item. The attribute it caches is then the one the longer serie needs. This covers data compatibility, strictly later time, same timezone and same span. The timezone check also passes an item with another timezone but no `start`, caching that item's timezone: building its ValueError message raises AttributeError, and the check's own handler catches it. |
| Series.RejectedAppendKeepsItems | timeseria/datastructures.py:38-66 | An append the source rejects leaves the items and the class as they were. The corrected append raises the same error. |
| Series.TimesStrictlyIncrease | timeseria/datastructures.py:226-240 | In a time-ordered serie the time of every item is below that of every later item. |
| Series.TimePointSerieOrder | timeseria/datastructures.py:226-240 | On a non-empty TimePointSerie, an earlier time raises the out-of-order ValueError and the same time raises the duplicate ValueError. A later time is accepted. |
| Series.SlotsAreContiguous | timeseria/datastructures.py:521-529 | In a valid time-slot serie, each slot starts where the one before it ends (up to `close`), has the first slot's span and has the first slot's timezone. |
| Series.PointOfOtherTzResetsSerieTz | timeseria/datastructures.py:524-528 | Offered to a TimeSlotSerie with a timezone, a point with another timezone replaces the serie's timezone. The append then raises AttributeError, not the timezone ValueError. |
| Series.DataCoordinateIsCached | timeseria/datastructures.py:269-288 | A plain Point with a `data` coordinate, offered to a DataPointSerie with no reference yet, leaves that coordinate cached as the data reference. It is refused with TypeError. |
| Series.TzCoordinateIsCached | timeseria/datastructures.py:524-528 | A DataPoint with a `tz` coordinate, offered to a TimeSlotSerie without a timezone, leaves that coordinate cached as the serie's timezone. It is refused with AttributeError. |
| Series.StaleTimeAfterRejectedAppend | timeseria/datastructures.py:226-240 | After a rejected append to an empty TimePointSerie, the source leaves `prev_t` set. A later TimePoint with an earlier time is then refused. The corrected append accepts it. |
| Series.DataKeys | timeseria/datastructures.py:557-565 | The keys are None exactly for an empty serie. They fail only when the first item's data is neither a dict nor a list nor a string. |
| Series.DataKeysDescribeEveryItem | timeseria/datastructures.py:557-565 | On a valid data serie, the keys read off the first item are the keys (or the length) of every item's data. |
| Series.SerieTimezone | timeseria/datastructures.py:242-256 | The timezone is the one set explicitly. Otherwise it is the timezone all items share, UTC when two items differ, and None for an empty serie. |
| Series.TimePointsHaveTz | timeseria/datastructures.py:161-166 | Every item of a valid TimePointSerie or DataTimePointSerie has a timezone, so the serie's timezone can always be read off its items. |
| Metrics.MeanError | timeseria/models.py:26-32 | Lists of different lengths raise ValueError and two empty lists divide by zero. Otherwise the result is the mean absolute difference, which is never negative. |
| Metrics.SumAbsDiffZeroIff | timeseria/models.py:29-31 | The sum of absolute differences is zero exactly when the two lists agree on every position summed. |
| Metrics.MeanErrorZeroIffEqual | timeseria/models.py:26-32 | The mean error of two non-empty lists of equal length is zero exactly when the lists are equal. |
| Metrics.SumAbsDiffSymmetric | timeseria/models.py:29-31 | The mean error does not depend on the order of its arguments. |
| Periodicity.Trunc | timeseria/models.py:58 | `int()` of a real is the integer next to it on the side of zero. |
| Periodicity.PyMod | timeseria/models.py:58 | Python's `%` lies in [0, p) for a positive p and in (p, 0] for a negative one. It differs from a by a multiple of p. |
| Periodicity.PyModUnique | timeseria/models.py:58 | That remainder is the only value in the range that differs from a by a multiple of p. |
| Periodicity.UnitDuration | timeseria/models.py:38-51 | A duration exists exactly for a PHYSICAL TimeUnit or a numeric unit. LOGICAL and list units raise NotImplementedError, and an unknown unit type raises Exception. |
| Periodicity.IndexAt | timeseria/models.py:54-58 | The plain index is defined exactly when the unit and the period are non-zero, and it lies within the period. |
| Periodicity.IndexAtSlot | timeseria/models.py:54-58 | With a positive unit d, take the slot n holding t, counted as `int(t / d)` counts them. The plain index is k exactly when k lies in the range of `% p` and n - k is a multiple of p. |
| Periodicity.PeriodicityIndex | timeseria/models.py:35-93 | The index is defined exactly when the unit is supported and non-zero, the period is non-zero, and any DST in effect has no days and a unit of at most 3600 seconds. It propagates the unit's error and raises the DST-days and DST-resolution Exceptions otherwise. When defined, it is the plain index of the time, moved by the DST seconds when DST is in effect. |
| Periodicity.PeriodicityIndexSlot | timeseria/models.py:54-91 | For a supported unit and DST, take the slot n holding the time (moved by the DST seconds when DST is in effect). The index is k exactly when k lies in the range of `% p` and n - k is a multiple of p. |
| Periodicity.DstShiftsTime | timeseria/models.py:66-91 | With DST in effect, the index is the plain index of the time shifted by the DST seconds. A zero offset gives the plain index. |
| Periodicity.IndexAtShift | timeseria/models.py:58 | For t at least 0, the plain index is unchanged a whole period of slots later. |
| Periodicity.ShiftByPeriod | timeseria/models.py:54-58 | Without DST, moving a time of at least 0 by a whole period of slots leaves the index unchanged. |
| Lifecycle.NewParametric | timeseria/models.py:163-175 | A parametric model is fitted exactly when it is loaded from a path. A new one has no score. |
| Lifecycle.Guard | timeseria/models.py:113-232 | An operation may run exactly when these all hold: it is not a reconstructor's predict; the model implements it; a parametric model is fitted unless the operation is fit; and the input is a non-empty series. Each failing guard raises its own error, in the source's order. |
| Lifecycle.Call | timeseria/models.py:235-252 | A call raises its guard's error or else its hook's error. Only a fit that gets through its guards and hook sets `fitted`. The call changes none of the model's hooks, kind or score. The settings a failing fit hook has already written are left out (see below). |
| Lifecycle.Save | timeseria/models.py:255-258 | Saving succeeds exactly when the model is fitted. |
| Lifecycle.EvaluationScore | timeseria/models.py:273-278 | The score is read exactly when the model is fitted and has one. Otherwise the call raises NotFittedError, or a KeyError for a missing score. |
| Lifecycle.FittedIsForever | timeseria/models.py:235-252 | A fitted model stays fitted through any calls and never raises NotFittedError itself. |
| Lifecycle.NotFittedUntilFit | timeseria/models.py:178-232 | Until fit is called, every implemented predict, apply or evaluate of an unfitted parametric model raises NotFittedError. |
| Gaps.Flags | timeseria/models/reconstructors.py:84 | Item j is flagged exactly when its data loss is known and at or above the threshold. |
| Gaps.RunAround | timeseria/models/reconstructors.py:84-94 | Every gap item lies in a maximal run of gap items. |
| Gaps.MaximalRunUnique | timeseria/models/reconstructors.py:84-94 | Two maximal runs that share an item are the same run. |
| Gaps.MaximalRunsCoverGaps | timeseria/models/reconstructors.py:84-103 | The runs the scan reports cover exactly the gap items. |
| Gaps.RunsAreDistinct | timeseria/models/reconstructors.py:84-103 | The runs the scan reports are separated from each other and in increasing order. |
| Averages.FitAverages | timeseria/models/reconstructors.py:441-468 | The fit raises at the first item whose legacy data loss is unknown (TypeError) or whose index raises, if that item is taken, with that error. Otherwise the averages hold, for every index that has included items, the mean of their values, and nothing for any other index. With an index that never raises, the legacy fit fails exactly when some data loss is unknown. |
| Reconstruction.ParseOffsetMethod | timeseria/models/reconstructors.py:394-395 | 'average' selects the average offset and 'extremes' the extremes offset as the source computes it. Anything else raises the unknown-method Exception. |
| Reconstruction.AverageOffset | timeseria/models/reconstructors.py:477-484 | The `average` offset exists exactly when every gap item has an average. Otherwise it raises KeyError. |
| Reconstruction.AverageOffsetIsMeanResidual | timeseria/models/reconstructors.py:477-484 | The `average` offset times the gap length is the total by which the gap's values exceed their averages. |
| Reconstruction.ExtremesOffsetAsWritten | timeseria/models/reconstructors.py:486-497 | The source's `extremes` offset reads positions from-1 (Python's -1 being the last item) and to+1. It is 0 when to+1 is past the end and raises KeyError on a missing average. |
| Reconstruction.ExtremesOffset | timeseria/models/reconstructors.py:486-497 | The intended `extremes` offset is 0 for a gap touching either end of the series. Otherwise it exists exactly when both neighbours of the gap have averages. |
| Reconstruction.ExtremesOffsetFollowsNeighbours | timeseria/models/reconstructors.py:486-495 | When both neighbours of a gap lie c above their averages, the intended `extremes` offset is c. |
| Reconstruction.ExtremesOffsetSkipsNeighbour | timeseria/models/reconstructors.py:490 | A concrete series where the source's offset is 55 while the neighbours of the gap ask for 10. The applied series holds 55. |
| Reconstruction.ExtremesOffsetIgnoresNextItem | timeseria/models/reconstructors.py:486-497 | A concrete series where the item just after the gap has no average. The source reconstructs with offset 0, while the intended offset raises KeyError. |
| Reconstruction.ExtremesOffsetWrapsAround | timeseria/models/reconstructors.py:490 | A concrete series where a gap at the start makes the source read the last item, giving 55 instead of 0. |
| Reconstruction.Offset | timeseria/models/reconstructors.py:476-499 | The offset exists exactly when the items it reads have averages. For `average` these are the gap items. For the source's `extremes` they are the item at from-1 (the last item when the gap starts the series) and the item at to+1 when there is one. It fails only with KeyError. |
| Reconstruction.ReconstructRun | timeseria/models/reconstructors.py:501-506 | `_reconstruct` fails exactly when the offset or an item of the gap has no average. Otherwise every gap item becomes its average plus the offset and is marked 1, and every other item is unchanged. |
| Reconstruction.AverageFilledValues | timeseria/models.py:529-534 | With the `average` offset, every reconstructed gap item is its average plus the gap's mean residual. |
| Reconstruction.AverageReconstructionKeepsMean | timeseria/models.py:517-534 | Reconstructing a gap with the `average` offset keeps the sum, and so the mean, of its values. |
| Reconstruction.ApplySeriesMeaning | timeseria/models/reconstructors.py:84-103 | When no gap fails, each gap item of the applied series holds the reconstruction of its own maximal gap. Every other item keeps its value and is marked 0. |
| Reconstruction.ScanKeepsGapMeans | timeseria/models/reconstructors.py:84-103 | With the `average` offset, the applied series keeps the sum of the values of every gap that can be reconstructed. |
| Reconstruction.GapItem | timeseria/models/reconstructors.py:84-87 | Passing a gap item keeps the scan invariant: the gap stays open from its first item. |
| Reconstruction.CloseGap | timeseria/models/reconstructors.py:90-94 | The open gap handed to `_reconstruct` is a maximal run. The call fails exactly when that run fails, and otherwise leaves the working copy with the gap applied. |
| Reconstruction.PlainItem | timeseria/models/reconstructors.py:88-99 | Passing an item outside gaps keeps the scan invariant: any open gap is closed and reconstructed, and the item is marked 0. It fails only when some gap of the series fails. |
| Reconstruction.FinishScan | timeseria/models/reconstructors.py:101-103 | The trailing gap is reconstructed up to the end of the series. The scan then reports exactly the maximal gaps and returns the applied series. |
| Reconstruction.ApplyScan | timeseria/models/reconstructors.py:66-103 | The scan fails exactly when a legacy data loss is unknown or some maximal gap cannot be reconstructed. Otherwise it calls `_reconstruct` once per maximal gap, in order, and returns the applied series. |
| Reconstructors.Apply | timeseria/models/reconstructors.py:48-108 | More than one data label raises NotImplementedError. Otherwise the result is the applied series, returned on a duplicate or written in place (returning None). The caller's series is unchanged when not in place. |
| Reconstructors.FitLegacy | timeseria/models.py:471-514 | The legacy fit stores the given or detected periodicity, the DST flag and the mean of every index over the items with a data loss below the threshold. It raises on several data keys and without data keys. Otherwise it raises at the first item whose data loss is unknown or whose index raises, with that error. |
| Reconstructors.FitCurrent | timeseria/models/reconstructors.py:392-468 | The current fit rejects an unknown offset method first, then several data labels. It raises at the first item it takes whose index raises. Otherwise it stores the method, the periodicity and the mean of every index over the items whose data loss is unknown or below the threshold. |
| Reconstructors.CurrentFitSkipsExactlyGaps | timeseria/models/reconstructors.py:455 | The current fit takes an item into its averages exactly when the scan does not treat it as a gap. |
| Evaluation.Range | timeseria/models/reconstructors.py:141 | `range(1, n)` holds 1 to n-1 in order. |
| Evaluation.NormaliseSteps | timeseria/models/reconstructors.py:132-141 | 'auto' gives [1, periodicity], or [1, 2, 3] without a stored periodicity. A list is kept. A number n gives 1 to n. |
| Evaluation.CandidatesBelow | timeseria/models/reconstructors.py:198-213 | Every listed position is a window that can be held out: not the first item, fitting in the series, and with no gap item from the item before it to the item after it. |
| Evaluation.CandidatesBelowExact | timeseria/models/reconstructors.py:189-213 | The candidates are listed in increasing order, and a position is listed exactly when it is a candidate. |
| Evaluation.Chosen | timeseria/models/reconstructors.py:189-256 | The windows evaluated are a prefix of the candidates in order, with no more windows than the limit. A limit below 1 still admits one window, because the limit is tested after a window. |
| Evaluation.HeldOut | timeseria/models/reconstructors.py:229-234 | The held-out copy of a window sets each item to the mean of the window's two neighbours, with a data loss of 1. |
| Evaluation.HeldOutIsOneGap | timeseria/models/reconstructors.py:229-247 | At the default threshold of 1, the held-out copy is one maximal gap, its whole length. |
| Evaluation.HeldOutFailsIff | timeseria/models/reconstructors.py:229-247 | Reconstructing a held-out window fails exactly when one of its items has no average, with either offset method. |
| Evaluation.HeldOutMeanIsMidpoint | timeseria/models/reconstructors.py:215-247 | With the `average` offset, the reconstructed window adds up to its length times the mean of its two neighbours. |
| Evaluation.HeldOutExtremesIsAverage | timeseria/models/reconstructors.py:229-247 | With either version of the `extremes` offset, every reconstructed item of a window is the bare average at its index. |
| Evaluation.ValuesLength | timeseria/models/reconstructors.py:229-252 | The real and the reconstructed values are equally many. They are empty exactly when no window was chosen or the windows have no steps. |
| Evaluation.ReconstructWindow | timeseria/models/reconstructors.py:246-252 | Reconstructing a window fails with KeyError exactly when an item of it has no average. Otherwise it yields the window's reconstructed values. |
| Evaluation.RoundStep | timeseria/models/reconstructors.py:189-256 | One item of a round keeps the round invariant: the candidates so far, none failed, and their real and reconstructed values. A failure there means a chosen window fails. |
| Evaluation.EvaluateRound | timeseria/models/reconstructors.py:181-267 | A round raises KeyError exactly when a chosen window cannot be reconstructed, and the "not enough data" Exception when nothing was reconstructed. Otherwise it returns the real and reconstructed values of the chosen windows. |
| Evaluation.CollectMeans | timeseria/models/reconstructors.py:179-267 | The rounds fail exactly when one round fails, with the error of the first one. Otherwise every round's values are kept, in order. |
| Evaluation.EvaluateSteps | timeseria/models/reconstructors.py:177-267 | The evaluation runs one round per number of steps, in order, and ends with the first round's error. |
| Forecasting.StoredWindow | timeseria/models.py:836-841 | A given, non-zero window is stored. Otherwise the periodicity is. |
| Forecasting.FitForecaster | timeseria/models.py:819-866 | The forecaster raises on several data keys and without data keys. Otherwise it raises at the first item whose index raises, with that error. Or it stores the periodicity, the DST flag, the window and the mean of every index over all items. |
| Forecasting.DailySlotsWithDstRaise | timeseria/models.py:855 | With DST in effect and slots of one day, the fit raises the DST-resolution Exception at its first item. |
| Forecasting.WindowOffset | timeseria/models.py:877-888 | The offset times window-1 is the total residual of the last window items. A window below 1 leaves the loop variable unbound. The first window item whose index raises or has no average raises that error, and a window of 1 divides by zero. |
| Forecasting.AverageFor | timeseria/models.py:883 | Reading an average raises the index's error, or KeyError when the index has no average. Otherwise it is the average at the index. |
| Forecasting.Diffs | timeseria/models.py:879-884 | The residual total of a window exists exactly when every item of it has a readable average. Otherwise it raises the error of the first item without one. |
| Forecasting.DiffsOfTotalIndex | timeseria/models.py:879-884 | With an index that never raises, the forecaster's residual total is the reconstructor's residual sum. |
| Forecasting.WindowOffsetOfConstantResiduals | timeseria/models.py:879-887 | When every window item lies c above its average, the offset is c times window/(window-1), not c. |
| Forecasting.WindowOffsetExample | timeseria/models.py:887 | Two items each 1 above their averages give an offset of 2. |
| Forecasting.ForecastsAreContiguous | timeseria/models.py:758-766 | Each forecast starts where the one before it ends, one unit after that one's start. |
| Forecasting.AppendForecasts | timeseria/models.py:756-797 | The loop appends the n forecasts after the given items. It raises at the first forecast start whose index raises or has no average, with that error. An empty series raises IndexError on its last item. |
| Forecasting.ForecastApply | timeseria/models.py:736-805 | Several data keys raise NotImplementedError, and a series shorter than the window raises ValueError. With one key and n > 0, an empty series raises IndexError. Otherwise the call succeeds exactly when the offset exists and every forecast start has an average, and it appends the n forecasts, with the offset computed on the series as given. Without data keys or with n <= 0 nothing is appended. The mark reads position -n, so IndexError unless -n is a valid position. The result is returned on a duplicate or written in place. |

## Left out

- Input and output: reading and saving models as JSON, uuids, logging, plotting and `__repr__`.
- The metric values (RMSE, MAE, MAPE from scikit-learn, `sqrt`) are floating point from a library. The model states which windows are evaluated and which values are compared, not the metrics.
- The `from_t`/`to_t`/`start`/`end` ranges of fit and evaluate, and their ValueErrors on unparsable bounds. They need the unseen time utilities.
- The legacy `Reconstructor._evaluate` and `Forecaster._evaluate` in timeseria/models.py, and `Forecaster._predict`. The current `_evaluate` is the one modelled.
- `detect_periodicity`, `get_periodicity`, `_get_periodicity_index`, `timezonize`, `is_close` and the timezone database. They are not part of this model and appear as parameters. `datetime.dst()` is the `Dst` input.
- `TimeUnit` calendar arithmetic. The forecaster's slot unit is a plain duration.
- The forecast `mark` and the forecaster's `offsets` cache. Within one `_apply` call the offset is always recomputed on its first call.
- Forecasting.ForecastApply: with `inplace`, when a later forecast raises (a missing average or an index error at forecast k > 0), the source has already appended the k earlier forecasts to the caller's series (timeseria/models.py:746-787). The model reports only the error.
- Reconstructors.FitLegacy: when the fit raises in its index loop, the source has already written `periodicity` and `dst_affected` into the model's data (timeseria/models.py:482-483). A fitted model whose re-fit fails keeps its old averages under these new settings. The model returns only the error.
- Reconstructors.FitCurrent: the source writes `offset_method` before the multivariate NotImplementedError (timeseria/models/reconstructors.py:396-399), and `periodicity` and `dst_affected` before the index loop can raise (437-438). Those writes stay after the error. The model returns only the error.
- Forecasting.FitForecaster: the source writes `periodicity`, `dst_affected` and `window` before the index loop can raise (timeseria/models.py:836-841). Those writes stay after the error. The model returns only the error.
- Lifecycle.Call: a model's fitted settings (periodicity, DST flag, offset method, window, averages) are not part of `Model`. So the settings a failing fit hook has already written are not tracked across calls.
- Reconstructors.Apply: when a `_reconstruct` call raises part-way, the source has already rewritten the earlier gaps of an in-place series. The model reports only the error.
- Evaluation.EvaluateSteps: takes natural step counts. A negative entry in a steps list is not modelled.
- Evaluation.EvaluateRound: a round with zero steps reports the "not enough data" Exception. The source would first hand an empty series to `_apply`, whose behaviour on it depends on the unseen series class.
- Python floats are modelled as exact reals, with no rounding, overflow, NaN or infinity. This covers values, times, coordinates, coverage and `t / d` in `Periodicity.IndexAt`. The sum-keeping results (`AverageReconstructionKeepsMean`, `ScanKeepsGapMeans`, `HeldOutMeanIsMidpoint`) hold exactly only over the reals.
- Reconstruction.ReconstructRun: the periodicity index of `_reconstruct` is a total function. The errors of `get_periodicity_index` at timeseria/models.py:524 and 532, and of `_get_periodicity_index` at timeseria/models/reconstructors.py:481, 492 and 504, are not modelled there. A successful fit does not rule them out, because gap items are not indexed by the fit and the DST offset varies with time.
- Reconstruction.ApplyScan: takes the same total index, for the same reason.
- Reconstructors.Apply: takes the same total index, for the same reason.
- Evaluation.EvaluateRound: reconstructs through the same total index.
- Evaluation.EvaluateSteps: with an empty list of steps, or a series without data labels, it returns no results. The source divides by a zero count (timeseria/models/reconstructors.py:285, 295 and 305) and raises ZeroDivisionError.
- Items.NewPoint: coordinates are keyword arguments with real values, so a plain point's `data` or `tz` coordinate is read as a float. Attributes whose names start with `_` (`_data`, `_tz`, `_span`) given as coordinates are not read as those attributes. A TimePoint cast positionally from a number or from another TimePoint is not modelled.
- Series.DataKeys: returns the set of the first item's keys, not the ordered list `list(keys())` gives.
- Series with more than one data label. Every operation that refuses them is modelled up to its NotImplementedError.
- Anomaly detectors, the Prophet models, the linear-interpolation reconstructor and the benchmark scripts. They are foreign-library calls or I/O.
- Points built positionally, and `Serie.extend`, `merge` and `title`.

## Findings

| source | as written | input that shows it | evidently intended | confidence | as-written member | corrected member |
|---|---|---|---|---|---|---|
| timeseria/datastructures.py:226-240 | The subclass checks set `prev_t`, `item_data_reference`, `slot_span` or `tz` before `Serie.append` checks the item type, and the attribute stays set when that check raises | On an empty TimePointSerie, append a plain Point with t=5: it is refused, but `prev_t` is 5, so a TimePoint at t=3 is then refused as out of order | A rejected append leaves the serie as it was | not executed | Series.PointOfOtherTzResetsSerieTz | timeseria/datastructures.py:524-528 | Offered to a TimeSlotSerie with a timezone, a point with another timezone replaces the serie's timezone. The append then raises AttributeError, not the timezone ValueError. |
| Series.DataCoordinateIsCached | timeseria/datastructures.py:269-288 | A plain Point with a `data` coordinate, offered to a DataPointSerie with no reference yet, leaves that coordinate cached as the data reference. It is refused with TypeError. |
| Series.TzCoordinateIsCached | timeseria/datastructures.py:524-528 | A DataPoint with a `tz` coordinate, offered to a TimeSlotSerie without a timezone, leaves that coordinate cached as the serie's timezone. It is refused with AttributeError. |
| Series.StaleTimeAfterRejectedAppend | Series.AppendSpec |
| timeseria/models/reconstructors.py:490 | The `extremes` offset reads positions from-1 and to+1. The scan and `ParseOffsetMethod` model this as written; `Extremes` is the corrected method | Gap [1, 2) in values 10, _, 10, 100 gives offset 55. A gap at position 0 reads position -1, the last item. In 10, _, 10 with no average for the last item, the gap is filled with offset 0 | The mean residual of the items just before and just after the gap (positions from-1 and to), and 0 at either end of the series | not executed | Reconstruction.ExtremesOffsetSkipsNeighbour | Reconstruction.ExtremesOffsetFollowsNeighbours |

=== FILE: averages.dfy ===
/** The periodic averages the fit methods of the periodic-average models
    compute: for every periodicity index, the mean of the values of the items
    at that index. Which items count differs: the reconstructor of
    timeseria/models.py takes items with a data loss below the threshold (and
    fails on an unknown data loss), the one of
    timeseria/models/reconstructors.py also takes items whose data loss is
    unknown, the forecaster takes every item. The periodicity index of a
    start time (the unseen `_get_periodicity_index`, or
    `get_periodicity_index` for the fitted periodicity) is the parameter
    `index`. */
module Averages {
  import opened Wrappers
  import opened Errors
  import opened Gaps

  datatype Filter = LegacyFilter | CurrentFilter | AllItems

  /** Whether a fit takes an item into its averages; the legacy filter is
      only defined for a known data loss. */
  predicate Included(f: Filter, x: Sample, threshold: real)
    requires f == LegacyFilter ==> x.dataLoss.Some?
  {
    match f
    case LegacyFilter => x.dataLoss.value < threshold
    case CurrentFilter => x.dataLoss.None? || x.dataLoss.value < threshold
    case AllItems => true
  }

  predicate Comparable(f: Filter, items: seq<Sample>) {
    f == LegacyFilter ==> forall j :: 0 <= j < |items| ==> items[j].dataLoss.Some?
  }

  /** The sum of the values of the included items at index k. */
  function SumAt(items: seq<Sample>, k: int, f: Filter, threshold: real, index: real -> Result<int, Error>): real
    requires Comparable(f, items)
    decreases |items|
  {
    if |items| == 0 then 0.0
    else
      var x := items[|items| - 1];
      SumAt(items[..|items| - 1], k, f, threshold, index)
        + (if Included(f, x, threshold) && index(x.start) == Ok(k) then x.value else 0.0)
  }

  /** The number of included items at index k. */
  function CountAt(items: seq<Sample>, k: int, f: Filter, threshold: real, index: real -> Result<int, Error>): nat
    requires Comparable(f, items)
    decreases |items|
  {
    if |items| == 0 then 0
    else
      var x := items[|items| - 1];
      CountAt(items[..|items| - 1], k, f, threshold, index)
        + (if Included(f, x, threshold) && index(x.start) == Ok(k) then 1 else 0)
  }

  /** The averages are the mean value of the included items at each index
      that has any, and have no entry for any other index. */
  ghost predicate AreAverages(avgs: map<int, real>, items: seq<Sample>, f: Filter, threshold: real, index: real -> Result<int, Error>)
    requires Comparable(f, items)
  {
    forall k ::
      && (k in avgs <==> CountAt(items, k, f, threshold, index) > 0)
      && (k in avgs ==> avgs[k] == SumAt(items, k, f, threshold, index) / (CountAt(items, k, f, threshold, index) as real))
  }

  /** The exception the fit loop raises at item x, if any: the legacy
      comparison of an unknown data loss with the threshold, then the index
      of an item the fit takes. */
  function ItemError(f: Filter, x: Sample, threshold: real, index: real -> Result<int, Error>): Option<Error> {
    if f == LegacyFilter && x.dataLoss.None? then Some(TypeError(NoneComparison))
    else if Included(f, x, threshold) && index(x.start).Err? then Some(index(x.start).error)
    else None
  }

  /** The fit loop runs through all of items without raising. */
  predicate Fits(f: Filter, items: seq<Sample>, threshold: real, index: real -> Result<int, Error>) {
    forall j :: 0 <= j < |items| ==> ItemError(f, items[j], threshold, index).None?
  }

  /** An index with no included item has a zero sum. */
  lemma {:induction false} NoCountNoSum(items: seq<Sample>, k: int, f: Filter, threshold: real, index: real -> Result<int, Error>)
    requires Comparable(f, items)
    requires CountAt(items, k, f, threshold, index) == 0
    ensures SumAt(items, k, f, threshold, index) == 0.0
    decreases |items|
  {
    if |items| > 0 {
      NoCountNoSum(items[..|items| - 1], k, f, threshold, index);
    }
  }

  /** Taking one more item adds it to the sum and count of its own index. */
  lemma ExtendAt(items: seq<Sample>, i: nat, k: int, f: Filter, threshold: real, index: real -> Result<int, Error>)
    requires i < |items| && Comparable(f, items[..i + 1])
    ensures Comparable(f, items[..i])
    ensures var x := items[i];
      && SumAt(items[..i + 1], k, f, threshold, index)
         == SumAt(items[..i], k, f, threshold, index) + (if Included(f, x, threshold) && index(x.start) == Ok(k) then x.value else 0.0)
      && CountAt(items[..i + 1], k, f, threshold, index)
         == CountAt(items[..i], k, f, threshold, index) + (if Included(f, x, threshold) && index(x.start) == Ok(k) then 1 else 0)
  {
    assert items[..i + 1][..i] == items[..i];
    assert items[..i + 1][i] == items[i];
    assert forall j :: 0 <= j < i ==> items[..i][j] == items[..i + 1][j];
  }

  /** The per-index sums and totals of the fit loop describe the included
      items of `prefix`. */
  ghost predicate Tallied(sums: map<int, real>, totals: map<int, nat>, prefix: seq<Sample>, f: Filter, threshold: real, index: real -> Result<int, Error>)
    requires Comparable(f, prefix)
  {
    && (forall k :: k in sums <==> k in totals)
    && (forall k :: k in sums <==> CountAt(prefix, k, f, threshold, index) > 0)
    && (forall k :: k in sums ==>
          sums[k] == SumAt(prefix, k, f, threshold, index) && totals[k] == CountAt(prefix, k, f, threshold, index))
  }

  /** One step of the fit loop on an item that raises nothing: an included
      item is added to the sum and total of its index. */
  function Tally(sums: map<int, real>, totals: map<int, nat>, x: Sample, f: Filter, threshold: real, index: real -> Result<int, Error>)
    : (st: (map<int, real>, map<int, nat>))
    requires ItemError(f, x, threshold, index).None?
    ensures Included(f, x, threshold) && index(x.start).value !in sums ==>
      st == (sums[index(x.start).value := x.value], totals[index(x.start).value := 1])
  {
    if Included(f, x, threshold) then
      var k := index(x.start).value;
      if k !in sums || k !in totals then (sums[k := x.value], totals[k := 1])
      else (sums[k := sums[k] + x.value], totals[k := totals[k] + 1])
    else (sums, totals)
  }

  /** The fit loop keeps its sums and totals right. */
  lemma TallyStep(items: seq<Sample>, i: nat, sums: map<int, real>, totals: map<int, nat>, f: Filter, threshold: real, index: real -> Result<int, Error>)
    requires i < |items| && Comparable(f, items[..i]) && Tallied(sums, totals, items[..i], f, threshold, index)
    requires ItemError(f, items[i], threshold, index).None?
    ensures Comparable(f, items[..i + 1])
    ensures var st := Tally(sums, totals, items[i], f, threshold, index);
      Tallied(st.0, st.1, items[..i + 1], f, threshold, index)
  {
    var x := items[i];
    assert forall j :: 0 <= j < i ==> items[..i + 1][j] == items[..i][j];
    assert items[..i + 1][i] == x;
    var st := Tally(sums, totals, x, f, threshold, index);
    forall k
      ensures k in st.0 <==> k in st.1
      ensures k in st.0 <==> CountAt(items[..i + 1], k, f, threshold, index) > 0
      ensures k in st.0 ==> st.0[k] == SumAt(items[..i + 1], k, f, threshold, index)
                            && st.1[k] == CountAt(items[..i + 1], k, f, threshold, index)
    {
      TallyAt(items, i, k, sums, totals, f, threshold, index);
    }
  }

  /** TallyStep at one index k. */
  lemma TallyAt(items: seq<Sample>, i: nat, k: int, sums: map<int, real>, totals: map<int, nat>, f: Filter, threshold: real, index: real -> Result<int, Error>)
    requires i < |items| && Comparable(f, items[..i + 1]) && Tallied(sums, totals, items[..i], f, threshold, index)
    requires ItemError(f, items[i], threshold, index).None?
    ensures var st := Tally(sums, totals, items[i], f, threshold, index);
      && (k in st.0 <==> k in st.1)
      && (k in st.0 <==> CountAt(items[..i + 1], k, f, threshold, index) > 0)
      && (k in st.0 ==> st.0[k] == SumAt(items[..i + 1], k, f, threshold, index)
                        && st.1[k] == CountAt(items[..i + 1], k, f, threshold, index))
  {
    var x := items[i];
    ExtendAt(items, i, k, f, threshold, index);
    if Included(f, x, threshold) && index(x.start).value == k && k !in sums {
      NoCountNoSum(items[..i], k, f, threshold, index);
    }
  }

  /** The fit loop keeps running through an item that raises nothing. */
  lemma FitsStep(items: seq<Sample>, i: nat, f: Filter, threshold: real, index: real -> Result<int, Error>)
    requires i < |items| && Fits(f, items[..i], threshold, index)
    requires ItemError(f, items[i], threshold, index).None?
    ensures Fits(f, items[..i + 1], threshold, index)
  {
    assert forall j :: 0 <= j < i ==> items[..i + 1][j] == items[..i][j];
  }

  /** An item that raises stops the fit; with an index that never raises
      it is an unknown legacy data loss. */
  lemma FitsStops(items: seq<Sample>, i: nat, f: Filter, threshold: real, index: real -> Result<int, Error>)
    requires i < |items| && ItemError(f, items[i], threshold, index).Some?
    ensures !Fits(f, items, threshold, index)
    ensures (forall t :: index(t).Ok?) ==> !Comparable(f, items)
  {
    if forall t :: index(t).Ok? {
      assert items[i].dataLoss.None?;
    }
  }

  /** The quotients of the loop's sums and totals are the averages. */
  lemma TalliedAverages(items: seq<Sample>, sums: map<int, real>, totals: map<int, nat>, f: Filter, threshold: real, index: real -> Result<int, Error>)
    requires Comparable(f, items) && Tallied(sums, totals, items, f, threshold, index)
    ensures AreAverages(map k | k in sums :: sums[k] / (totals[k] as real), items, f, threshold, index)
  {
  }

  /** The loop of the fit methods: per-index sums and totals, then their
      quotients. It raises at the first item where the legacy comparison of
      an unknown data loss with the threshold raises TypeError, or where the
      index of an item it takes raises; with an index that never raises
      only the legacy comparison can fail. */
  method FitAverages(items: seq<Sample>, f: Filter, threshold: real, index: real -> Result<int, Error>)
    returns (r: Result<map<int, real>, Error>)
    ensures r.Ok? <==> Fits(f, items, threshold, index)
    ensures r.Err? ==> exists j :: 0 <= j < |items| && Fits(f, items[..j], threshold, index)
                                  && ItemError(f, items[j], threshold, index) == Some(r.error)
    ensures r.Ok? ==> Comparable(f, items) && AreAverages(r.value, items, f, threshold, index)
    ensures (forall t :: index(t).Ok?) ==> (r.Ok? <==> Comparable(f, items))
  {
    var sums: map<int, real> := map[];
    var totals: map<int, nat> := map[];
    var i := 0;
    while i < |items|
      invariant 0 <= i <= |items|
      invariant Fits(f, items[..i], threshold, index)
      invariant Comparable(f, items[..i])
      invariant Tallied(sums, totals, items[..i], f, threshold, index)
    {
      var e := ItemError(f, items[i], threshold, index);
      if e.Some? {
        FitsStops(items, i, f, threshold, index);
        return Err(e.value);
      }
      TallyStep(items, i, sums, totals, f, threshold, index);
      FitsStep(items, i, f, threshold, index);
      var st := Tally(sums, totals, items[i], f, threshold, index);
      sums, totals := st.0, st.1;
      i := i + 1;
    }
    assert items[..i] == items;
    TalliedAverages(items, sums, totals, f, threshold, index);
    return Ok(map k | k in sums :: sums[k] / (totals[k] as real));
  }
}

=== FILE: errors.dfy ===
/** The exceptions the modelled code raises: one constructor per Python
    exception class, each carrying the reason its message states. */
module Errors {

  datatype Reason =
    // Serie.append and its subclasses
    | IncompatibleType          // item is not an instance of the serie's type
    | NotComparable             // no `__gt__` nor `__succedes__`
    | DifferentData             // data of a different Python type
    | NotInSuccession
    | NotInOrder
    | OutOfOrder                // time t smaller than the previous one
    | DuplicateTime             // time t equal to the previous one
    | DifferentDataLength
    | DifferentDataKeys
    | DifferentSpans
    | DifferentTimezones
    // Point and Slot construction
    | NoCoordinates
    | TimeCoordinateOnly        // a TimePoint takes exactly the coordinate `t`
    | MissingData
    | NotAPoint
    | DifferentDimensions
    | SameStartEnd
    | StartEndTimezones
    // Model guards and models
    | HookMissing
    | NotASeries
    | EmptySeries
    | Multivariate
    | LengthMismatch
    | ShorterThanWindow
    | ApplyOnly                 // reconstructors only support apply()
    | UnknownOffsetMethod
    | NothingEvaluated
    | NoneComparison            // comparing a `None` data loss with a number
    // Periodicity index
    | LogicalUnit
    | MultiDimensionalUnit
    | UnknownUnitType
    | DstDays
    | DstResolution
    // Arithmetic and lookups
    | DivisionByZero
    | MissingKey
    | MissingAttribute
    | UnboundVariable
    | OutOfRange                // a sequence index past either end
    | UnexpectedArgument        // keyword the constructor does not accept

  datatype Error =
    | TypeError(reason: Reason)
    | ValueError(reason: Reason)
    | AttributeError(reason: Reason)
    | KeyError(reason: Reason)
    | IndexError(reason: Reason)
    | ZeroDivisionError(reason: Reason)
    | NotImplementedError(reason: Reason)
    | NotFittedError
    | NameError(reason: Reason)
    | Exception(reason: Reason)     // a bare `raise Exception(...)`
}

=== FILE: evaluation.dfy ===
/** The evaluation of the current reconstructor (`_evaluate` of
    timeseria/models/reconstructors.py): for each number of steps, every
    window of that many items with no gap item in it or next to it is
    held out, filled with the mean of its two neighbours, marked as a full
    data loss and handed to `_apply`; the real and the reconstructed values
    of the windows are collected for the error metrics. */
module Evaluation {
  import opened Wrappers
  import opened Errors
  import opened Gaps
  import opened Reconstruction

  // ---------------------------------------------------------------------------
  // The steps

  /** The `steps` argument: 'auto', a list, or a number n. */
  datatype StepsArg = Auto | StepList(steps: seq<int>) | StepCount(n: int)

  /** 1, 2, ..., hi - 1. */
  function Range(hi: int): (r: seq<int>)
    ensures |r| == if hi <= 1 then 0 else hi - 1
    ensures forall k :: 0 <= k < |r| ==> r[k] == k + 1
    decreases hi
  {
    if hi <= 1 then [] else Range(hi - 1) + [hi - 1]
  }

  /** The steps to evaluate: 'auto' is one step and the stored periodicity,
      or 1, 2 and 3 when the model stores none; a list is taken as it is; a
      number n stands for 1 to n. */
  function NormaliseSteps(arg: StepsArg, stored: Option<int>): (r: seq<int>)
    ensures arg.Auto? && stored.Some? ==> r == [1, stored.value]
    ensures arg.Auto? && stored.None? ==> r == [1, 2, 3]
    ensures arg.StepList? ==> r == arg.steps
    ensures arg.StepCount? ==> |r| == (if arg.n < 0 then 0 else arg.n)
    ensures arg.StepCount? ==> forall k :: 0 <= k < |r| ==> r[k] == k + 1
  {
    match arg
    case Auto => if stored.Some? then [1, stored.value] else [1, 2, 3]
    case StepList(steps) => steps
    case StepCount(n) => Range(n + 1)
  }

  // ---------------------------------------------------------------------------
  // The windows

  /** Item i starts a window of `steps` items that can be held out: it is
      not the first item, the window and the item after it fit in the
      series, and neither the window nor the items around it are gaps. */
  predicate Candidate(items: seq<Sample>, steps: nat, threshold: real, i: nat) {
    && 0 < i && i + steps < |items|
    && forall j {:trigger IsGap(items[j], threshold)} :: i - 1 <= j <= i + steps ==> !IsGap(items[j], threshold)
  }

  /** The candidates among the first n items, in order. */
  function CandidatesBelow(items: seq<Sample>, steps: nat, threshold: real, n: nat): (cs: seq<nat>)
    requires n <= |items|
    ensures forall k :: 0 <= k < |cs| ==> cs[k] < n && Candidate(items, steps, threshold, cs[k])
    decreases n
  {
    if n == 0 then []
    else CandidatesBelow(items, steps, threshold, n - 1)
         + (if Candidate(items, steps, threshold, n - 1) then [n - 1] else [])
  }

  /** The candidates are listed once each, in increasing order, and every
      candidate is listed. */
  lemma {:induction false} CandidatesBelowExact(items: seq<Sample>, steps: nat, threshold: real, n: nat, i: nat)
    requires n <= |items|
    ensures var cs := CandidatesBelow(items, steps, threshold, n);
      && (forall a, b :: 0 <= a < b < |cs| ==> cs[a] < cs[b])
      && (i < n && Candidate(items, steps, threshold, i) <==> i in cs)
    decreases n
  {
    if n > 0 {
      CandidatesBelowExact(items, steps, threshold, n - 1, i);
    }
  }

  /** The candidates below m start those below n, for m <= n. */
  lemma {:induction false} CandidatesBelowPrefix(items: seq<Sample>, steps: nat, threshold: real, m: nat, n: nat)
    requires m <= n <= |items|
    ensures var small := CandidatesBelow(items, steps, threshold, m);
      var large := CandidatesBelow(items, steps, threshold, n);
      |small| <= |large| && large[..|small|] == small
    decreases n - m
  {
    if m < n {
      CandidatesBelowPrefix(items, steps, threshold, m, n - 1);
      var mid := CandidatesBelow(items, steps, threshold, n - 1);
      var large := CandidatesBelow(items, steps, threshold, n);
      assert large[..|mid|] == mid;
    }
  }

  /** How many windows are evaluated at most: the source stops once the
      count of processed windows reaches the limit, which it tests only
      after a window was processed, so a limit below 1 still lets one
      window through. */
  function Bound(limit: int): nat {
    if limit < 1 then 1 else limit
  }

  /** The windows evaluated: the candidates in order, cut at the limit. */
  function Chosen(items: seq<Sample>, steps: nat, threshold: real, limit: Option<int>): (cs: seq<nat>)
    ensures var all := CandidatesBelow(items, steps, threshold, |items|);
      |cs| <= |all| && cs == all[..|cs|]
    ensures limit.Some? ==> |cs| <= Bound(limit.value)
    ensures Windows(items, steps, cs)
  {
    var cs := CandidatesBelow(items, steps, threshold, |items|);
    if limit.Some? && Bound(limit.value) < |cs| then cs[..Bound(limit.value)] else cs
  }

  /** The held-out copy of the window at i: every item set to the mean of
      the values just before and just after the window, with a data loss of
      1. */
  function HeldItem(items: seq<Sample>, i: nat, steps: nat, j: nat): Sample
    requires 0 < i && i + steps < |items| && j < steps
  {
    items[i + j].(value := (items[i - 1].value + items[i + steps].value) / 2.0, dataLoss := Some(1.0))
  }

  /** The first n items of the held-out copy of the window at i. */
  function HeldOut(items: seq<Sample>, i: nat, steps: nat, n: nat): (h: seq<Sample>)
    requires 0 < i && i + steps < |items| && n <= steps
    ensures |h| == n
    ensures forall j :: 0 <= j < n ==> h[j] == HeldItem(items, i, steps, j)
    decreases n
  {
    if n == 0 then [] else HeldOut(items, i, steps, n - 1) + [HeldItem(items, i, steps, n - 1)]
  }

  /** `_apply` runs with its default threshold of 1, so the held-out copy
      of a window is one gap, the whole copy. */
  lemma HeldOutIsOneGap(items: seq<Sample>, i: nat, steps: nat)
    requires 0 < i && i + steps < |items| && 0 < steps
    ensures var g := Flags(HeldOut(items, i, steps, steps), 1.0);
      && IsMaximalRun(g, Run(0, steps))
      && forall run :: IsMaximalRun(g, run) <==> run == Run(0, steps)
  {
    var h := HeldOut(items, i, steps, steps);
    var g := Flags(h, 1.0);
    assert forall j :: 0 <= j < steps ==> g[j];
    forall run | IsMaximalRun(g, run)
      ensures run == Run(0, steps)
    {
      MaximalRunUnique(g, run, run.from);
      MaximalRunUnique(g, Run(0, steps), run.from);
    }
  }

  /** Reconstructing a held-out window fails exactly when an item of the
      window has no average at its index, with either offset method (the
      window touches both ends of its copy, so the intended `extremes`
      offset reads no neighbour). */
  lemma HeldOutFailsIff(items: seq<Sample>, i: nat, steps: nat, m: OffsetMethod, avgs: map<int, real>, index: real -> int)
    requires 0 < i && i + steps < |items|
    ensures SomeGapFails(HeldOut(items, i, steps, steps), 1.0, m, avgs, index) <==> !AllKnown(items, i, i + steps, avgs, index)
  {
    var h := HeldOut(items, i, steps, steps);
    if steps == 0 {
      assert !SomeGapFails(h, 1.0, m, avgs, index) by {
        assert forall run :: !IsMaximalRun(Flags(h, 1.0), run);
      }
      return;
    }
    HeldOutIsOneGap(items, i, steps);
    assert AllKnown(h, 0, steps, avgs, index) <==> AllKnown(items, i, i + steps, avgs, index) by {
      assert forall j :: 0 <= j < steps ==> h[j].start == items[i + j].start;
      if !AllKnown(items, i, i + steps, avgs, index) {
        var k :| i <= k < i + steps && !Known(items[k], avgs, index);
        assert h[k - i].start == items[k].start;
      }
    }
    assert SomeGapFails(h, 1.0, m, avgs, index) <==> Fails(h, Run(0, steps), m, avgs, index);
  }

  /** With the `average` offset, the reconstructed window adds up to what
      the held-out copy held: its mean is the mean of the two neighbours. */
  lemma HeldOutMeanIsMidpoint(items: seq<Sample>, i: nat, steps: nat, avgs: map<int, real>, index: real -> int)
    requires 0 < i && i + steps < |items| && 0 < steps
    requires !SomeGapFails(HeldOut(items, i, steps, steps), 1.0, Average, avgs, index)
    ensures ValueSum(ApplySeries(HeldOut(items, i, steps, steps), 1.0, Current, false, Average, avgs, index), 0, steps)
            == Repeat((items[i - 1].value + items[i + steps].value) / 2.0, steps)
  {
    var h := HeldOut(items, i, steps, steps);
    HeldOutIsOneGap(items, i, steps);
    ScanKeepsGapMeans(h, 1.0, Current, false, avgs, index, Run(0, steps));
    HeldOutValueSum(items, i, steps, steps);
  }

  /** With either `extremes` offset the held-out window has no neighbours
      in its copy (the source's reads its own last item and then runs off
      the end), so the offset is zero and every item is reconstructed as the
      bare average at its index. */
  lemma HeldOutExtremesIsAverage(items: seq<Sample>, i: nat, steps: nat, m: OffsetMethod, avgs: map<int, real>, index: real -> int, j: nat)
    requires 0 < i && i + steps < |items| && j < steps && m != Average && Known(items[i + j], avgs, index)
    requires m == ExtremesAsWritten ==> Known(items[i + steps - 1], avgs, index)
    ensures RecWindow(items, i, steps, m, avgs, index)[j] == avgs[index(items[i + j].start)]
  {
    var h := HeldOut(items, i, steps, steps);
    var g := Flags(h, 1.0);
    HeldOutIsOneGap(items, i, steps);
    MaximalRunUnique(g, Run(0, steps), j);
    HeldOutExtremesOffsetIsZero(items, i, steps, m, avgs, index);
    assert h[j].start == items[i + j].start;
    assert Target(h, j, 1.0, Current, false, m, avgs, index).value == avgs[index(items[i + j].start)];
  }

  /** The offset of either `extremes` method on a held-out window is 0. */
  lemma HeldOutExtremesOffsetIsZero(items: seq<Sample>, i: nat, steps: nat, m: OffsetMethod, avgs: map<int, real>, index: real -> int)
    requires 0 < i && i + steps < |items| && 0 < steps && m != Average
    requires m == ExtremesAsWritten ==> Known(items[i + steps - 1], avgs, index)
    ensures Offset(HeldOut(items, i, steps, steps), Run(0, steps), m, avgs, index) == Ok(0.0)
  {
    var h := HeldOut(items, i, steps, steps);
    assert |h| == steps;
    if m == ExtremesAsWritten {
      assert h[steps - 1].start == items[i + steps - 1].start;
      assert ExtremesOffsetAsWritten(h, Run(0, steps), avgs, index) == Ok(0.0);
    }
  }

  lemma {:induction false} HeldOutValueSum(items: seq<Sample>, i: nat, steps: nat, n: nat)
    requires 0 < i && i + steps < |items| && n <= steps
    ensures ValueSum(HeldOut(items, i, steps, steps), 0, n) == Repeat((items[i - 1].value + items[i + steps].value) / 2.0, n)
    decreases n
  {
    if n > 0 {
      HeldOutValueSum(items, i, steps, n - 1);
    }
  }

  // ---------------------------------------------------------------------------
  // The values collected

  /** The values of a sequence of items. */
  function Values(s: seq<Sample>): (r: seq<real>)
    ensures |r| == |s|
    ensures forall k :: 0 <= k < |s| ==> r[k] == s[k].value
    decreases |s|
  {
    if |s| == 0 then [] else Values(s[..|s| - 1]) + [s[|s| - 1].value]
  }

  /** The real values of the window at i. */
  function RealWindow(items: seq<Sample>, i: nat, steps: nat): (r: seq<real>)
    requires i + steps <= |items|
    ensures |r| == steps
    ensures forall k :: 0 <= k < steps ==> r[k] == items[i + k].value
    decreases steps
  {
    if steps == 0 then [] else RealWindow(items, i, steps - 1) + [items[i + steps - 1].value]
  }

  /** The reconstructed values of the window at i. */
  function RecWindow(items: seq<Sample>, i: nat, steps: nat, m: OffsetMethod, avgs: map<int, real>, index: real -> int): (r: seq<real>)
    requires 0 < i && i + steps < |items|
    ensures |r| == steps
  {
    Values(ApplySeries(HeldOut(items, i, steps, steps), 1.0, Current, false, m, avgs, index))
  }

  /** Whether reconstructing the window at i raises: some item of the
      window has no average at its index (HeldOutFailsIff), whichever the
      offset method. */
  predicate WindowFails(items: seq<Sample>, i: nat, steps: nat, avgs: map<int, real>, index: real -> int)
    requires 0 < i && i + steps < |items|
  {
    exists j {:trigger Known(items[j], avgs, index)} :: i <= j < i + steps && !Known(items[j], avgs, index)
  }

  /** Positions where a window can be held out. */
  predicate Windows(items: seq<Sample>, steps: nat, cs: seq<nat>) {
    forall k :: 0 <= k < |cs| ==> 0 < cs[k] && cs[k] + steps < |items|
  }

  /** The real values of the windows at cs, one window after the other. */
  function RealValues(items: seq<Sample>, steps: nat, cs: seq<nat>): (r: seq<real>)
    requires Windows(items, steps, cs)
    decreases |cs|
  {
    if |cs| == 0 then [] else RealValues(items, steps, cs[..|cs| - 1]) + RealWindow(items, cs[|cs| - 1], steps)
  }

  /** The reconstructed values of the windows at cs, one window after the
      other. */
  function RecValues(items: seq<Sample>, steps: nat, cs: seq<nat>, m: OffsetMethod, avgs: map<int, real>, index: real -> int): (r: seq<real>)
    requires Windows(items, steps, cs)
    decreases |cs|
  {
    if |cs| == 0 then [] else RecValues(items, steps, cs[..|cs| - 1], m, avgs, index) + RecWindow(items, cs[|cs| - 1], steps, m, avgs, index)
  }

  /** Both lists hold one value per step of every window. */
  lemma {:induction false} ValuesLength(items: seq<Sample>, steps: nat, cs: seq<nat>, m: OffsetMethod, avgs: map<int, real>, index: real -> int)
    requires Windows(items, steps, cs)
    ensures |RealValues(items, steps, cs)| == |RecValues(items, steps, cs, m, avgs, index)|
    ensures |RecValues(items, steps, cs, m, avgs, index)| == 0 <==> |cs| == 0 || steps == 0
    decreases |cs|
  {
    if |cs| > 0 {
      ValuesLength(items, steps, cs[..|cs| - 1], m, avgs, index);
    }
  }

  // ---------------------------------------------------------------------------
  // One round of the evaluation

  /** Some window at cs cannot be reconstructed. */
  predicate SomeWindowFails(items: seq<Sample>, steps: nat, cs: seq<nat>, avgs: map<int, real>, index: real -> int)
    requires Windows(items, steps, cs)
  {
    exists k :: 0 <= k < |cs| && WindowFails(items, cs[k], steps, avgs, index)
  }

  /** What one round collects: the real values and the reconstructed ones. */
  datatype Pairs = Pairs(actual: seq<real>, reconstructed: seq<real>)

  /** The candidates below i, when the round is still running at i, start
      the chosen windows, and if i is a candidate it is the next one. */
  lemma ChosenNext(items: seq<Sample>, steps: nat, threshold: real, limit: Option<int>, i: nat)
    requires i < |items| && Candidate(items, steps, threshold, i)
    requires limit.Some? ==> |CandidatesBelow(items, steps, threshold, i)| < Bound(limit.value)
    ensures CandidatesBelow(items, steps, threshold, i + 1) == CandidatesBelow(items, steps, threshold, i) + [i]
    ensures var k := |CandidatesBelow(items, steps, threshold, i)|;
      var cs := Chosen(items, steps, threshold, limit);
      k < |cs| && cs[k] == i
  {
    var done := CandidatesBelow(items, steps, threshold, i);
    var next := CandidatesBelow(items, steps, threshold, i + 1);
    var all := CandidatesBelow(items, steps, threshold, |items|);
    assert next == done + [i];
    CandidatesBelowPrefix(items, steps, threshold, i + 1, |items|);
    assert all[|done|] == next[|done|];
  }

  /** A failing candidate, reached while the round is still running, makes
      the chosen windows fail. */
  lemma ChosenFails(items: seq<Sample>, steps: nat, threshold: real, limit: Option<int>, i: nat,
                    avgs: map<int, real>, index: real -> int)
    requires i < |items| && Candidate(items, steps, threshold, i)
    requires limit.Some? ==> |CandidatesBelow(items, steps, threshold, i)| < Bound(limit.value)
    requires WindowFails(items, i, steps, avgs, index)
    ensures Windows(items, steps, Chosen(items, steps, threshold, limit))
    ensures SomeWindowFails(items, steps, Chosen(items, steps, threshold, limit), avgs, index)
  {
    ChosenNext(items, steps, threshold, limit, i);
    var k := |CandidatesBelow(items, steps, threshold, i)|;
    assert WindowFails(items, Chosen(items, steps, threshold, limit)[k], steps, avgs, index);
  }

  /** Where the round stops, the windows it went through are the chosen
      ones: at the end of the series, or once the limit is reached. */
  lemma ChosenAt(items: seq<Sample>, steps: nat, threshold: real, limit: Option<int>, i: nat)
    requires i <= |items|
    requires var done := CandidatesBelow(items, steps, threshold, i);
      || (i == |items| && (limit.Some? ==> |done| <= Bound(limit.value)))
      || (limit.Some? && |done| == Bound(limit.value))
    ensures Chosen(items, steps, threshold, limit) == CandidatesBelow(items, steps, threshold, i)
  {
    CandidatesBelowPrefix(items, steps, threshold, i, |items|);
  }

  /** The real and reconstructed values grow window by window, and a
      window that does not fail keeps the round free of failures. */
  lemma ValuesStep(items: seq<Sample>, steps: nat, done: seq<nat>, i: nat, m: OffsetMethod, avgs: map<int, real>, index: real -> int)
    requires Windows(items, steps, done) && 0 < i && i + steps < |items|
    requires !SomeWindowFails(items, steps, done, avgs, index) && !WindowFails(items, i, steps, avgs, index)
    ensures Windows(items, steps, done + [i])
    ensures !SomeWindowFails(items, steps, done + [i], avgs, index)
    ensures RealValues(items, steps, done + [i]) == RealValues(items, steps, done) + RealWindow(items, i, steps)
    ensures RecValues(items, steps, done + [i], m, avgs, index)
            == RecValues(items, steps, done, m, avgs, index) + RecWindow(items, i, steps, m, avgs, index)
  {
    assert (done + [i])[..|done|] == done;
  }

  /** The reconstruction of the held-out window at i: `_apply` on the
      held-out copy, with its default threshold of 1, not in place. */
  method ReconstructWindow(items: seq<Sample>, i: nat, steps: nat, m: OffsetMethod, avgs: map<int, real>, index: real -> int)
    returns (r: Result<seq<real>, Error>)
    requires 0 < i && i + steps < |items|
    ensures r.Err? <==> WindowFails(items, i, steps, avgs, index)
    ensures r.Err? ==> r.error == KeyError(MissingKey)
    ensures r.Ok? ==> r.value == RecWindow(items, i, steps, m, avgs, index)
  {
    var h := HeldOut(items, i, steps, steps);
    HeldOutFailsIff(items, i, steps, m, avgs, index);
    var res, _ := ApplyScan(h, Current, 1.0, false, m, avgs, index);
    if res.Err? {
      return Err(res.error);
    }
    r := Ok(Values(res.value));
  }

  /** What a round has gathered so far: the windows processed, their
      real and reconstructed values, and whether the limit is reached. */
  datatype Round = Round(done: seq<nat>, reals: seq<real>, recs: seq<real>, full: bool)

  /** The state of a round before item i: it went through the candidates
      below i, none failed, and it holds their values. */
  ghost predicate RoundInv(items: seq<Sample>, steps: nat, threshold: real, limit: Option<int>, i: nat, st: Round,
                           m: OffsetMethod, avgs: map<int, real>, index: real -> int) {
    && i <= |items|
    && st.done == CandidatesBelow(items, steps, threshold, i)
    && (limit.Some? ==> |st.done| <= Bound(limit.value))
    && (st.full <==> limit.Some? && |st.done| == Bound(limit.value))
    && Windows(items, steps, st.done)
    && !SomeWindowFails(items, steps, st.done, avgs, index)
    && st.reals == RealValues(items, steps, st.done)
    && st.recs == RecValues(items, steps, st.done, m, avgs, index)
  }

  /** The round at item i: a candidate window is held out and
      reconstructed, and its values are collected. */
  method RoundStep(items: seq<Sample>, steps: nat, threshold: real, limit: Option<int>, i: nat, st: Round,
                   m: OffsetMethod, avgs: map<int, real>, index: real -> int)
    returns (r: Result<Round, Error>)
    requires i < |items| && !st.full && RoundInv(items, steps, threshold, limit, i, st, m, avgs, index)
    ensures r.Err? ==> && r.error == KeyError(MissingKey)
                       && Windows(items, steps, Chosen(items, steps, threshold, limit))
                       && SomeWindowFails(items, steps, Chosen(items, steps, threshold, limit), avgs, index)
    ensures r.Ok? ==> RoundInv(items, steps, threshold, limit, i + 1, r.value, m, avgs, index)
  {
    if !Candidate(items, steps, threshold, i) {
      return Ok(st);
    }
    ChosenNext(items, steps, threshold, limit, i);
    var rec := ReconstructWindow(items, i, steps, m, avgs, index);
    if rec.Err? {
      ChosenFails(items, steps, threshold, limit, i, avgs, index);
      return Err(rec.error);
    }
    ValuesStep(items, steps, st.done, i, m, avgs, index);
    var done := st.done + [i];
    r := Ok(Round(done, st.reals + RealWindow(items, i, steps), st.recs + rec.value, limit.Some? && |done| >= limit.value));
  }

  /** Where a round stops, it has gone through exactly the chosen windows. */
  lemma RoundEnds(items: seq<Sample>, steps: nat, threshold: real, limit: Option<int>, i: nat, st: Round,
                  m: OffsetMethod, avgs: map<int, real>, index: real -> int)
    requires RoundInv(items, steps, threshold, limit, i, st, m, avgs, index) && (i == |items| || st.full)
    ensures var cs := Chosen(items, steps, threshold, limit);
      && cs == st.done
      && Windows(items, steps, cs)
      && !SomeWindowFails(items, steps, cs, avgs, index)
      && (|st.recs| == 0 <==> |cs| == 0 || steps == 0)
      && st.reals == RealValues(items, steps, cs)
      && st.recs == RecValues(items, steps, cs, m, avgs, index)
  {
    ChosenAt(items, steps, threshold, limit, i);
    ValuesLength(items, steps, st.done, m, avgs, index);
  }

  /** What a round of `_evaluate` for `steps` steps yields, stated over the
      chosen windows: the KeyError when one of them cannot be reconstructed,
      the "not enough data" Exception when they hold no value at all, and
      otherwise their real and reconstructed values, window after window. */
  ghost function RoundOutcome(items: seq<Sample>, steps: nat, threshold: real, limit: Option<int>,
                              m: OffsetMethod, avgs: map<int, real>, index: real -> int): Result<Pairs, Error> {
    var cs := Chosen(items, steps, threshold, limit);
    if SomeWindowFails(items, steps, cs, avgs, index) then Err(KeyError(MissingKey))
    else if |cs| == 0 || steps == 0 then Err(Exception(NothingEvaluated))
    else Ok(Pairs(RealValues(items, steps, cs), RecValues(items, steps, cs, m, avgs, index)))
  }

  /** One round of `_evaluate` for `steps` steps: every candidate window, in
      order, is held out and reconstructed; the round stops after `limit`
      windows. A window that cannot be reconstructed raises its KeyError; a
      round that reconstructed no value raises the "not enough data"
      Exception. */
  method EvaluateRound(items: seq<Sample>, steps: nat, threshold: real, limit: Option<int>,
                       m: OffsetMethod, avgs: map<int, real>, index: real -> int)
    returns (r: Result<Pairs, Error>)
    ensures r == RoundOutcome(items, steps, threshold, limit, m, avgs, index)
  {
    var st := Round([], [], [], false);
    var i := 0;
    while i < |items| && !st.full
      invariant RoundInv(items, steps, threshold, limit, i, st, m, avgs, index)
    {
      var next := RoundStep(items, steps, threshold, limit, i, st, m, avgs, index);
      if next.Err? {
        return Err(next.error);
      }
      st := next.value;
      i := i + 1;
    }
    RoundEnds(items, steps, threshold, limit, i, st, m, avgs, index);
    if |st.recs| == 0 {
      return Err(Exception(NothingEvaluated));
    }
    r := Ok(Pairs(st.reals, st.recs));
  }

  // ---------------------------------------------------------------------------
  // The rounds, one per number of steps

  /** The outcome of every round, in the order of `steps`. */
  ghost function Outcomes(items: seq<Sample>, steps: seq<nat>, threshold: real, limit: Option<int>,
                          m: OffsetMethod, avgs: map<int, real>, index: real -> int): seq<Result<Pairs, Error>> {
    seq(|steps|, k requires 0 <= k < |steps| => RoundOutcome(items, steps[k], threshold, limit, m, avgs, index))
  }

  /** Outcomes gathered in order: the first error, or else every value. */
  function Collect<T>(outs: seq<Result<T, Error>>): Result<seq<T>, Error>
    decreases |outs|
  {
    if |outs| == 0 then Ok([])
    else match Collect(outs[..|outs| - 1])
      case Err(e) => Err(e)
      case Ok(vs) => if outs[|outs| - 1].Err? then Err(outs[|outs| - 1].error) else Ok(vs + [outs[|outs| - 1].value])
  }

  /** Collecting fails exactly when some outcome is an error, with the error
      of the first one; otherwise it holds every value, in order. */
  lemma {:induction false} CollectMeans<T>(outs: seq<Result<T, Error>>)
    ensures Collect(outs).Err? <==> exists k :: 0 <= k < |outs| && outs[k].Err?
    ensures Collect(outs).Err? ==>
      exists k :: 0 <= k < |outs| && outs[k] == Err(Collect(outs).error) && forall j :: 0 <= j < k ==> outs[j].Ok?
    ensures Collect(outs).Ok? ==>
      |Collect(outs).value| == |outs| && forall k :: 0 <= k < |outs| ==> Ok(Collect(outs).value[k]) == outs[k]
    decreases |outs|
  {
    if |outs| > 0 {
      var n := |outs| - 1;
      var init := outs[..n];
      CollectMeans(init);
      assert forall k :: 0 <= k < n ==> init[k] == outs[k];
      if Collect(init).Err? {
        var k :| 0 <= k < n && init[k] == Err(Collect(init).error) && forall j :: 0 <= j < k ==> init[j].Ok?;
        assert outs[k] == Err(Collect(outs).error);
      } else if outs[n].Err? {
        assert forall j :: 0 <= j < n ==> outs[j].Ok? by {
          forall j | 0 <= j < n ensures outs[j].Ok? {
            assert Ok(Collect(init).value[j]) == init[j];
          }
        }
      } else {
        var vs := Collect(init).value;
        assert forall k :: 0 <= k < n ==> Ok(vs[k]) == init[k];
        assert Collect(outs) == Ok(vs + [outs[n].value]);
        assert forall k :: 0 <= k < n ==> (vs + [outs[n].value])[k] == vs[k];
      }
    }
  }

  /** Collecting one more outcome. */
  lemma CollectNext<T>(outs: seq<Result<T, Error>>, k: nat)
    requires k < |outs|
    ensures Collect(outs[..k + 1]) == match Collect(outs[..k])
      case Err(e) => Err(e)
      case Ok(vs) => if outs[k].Err? then Err(outs[k].error) else Ok(vs + [outs[k].value])
  {
    assert outs[..k + 1][..k] == outs[..k];
  }

  lemma OutcomeAt(items: seq<Sample>, steps: seq<nat>, k: nat, threshold: real, limit: Option<int>,
                  m: OffsetMethod, avgs: map<int, real>, index: real -> int)
    requires k < |steps|
    ensures Outcomes(items, steps, threshold, limit, m, avgs, index)[k] == RoundOutcome(items, steps[k], threshold, limit, m, avgs, index)
  {
  }

  /** Once the outcomes gathered so far hold an error, the later ones do not
      change the result. */
  lemma {:induction false} CollectSticky<T>(outs: seq<Result<T, Error>>, n: nat)
    requires n <= |outs| && Collect(outs[..n]).Err?
    ensures Collect(outs) == Collect(outs[..n])
    decreases |outs| - n
  {
    if n < |outs| {
      var next := outs[..n + 1];
      assert next[..n] == outs[..n];
      CollectSticky(outs, n + 1);
    } else {
      assert outs[..n] == outs;
    }
  }

  /** The rounds of `_evaluate` for the single data label, one per number of
      steps in order: the first round that raises ends the evaluation with
      its error (CollectMeans); otherwise every round's values are kept. */
  method EvaluateSteps(items: seq<Sample>, steps: seq<nat>, threshold: real, limit: Option<int>,
                       m: OffsetMethod, avgs: map<int, real>, index: real -> int)
    returns (r: Result<seq<Pairs>, Error>)
    ensures r == Collect(Outcomes(items, steps, threshold, limit, m, avgs, index))
  {
    ghost var outs := Outcomes(items, steps, threshold, limit, m, avgs, index);
    var rounds: seq<Pairs> := [];
    var k := 0;
    while k < |steps|
      invariant k <= |steps| && Collect(outs[..k]) == Ok(rounds)
    {
      var round := EvaluateRound(items, steps[k], threshold, limit, m, avgs, index);
      CollectNext(outs, k);
      OutcomeAt(items, steps, k, threshold, limit, m, avgs, index);
      if round.Err? {
        CollectSticky(outs, k + 1);
        return Err(round.error);
      }
      rounds := rounds + [round.value];
      k := k + 1;
    }
    assert outs[..k] == outs;
    r := Ok(rounds);
  }
}

=== FILE: forecasting.dfy ===
/** The periodic-average forecaster of timeseria/models.py: `_fit` stores
    the periodicity, the window and the mean value at every periodicity
    index; `Forecaster._apply` extends a series by n slots, one unit apart,
    each holding the average at its index plus an offset that
    `PeriodicAverageForecaster._forecast` computes once, on the first call,
    from the last `window` items. Slot units are plain durations here; the
    calendar units of `TimeUnit` are not part of this model. Every read of
    an average goes through the periodicity index, which may raise
    (`get_periodicity_index`, see `Periodicity.IndexFor`). */
module Forecasting {
  import opened Wrappers
  import opened Errors
  import opened Gaps
  import opened Averages
  import opened Reconstruction
  import opened Reconstructors
  import opened Periodicity

  /** What `_fit` stores in the model's `data`. */
  datatype Forecaster = Forecaster(periodicity: int, dstAffected: bool, window: int, averages: map<int, real>)

  /** The window stored by `_fit`: the one given when it is truthy (not
      None and not 0), else the periodicity. */
  function StoredWindow(window: Option<int>, periodicity: int): (w: int)
    ensures w != 0 || periodicity == 0
    ensures window.Some? && window.value != 0 ==> w == window.value
  {
    if window.Some? && window.value != 0 then window.value else periodicity
  }

  /** `_fit`: more than one data key raises NotImplementedError; the
      periodicity is the one given or else the detected one; without data
      keys the averages are read from a variable never bound; otherwise the
      averages take every item, and the fit raises at the first item whose
      index raises. */
  method FitForecaster(items: seq<Sample>, labels: nat, window: Option<int>, periodicity: Option<int>, detected: int,
                       dstAffected: bool, indexFor: (int, bool) -> (real -> Result<int, Error>))
    returns (r: Result<Forecaster, Error>)
    ensures labels > 1 ==> r == Err(NotImplementedError(Multivariate))
    ensures labels == 0 ==> r == Err(NameError(UnboundVariable))
    ensures r.Ok? <==> labels == 1 && Fits(AllItems, items, 0.0, indexFor(periodicity.GetOr(detected), dstAffected))
    ensures labels == 1 && r.Err? ==>
      var index := indexFor(periodicity.GetOr(detected), dstAffected);
      exists j :: 0 <= j < |items| && Fits(AllItems, items[..j], 0.0, index)
                  && index(items[j].start) == Err(r.error)
    ensures r.Ok? ==> && r.value.periodicity == periodicity.GetOr(detected)
                      && r.value.dstAffected == dstAffected
                      && r.value.window == StoredWindow(window, r.value.periodicity)
                      && AreAverages(r.value.averages, items, AllItems, 0.0, indexFor(r.value.periodicity, dstAffected))
  {
    if labels > 1 {
      return Err(NotImplementedError(Multivariate));
    }
    var p := periodicity.GetOr(detected);
    var w := StoredWindow(window, p);
    if labels == 0 {
      return Err(NameError(UnboundVariable));
    }
    var avgs :- FitAverages(items, AllItems, 0.0, indexFor(p, dstAffected));
    r := Ok(Forecaster(p, dstAffected, w, avgs));
  }

  /** With DST in effect, slots of a day are too coarse for the index: the
      forecaster's fit raises at the first item of any series. */
  lemma DailySlotsWithDstRaise(x: Sample, p: int)
    ensures var indexFor := IndexFor(TimeUnit(Physical, 86400.0), (t: real) => Dst(0, 3600));
      ItemError(AllItems, x, 0.0, indexFor(p, true)) == Some(Exception(DstResolution))
  {
    var u := TimeUnit(Physical, 86400.0);
    var indexFor := IndexFor(u, (t: real) => Dst(0, 3600));
    assert indexFor(p, true)(x.start) == PeriodicityIndex(x.start, u, p, true, Dst(0, 3600));
  }

  /** `self.data['averages'][get_periodicity_index(...)]`: the index may
      raise, and a missing average is a KeyError. */
  function AverageFor(t: real, avgs: map<int, real>, index: real -> Result<int, Error>): (r: Result<real, Error>)
    ensures r.Ok? <==> index(t).Ok? && index(t).value in avgs
    ensures r.Ok? ==> r.value == avgs[index(t).value]
    ensures index(t).Err? ==> r == Err(index(t).error)
    ensures index(t).Ok? && index(t).value !in avgs ==> r == Err(KeyError(MissingKey))
  {
    var k :- index(t);
    if k in avgs then Ok(avgs[k]) else Err(KeyError(MissingKey))
  }

  /** Every item from lo to hi has a readable average. */
  predicate Readable(s: seq<Sample>, lo: nat, hi: nat, avgs: map<int, real>, index: real -> Result<int, Error>)
    requires lo <= hi <= |s|
  {
    forall j :: lo <= j < hi ==> AverageFor(s[j].start, avgs, index).Ok?
  }

  /** `diffs` after the items lo to hi of the window, read in order: the
      first average that cannot be read stops the loop with its error. */
  function Diffs(s: seq<Sample>, lo: nat, hi: nat, avgs: map<int, real>, index: real -> Result<int, Error>): (r: Result<real, Error>)
    requires lo <= hi <= |s|
    ensures r.Ok? <==> Readable(s, lo, hi, avgs, index)
    ensures r.Err? ==> exists j :: lo <= j < hi && Readable(s, lo, j, avgs, index) && AverageFor(s[j].start, avgs, index) == Err(r.error)
    decreases hi
  {
    if lo == hi then Ok(0.0)
    else
      var before :- Diffs(s, lo, hi - 1, avgs, index);
      var a :- AverageFor(s[hi - 1].start, avgs, index);
      Ok(before + (s[hi - 1].value - a))
  }

  /** With an index that never raises, `diffs` is the residual sum of the
      reconstructor. */
  lemma {:induction false} DiffsOfTotalIndex(s: seq<Sample>, lo: nat, hi: nat, avgs: map<int, real>, index: real -> int)
    requires lo <= hi <= |s| && AllKnown(s, lo, hi, avgs, index)
    ensures Diffs(s, lo, hi, avgs, (t: real) => Ok(index(t))) == Ok(ResidualSum(s, lo, hi, avgs, index))
    decreases hi
  {
    if lo < hi {
      DiffsOfTotalIndex(s, lo, hi - 1, avgs, index);
    }
  }

  /** Residuals that are all c add up to c per item. */
  lemma {:induction false} DiffsOfConstant(s: seq<Sample>, lo: nat, hi: nat, c: real, avgs: map<int, real>, index: real -> Result<int, Error>)
    requires lo <= hi <= |s|
    requires forall j :: lo <= j < hi ==> AverageFor(s[j].start, avgs, index) == Ok(s[j].value - c)
    ensures Diffs(s, lo, hi, avgs, index) == Ok(Repeat(c, hi - lo))
    decreases hi
  {
    if lo < hi {
      DiffsOfConstant(s, lo, hi - 1, c, avgs, index);
    }
  }

  /** The offset of `_forecast`: the residuals of the last `window` items
      summed and divided by the loop variable's last value, window - 1. A
      window below 1 leaves the loop variable unbound (NameError); the first
      average of the window that cannot be read raises; a window of 1
      divides by zero. */
  function WindowOffset(s: seq<Sample>, window: int, avgs: map<int, real>, index: real -> Result<int, Error>): (o: Result<real, Error>)
    requires window <= |s|
    ensures window <= 0 ==> o == Err(NameError(UnboundVariable))
    ensures 0 < window && !Readable(s, |s| - window, |s|, avgs, index) ==>
      o.Err? && exists j :: |s| - window <= j < |s| && Readable(s, |s| - window, j, avgs, index)
                            && AverageFor(s[j].start, avgs, index) == Err(o.error)
    ensures window == 1 && Readable(s, |s| - 1, |s|, avgs, index) ==> o == Err(ZeroDivisionError(DivisionByZero))
    ensures o.Ok? <==> 1 < window && Readable(s, |s| - window, |s|, avgs, index)
    ensures o.Ok? ==> o.value * ((window - 1) as real) == Diffs(s, |s| - window, |s|, avgs, index).value
  {
    if window <= 0 then Err(NameError(UnboundVariable))
    else
      var total :- Diffs(s, |s| - window, |s|, avgs, index);
      if window == 1 then Err(ZeroDivisionError(DivisionByZero))
      else Ok(total / ((window - 1) as real))
  }

  /** Dividing by window - 1 instead of window: when every item of the
      window lies c above its average, the offset is c * window / (window - 1)
      and not c, so the forecasts are shifted further than the window is. */
  lemma WindowOffsetOfConstantResiduals(s: seq<Sample>, window: int, c: real, avgs: map<int, real>, index: real -> Result<int, Error>)
    requires 1 < window <= |s|
    requires forall j :: |s| - window <= j < |s| ==> AverageFor(s[j].start, avgs, index) == Ok(s[j].value - c)
    ensures WindowOffset(s, window, avgs, index) == Ok(c * (window as real) / ((window - 1) as real))
  {
    DiffsOfConstant(s, |s| - window, |s|, c, avgs, index);
    RepeatIsProduct(c, window);
  }

  /** For example, two items each 1 above their averages give an offset of 2. */
  lemma WindowOffsetExample()
    ensures var s := [Sample(0.0, 1.0, 1.0, None, None), Sample(1.0, 2.0, 1.0, None, None)];
      WindowOffset(s, 2, map[0 := 0.0], (t: real) => Ok(0)) == Ok(2.0)
  {
    var s := [Sample(0.0, 1.0, 1.0, None, None), Sample(1.0, 2.0, 1.0, None, None)];
    WindowOffsetOfConstantResiduals(s, 2, 1.0, map[0 := 0.0], (t: real) => Ok(0));
  }

  // ---------------------------------------------------------------------------
  // The forecast slots

  /** The start of the k-th forecast (from 0) after the slot `last`: one
      unit further per forecast. */
  function ForecastStart(last: Sample, k: nat, unit: real): real {
    last.start + ((k + 1) as real) * unit
  }

  /** Every forecast start up to n has a readable average. */
  predicate ForecastsKnown(last: Sample, n: nat, unit: real, avgs: map<int, real>, index: real -> Result<int, Error>) {
    forall k :: 0 <= k < n ==> AverageFor(ForecastStart(last, k, unit), avgs, index).Ok?
  }

  /** The k-th forecast slot: one unit long, holding the average at its
      index plus the offset, with no data loss and no reconstruction mark. */
  function Forecast(last: Sample, k: nat, unit: real, offset: real, avgs: map<int, real>, index: real -> Result<int, Error>): Sample
    requires AverageFor(ForecastStart(last, k, unit), avgs, index).Ok?
  {
    var start := ForecastStart(last, k, unit);
    Sample(start, start + unit, AverageFor(start, avgs, index).value + offset, None, None)
  }

  /** The first n forecasts after `last`. */
  function Forecasts(last: Sample, n: nat, unit: real, offset: real, avgs: map<int, real>, index: real -> Result<int, Error>): (fs: seq<Sample>)
    requires ForecastsKnown(last, n, unit, avgs, index)
    ensures |fs| == n
    ensures forall k :: 0 <= k < n ==> fs[k] == Forecast(last, k, unit, offset, avgs, index)
    decreases n
  {
    if n == 0 then [] else Forecasts(last, n - 1, unit, offset, avgs, index) + [Forecast(last, n - 1, unit, offset, avgs, index)]
  }

  /** Each forecast starts one unit after the one before, where that one
      ends; the first starts where `last` ends when `last` is one unit long. */
  lemma ForecastsAreContiguous(last: Sample, n: nat, unit: real, offset: real, avgs: map<int, real>, index: real -> Result<int, Error>)
    requires ForecastsKnown(last, n, unit, avgs, index)
    ensures var fs := Forecasts(last, n, unit, offset, avgs, index);
      && (forall k :: 0 < k < n ==> fs[k].start == fs[k - 1].end && fs[k].start == fs[k - 1].start + unit)
      && (0 < n && last.end == last.start + unit ==> fs[0].start == last.end)
  {
    var fs := Forecasts(last, n, unit, offset, avgs, index);
    forall k | 0 < k < n
      ensures fs[k].start == fs[k - 1].end && fs[k].start == fs[k - 1].start + unit
    {
      NextStart(last, k - 1, unit);
      assert fs[k].start == ForecastStart(last, k, unit);
      assert fs[k - 1].end == ForecastStart(last, k - 1, unit) + unit;
    }
    if 0 < n {
      assert fs[0].start == ForecastStart(last, 0, unit) == last.start + unit;
    }
  }

  /** One unit after the k-th forecast start is the next one. */
  lemma NextStart(last: Sample, k: nat, unit: real)
    ensures ForecastStart(last, k, unit) + unit == ForecastStart(last, k + 1, unit)
  {
    assert ((k + 2) as real) * unit == ((k + 1) as real) * unit + unit;
  }

  // ---------------------------------------------------------------------------
  // `Forecaster._apply`

  /** The loop of `_apply` for the one data key: n slots are appended one by
      one, each one unit after the series' last slot (an empty series has no
      last slot: IndexError); the offset, computed on the first call, is
      passed in. The first forecast start whose average cannot be read
      raises. */
  method AppendForecasts(items: seq<Sample>, n: nat, unit: real, offset: real, avgs: map<int, real>, index: real -> Result<int, Error>)
    returns (r: Result<seq<Sample>, Error>)
    ensures |items| == 0 ==> r == if n == 0 then Ok(items) else Err(IndexError(OutOfRange))
    ensures 0 < |items| ==> (r.Ok? <==> ForecastsKnown(items[|items| - 1], n, unit, avgs, index))
    ensures 0 < |items| && r.Err? ==>
      exists k {:trigger ForecastsKnown(items[|items| - 1], k, unit, avgs, index)} ::
        0 <= k < n && ForecastsKnown(items[|items| - 1], k, unit, avgs, index)
                  && AverageFor(ForecastStart(items[|items| - 1], k, unit), avgs, index) == Err(r.error)
    ensures 0 < |items| && r.Ok? ==> r.value == items + Forecasts(items[|items| - 1], n, unit, offset, avgs, index)
  {
    if |items| == 0 {
      return if n == 0 then Ok(items) else Err(IndexError(OutOfRange));
    }
    var last := items[|items| - 1];
    var s := items;
    var k := 0;
    while k < n
      invariant k <= n && ForecastsKnown(last, k, unit, avgs, index)
      invariant s == items + Forecasts(last, k, unit, offset, avgs, index)
      invariant s[|s| - 1].start == if k == 0 then last.start else ForecastStart(last, k - 1, unit)
    {
      var start := s[|s| - 1].start + unit;
      if k == 0 {
        assert start == ForecastStart(last, 0, unit);
      } else {
        NextStart(last, k - 1, unit);
      }
      var a := AverageFor(start, avgs, index);
      if a.Err? {
        return Err(a.error);
      }
      s := s + [Sample(start, start + unit, a.value + offset, None, None)];
      k := k + 1;
    }
    r := Ok(s);
  }

  /** Python's `s[k]` on a sequence of length n is defined for
      -n <= k < n. */
  predicate PyIndexable(n: nat, k: int) {
    -(n as int) <= k < n
  }

  /** `Forecaster._apply` with `PeriodicAverageForecaster._forecast`: more
      than one data key raises NotImplementedError, a series shorter than
      the window raises ValueError; with one data key and n > 0 the offset
      is computed on the series as given and n forecasts are appended
      (`range(n)` is empty for n <= 0). Marking the forecast reads
      `series[-n]`, which raises IndexError unless -n is a valid position
      of the (extended) series. The result is a duplicate unless
      `inplace`. */
  method ForecastApply(items: seq<Sample>, labels: nat, n: int, inplace: bool, f: Forecaster, unit: real, index: real -> Result<int, Error>)
    returns (r: Result<Applied, Error>)
    ensures labels > 1 ==> r == Err(NotImplementedError(Multivariate))
    ensures labels <= 1 && |items| < f.window ==> r == Err(ValueError(ShorterThanWindow))
    ensures labels <= 1 && f.window <= |items| && (labels == 0 || n <= 0) ==>
      && (r.Ok? <==> PyIndexable(|items|, -n))
      && (r.Err? ==> r.error == IndexError(OutOfRange))
      && (r.Ok? ==> r.value == if inplace then Applied(None, items) else Applied(Some(items), items))
    ensures labels == 1 && f.window <= |items| && 0 < n && |items| == 0 ==> r == Err(IndexError(OutOfRange))
    ensures labels == 1 && f.window <= |items| && 0 < n && 0 < |items| ==>
      && (r.Ok? <==> WindowOffset(items, f.window, f.averages, index).Ok?
                     && ForecastsKnown(items[|items| - 1], n, unit, f.averages, index))
      && (WindowOffset(items, f.window, f.averages, index).Err? ==> r == Err(WindowOffset(items, f.window, f.averages, index).error))
      && (WindowOffset(items, f.window, f.averages, index).Ok? && r.Err? ==>
            exists k {:trigger ForecastsKnown(items[|items| - 1], k, unit, f.averages, index)} ::
              0 <= k < n && ForecastsKnown(items[|items| - 1], k, unit, f.averages, index)
                        && AverageFor(ForecastStart(items[|items| - 1], k, unit), f.averages, index) == Err(r.error))
    ensures labels == 1 && 0 < n && r.Ok? ==>
      var extended := items + Forecasts(items[|items| - 1], n, unit, WindowOffset(items, f.window, f.averages, index).value, f.averages, index);
      if inplace then r.value == Applied(None, extended) else r.value == Applied(Some(extended), items)
    ensures r.Ok? && inplace ==> r.value.returned.None?
  {
    if labels > 1 {
      return Err(NotImplementedError(Multivariate));
    }
    if |items| < f.window {
      return Err(ValueError(ShorterThanWindow));
    }
    var result := items;
    if labels == 1 && 0 < n {
      if |items| == 0 {
        return Err(IndexError(OutOfRange));
      }
      var offset :- WindowOffset(items, f.window, f.averages, index);
      result :- AppendForecasts(items, n, unit, offset, f.averages, index);
    }
    if !PyIndexable(|result|, -n) {
      return Err(IndexError(OutOfRange));
    }
    if inplace {
      r := Ok(Applied(None, result));
    } else {
      r := Ok(Applied(Some(result), items));
    }
  }
}

=== FILE: gaps.dfy ===
/** Gaps in a series of slots: maximal runs of consecutive items whose data
    loss is at or above a threshold. The reconstructors of timeseria/models.py
    and timeseria/models/reconstructors.py find these runs with a single scan
    and hand each to `_reconstruct` as the index range [from, to). */
module Gaps {
  import opened Wrappers

  /** A slot as the models see it: start and end times, the value of its one
      data label, its data loss (None when not known) and the
      `data_reconstructed` mark (None when not set). */
  datatype Sample = Sample(start: real, end: real, value: real, dataLoss: Option<real>, reconstructed: Option<int>)

  /** An item is part of a gap when its data loss is known and at or above
      the threshold; an unknown data loss is never a gap. */
  predicate IsGap(x: Sample, threshold: real) {
    x.dataLoss.Some? && x.dataLoss.value >= threshold
  }

  /** The gap flag of every item. */
  function Flags(items: seq<Sample>, threshold: real): (g: seq<bool>)
    ensures |g| == |items|
    ensures forall j {:trigger g[j]} :: 0 <= j < |items| ==> (g[j] <==> IsGap(items[j], threshold))
    decreases |items|
  {
    if |items| == 0 then [] else Flags(items[..|items| - 1], threshold) + [IsGap(items[|items| - 1], threshold)]
  }

  /** The index range [from, to) handed to `_reconstruct`. */
  datatype Run = Run(from: nat, to: nat)

  predicate AllGap(g: seq<bool>, r: Run) {
    r.from < r.to <= |g| && forall k :: r.from <= k < r.to ==> g[k]
  }

  /** A run of gap items that cannot be extended on either side. */
  predicate IsMaximalRun(g: seq<bool>, r: Run) {
    && AllGap(g, r)
    && (r.from == 0 || !g[r.from - 1])
    && (r.to == |g| || !g[r.to])
  }

  /** The first item of the gap that holds item j. */
  function RunStart(g: seq<bool>, j: nat): (f: nat)
    requires j < |g| && g[j]
    ensures f <= j
    ensures f == 0 || !g[f - 1]
    ensures forall k :: f <= k <= j ==> g[k]
    decreases j
  {
    if j > 0 && g[j - 1] then RunStart(g, j - 1) else j
  }

  /** One past the last item of the gap that holds item j. */
  function RunEnd(g: seq<bool>, j: nat): (t: nat)
    requires j < |g| && g[j]
    ensures j < t <= |g|
    ensures t == |g| || !g[t]
    ensures forall k :: j <= k < t ==> g[k]
    decreases |g| - j
  {
    if j + 1 < |g| && g[j + 1] then RunEnd(g, j + 1) else j + 1
  }

  /** The gap that holds item j. */
  function RunAround(g: seq<bool>, j: nat): (r: Run)
    requires j < |g| && g[j]
    ensures IsMaximalRun(g, r) && r.from <= j < r.to
  {
    Run(RunStart(g, j), RunEnd(g, j))
  }

  /** Every gap item lies in exactly one maximal run: two maximal runs that
      share an item are the same run. */
  lemma MaximalRunUnique(g: seq<bool>, r: Run, j: nat)
    requires IsMaximalRun(g, r) && r.from <= j < r.to
    ensures r == RunAround(g, j)
  {
    var a := RunAround(g, j);
  }

  /** The runs a scan reports: exactly the maximal runs, in increasing order,
      each separated from the next by at least one item that is not a gap. */
  ghost predicate ExactlyMaximalRuns(g: seq<bool>, runs: seq<Run>) {
    && (forall r :: r in runs <==> IsMaximalRun(g, r))
    && (forall k :: 0 < k < |runs| ==> runs[k - 1].to < runs[k].from)
  }

  /** The maximal runs cover the gap items and nothing else. */
  lemma MaximalRunsCoverGaps(g: seq<bool>, runs: seq<Run>, j: nat)
    requires ExactlyMaximalRuns(g, runs) && j < |g|
    ensures g[j] <==> exists r :: r in runs && r.from <= j < r.to
  {
    if g[j] {
      assert RunAround(g, j) in runs;
    }
  }

  /** Sorted, separated runs are reported once each. */
  lemma {:induction false} RunsAreDistinct(g: seq<bool>, runs: seq<Run>, a: nat, b: nat)
    requires ExactlyMaximalRuns(g, runs) && a < b < |runs|
    ensures runs[a].to < runs[b].from
    decreases b - a
  {
    assert IsMaximalRun(g, runs[b]) by { assert runs[b] in runs; }
    if a + 1 < b {
      RunsAreDistinct(g, runs, a, b - 1);
      assert IsMaximalRun(g, runs[b - 1]) by { assert runs[b - 1] in runs; }
    }
  }
}

=== FILE: items.dfy ===
/** Points and slots of timeseria/datastructures.py: a Point is a set of named
    coordinates (a TimePoint has exactly the coordinate `t` and a timezone), a
    Slot spans from a start point to an end point, and the Data variants carry
    a data value and, for slots, a coverage. Python's class hierarchy is the
    `Class` tag and `IsInstance` below. */
module Items {
  import opened Wrappers
  import opened Errors

  /** What a `tz` attribute holds: an opaque timezone token (a pytz timezone
      in the source), or the number a plain coordinate named `tz` holds on a
      point that is not a TimePoint. */
  datatype Tz = Tz(name: string) | TzNumber(x: real)

  const UTC: Tz := Tz("UTC")

  /** The classes of the point and slot hierarchy. */
  datatype Class =
    | PointClass | TimePointClass | DataPointClass | DataTimePointClass
    | SlotClass | TimeSlotClass | DataSlotClass | DataTimeSlotClass

  /** `isinstance(x, of)` for an object x of class c: DataTimePoint extends both
      DataPoint and TimePoint, which both extend Point; slots alike. */
  predicate IsInstance(c: Class, of: Class) {
    match of
    case PointClass => c.PointClass? || c.TimePointClass? || c.DataPointClass? || c.DataTimePointClass?
    case TimePointClass => c.TimePointClass? || c.DataTimePointClass?
    case DataPointClass => c.DataPointClass? || c.DataTimePointClass?
    case DataTimePointClass => c.DataTimePointClass?
    case SlotClass => c.SlotClass? || c.TimeSlotClass? || c.DataSlotClass? || c.DataTimeSlotClass?
    case TimeSlotClass => c.TimeSlotClass? || c.DataTimeSlotClass?
    case DataSlotClass => c.DataSlotClass? || c.DataTimeSlotClass?
    case DataTimeSlotClass => c.DataTimeSlotClass?
  }

  /** Classes that carry the special `data` argument. */
  predicate CarriesData(c: Class) {
    IsInstance(c, DataPointClass) || IsInstance(c, DataSlotClass)
  }

  /** A slot class's `__POINT_TYPE__`: the class its start and end must have. */
  function PointType(c: Class): Class {
    if IsInstance(c, TimeSlotClass) then TimePointClass else PointClass
  }

  /** The Python type of a data value, as `type(data)` tells them apart. */
  datatype DataType = NoneType | IntType | FloatType | StrType | ListType | DictType

  datatype Data =
    | NoneData
    | IntData(i: int)
    | FloatData(x: real)
    | StrData(s: string)
    | ListData(xs: seq<real>)
    | DictData(entries: map<string, real>)

  function TypeOf(d: Data): DataType {
    match d
    case NoneData => NoneType
    case IntData(_) => IntType
    case FloatData(_) => FloatType
    case StrData(_) => StrType
    case ListData(_) => ListType
    case DictData(_) => DictType
  }

  /** Python `==` on data values: an int and a float compare by value. */
  predicate DataEq(a: Data, b: Data) {
    match (a, b)
    case (IntData(i), IntData(j)) => i == j
    case (IntData(i), FloatData(y)) => i as real == y
    case (FloatData(x), IntData(j)) => x == j as real
    case (FloatData(x), FloatData(y)) => x == y
    case _ => a == b
  }

  datatype Coord = Coord(name: string, value: real)

  /** A point: its class, its keyword coordinates in order, the timezone given
      to a TimePoint (if any) and the `data` of a DataPoint (None when the
      object has no such attribute). */
  datatype Point = Point(cls: Class, coords: seq<Coord>, tzSet: Option<Tz>, data: Option<Data>)

  /** Attribute names that the `coordinates` dictionary lists: those that
      do not start with an underscore. */
  predicate Public(name: string) {
    |name| == 0 || name[0] != '_'
  }

  /** No later coordinate sets the same attribute as `cs[i]`. */
  predicate LastOf(cs: seq<Coord>, i: int)
    requires 0 <= i < |cs|
  {
    forall j :: i < j < |cs| ==> cs[j].name != cs[i].name
  }

  /** The `coordinates` dictionary of a point: its public attributes, each
      with the value last set. */
  function CoordMap(cs: seq<Coord>): (m: map<string, real>)
    ensures forall k :: k in m ==> Public(k)
    ensures forall i :: 0 <= i < |cs| && Public(cs[i].name) ==> cs[i].name in m
    ensures forall i :: 0 <= i < |cs| && Public(cs[i].name) && LastOf(cs, i) ==> m[cs[i].name] == cs[i].value
    decreases |cs|
  {
    if |cs| == 0 then map[]
    else
      var c := cs[|cs| - 1];
      if Public(c.name) then CoordMap(cs[..|cs| - 1])[c.name := c.value] else CoordMap(cs[..|cs| - 1])
  }

  /** The keys of the `coordinates` dictionary, in insertion order, each
      once. */
  function Names(cs: seq<Coord>): (ns: seq<string>)
    ensures forall k :: k in ns <==> k in CoordMap(cs)
    decreases |cs|
  {
    if |cs| == 0 then []
    else
      var ns := Names(cs[..|cs| - 1]);
      var c := cs[|cs| - 1];
      if !Public(c.name) || c.name in ns then ns else ns + [c.name]
  }

  /** Each key of the `coordinates` dictionary is listed once, so the
      mean of `_compute_span` divides by the number of coordinates. */
  lemma {:induction false} NamesAreDistinct(cs: seq<Coord>)
    ensures forall i, j :: 0 <= i < j < |Names(cs)| ==> Names(cs)[i] != Names(cs)[j]
    decreases |cs|
  {
    if |cs| > 0 {
      NamesAreDistinct(cs[..|cs| - 1]);
      var ns, c := Names(cs[..|cs| - 1]), cs[|cs| - 1];
      if Public(c.name) && c.name !in ns {
        var all := Names(cs);
        assert all == ns + [c.name];
        forall i, j | 0 <= i < j < |all|
          ensures all[i] != all[j]
        {
          if j == |ns| {
            assert all[i] == ns[i] && all[j] == c.name;
          } else {
            assert all[i] == ns[i] && all[j] == ns[j];
          }
        }
      } else {
        assert Names(cs) == ns;
      }
    }
  }

  /** `point.t`, when the point has such a coordinate. */
  function PointT(p: Point): Option<real> {
    var m := CoordMap(p.coords);
    if "t" in m then Some(m["t"]) else None
  }

  /** `point.tz`: for a TimePoint the property, the timezone given at
      construction or else UTC; for other points the coordinate named `tz`,
      if there is one (else there is no such attribute). */
  function PointTz(p: Point): Option<Tz> {
    var m := CoordMap(p.coords);
    if IsInstance(p.cls, TimePointClass) then Some(p.tzSet.GetOr(UTC))
    else if "tz" in m then Some(TzNumber(m["tz"]))
    else None
  }

  /** `point.data`: for a DataPoint the property; for other points the
      coordinate named `data`, if there is one (else there is no such
      attribute). Coordinates are numbers, modelled as reals. */
  function PointData(p: Point): Option<Data> {
    var m := CoordMap(p.coords);
    if CarriesData(p.cls) then p.data
    else if "data" in m then Some(FloatData(m["data"]))
    else None
  }

  /** The construction of a Point, TimePoint, DataPoint or DataTimePoint
      from keyword arguments, running DataPoint.__init__, TimePoint.__init__
      and Point.__init__ in their method resolution order. `tz` and `data`
      are the keywords the time and data classes take out before the rest
      become coordinates; for the other classes they would be ordinary
      coordinates, given in `kwargs`. Keyword names are distinct, so the
      data classes get no other keyword named `data`. */
  function NewPoint(cls: Class, kwargs: seq<Coord>, tz: Option<Tz>, data: Option<Data>): (r: Result<Point, Error>)
    requires IsInstance(cls, PointClass)
    requires !CarriesData(cls) ==> data.None?
    requires !IsInstance(cls, TimePointClass) ==> tz.None?
    requires forall i, j :: 0 <= i < j < |kwargs| ==> kwargs[i].name != kwargs[j].name
    requires CarriesData(cls) ==> forall i :: 0 <= i < |kwargs| ==> kwargs[i].name != "data"
    ensures r.Ok? <==>
      && (CarriesData(cls) ==> data.Some?)
      && |kwargs| > 0
      && (IsInstance(cls, TimePointClass) ==> |kwargs| == 1 && kwargs[0].name == "t")
    ensures CarriesData(cls) && data.None? ==> r == Err(Exception(MissingData))
    ensures r.Err? && r.error != Exception(MissingData) ==>
      r.error == (if IsInstance(cls, TimePointClass) then Exception(TimeCoordinateOnly) else Exception(NoCoordinates))
    ensures r.Ok? ==> r.value.cls == cls && CoordMap(r.value.coords) == CoordMap(kwargs) && r.value.data == data
    ensures r.Ok? && IsInstance(cls, TimePointClass) ==> PointT(r.value) == Some(kwargs[0].value) && PointTz(r.value) == Some(tz.GetOr(UTC))
    ensures r.Ok? && !CarriesData(cls) ==>
      PointData(r.value) == if "data" in CoordMap(kwargs) then Some(FloatData(CoordMap(kwargs)["data"])) else None
    ensures r.Ok? && !IsInstance(cls, TimePointClass) ==>
      PointTz(r.value) == if "tz" in CoordMap(kwargs) then Some(TzNumber(CoordMap(kwargs)["tz"])) else None
  {
    if CarriesData(cls) && data.None? then Err(Exception(MissingData))
    else if IsInstance(cls, TimePointClass) && !(|kwargs| == 1 && kwargs[0].name == "t") then Err(Exception(TimeCoordinateOnly))
    else if |kwargs| == 0 then Err(Exception(NoCoordinates))
    else
      assert IsInstance(cls, TimePointClass) ==> kwargs[..0] == [] && CoordMap(kwargs) == map["t" := kwargs[0].value];
      Ok(Point(cls, kwargs, tz, data))
  }

  /** A TimePoint at time t, optionally with a timezone. */
  function TimePointAt(t: real, tz: Option<Tz>): (p: Point)
    ensures NewPoint(TimePointClass, [Coord("t", t)], tz, None) == Ok(p)
  {
    Point(TimePointClass, [Coord("t", t)], tz, None)
  }

  /** `issubclass(c, of)` for two different classes: Python then runs the
      right operand's `__eq__` first. */
  predicate ProperSubclass(c: Class, of: Class) {
    c != of && IsInstance(c, of)
  }

  /** The `__eq__` of the class of `self`: DataPoint.__eq__ compares the
      `_data` attributes (AttributeError when either is missing) and then
      defers to Point.__eq__, which compares the coordinates dictionaries. */
  function PointOwnEq(self: Point, other: Point): Result<bool, Error> {
    if CarriesData(self.cls) then
      if self.data.None? || other.data.None? then Err(AttributeError(MissingAttribute))
      else if !DataEq(self.data.value, other.data.value) then Ok(false)
      else Ok(CoordMap(self.coords) == CoordMap(other.coords))
    else Ok(CoordMap(self.coords) == CoordMap(other.coords))
  }

  /** The class whose `__eq__` Python runs for `a == b` (and, negated, for
      `a != b`) between instances of classes a and b: b when it is a proper
      subclass of a, else a. */
  function EqClass(a: Class, b: Class): (c: Class)
    ensures c == a || c == b
  {
    if ProperSubclass(b, a) then b else a
  }

  /** `a == b` on points: same coordinates dictionary and, when the
      operand whose `__eq__` runs is a data point, equal data; a data point
      compared with a point without data fails on the missing `_data`. */
  function PointEq(a: Point, b: Point): (r: Result<bool, Error>)
    ensures r.Err? <==> CarriesData(EqClass(a.cls, b.cls)) && (a.data.None? || b.data.None?)
    ensures r.Err? ==> r.error == AttributeError(MissingAttribute)
    ensures r.Ok? ==>
      (r.value <==> CoordMap(a.coords) == CoordMap(b.coords)
                    && (CarriesData(EqClass(a.cls, b.cls)) ==> DataEq(a.data.value, b.data.value)))
  {
    if ProperSubclass(b.cls, a.cls) then PointOwnEq(b, a) else PointOwnEq(a, b)
  }

  lemma PointEqIsReflexive(p: Point)
    requires !CarriesData(p.cls) || p.data.Some?
    ensures PointEq(p, p) == Ok(true)
  {
    if CarriesData(p.cls) {
      match p.data.value
      case IntData(_) =>
      case FloatData(_) =>
      case _ =>
    }
  }

  /** Between two points whose classes both carry data or both do not,
      `==` does not depend on the order of its operands. */
  lemma PointEqIsSymmetric(a: Point, b: Point)
    requires CarriesData(a.cls) == CarriesData(b.cls)
    ensures PointEq(a, b) == PointEq(b, a)
  {
  }

  /** Only one `__eq__` runs: a TimePoint equals a DataPoint at the same
      time (Point.__eq__ ignores data), while the DataPoint on the left
      reads the TimePoint's missing `_data`. */
  lemma PointEqIsOneSided()
    ensures var tp := TimePointAt(1.0, None);
      var dp := Point(DataPointClass, [Coord("t", 1.0)], None, Some(IntData(1)));
      && PointEq(tp, dp) == Ok(true)
      && PointEq(dp, tp) == Err(AttributeError(MissingAttribute))
  {
    var tp := TimePointAt(1.0, None);
    var dp := Point(DataPointClass, [Coord("t", 1.0)], None, Some(IntData(1)));
    assert CoordMap(tp.coords) == map["t" := 1.0];
    assert dp.coords[..0] == [];
    assert CoordMap(dp.coords) == map["t" := 1.0];
  }

  /** TimePoint.__gt__: compares `t`; any other point has no ordering. */
  function PointGt(a: Point, otherT: Option<real>): (r: Result<bool, Error>)
    ensures r.Ok? <==> IsInstance(a.cls, TimePointClass) && PointT(a).Some? && otherT.Some?
    ensures r.Ok? ==> (r.value <==> PointT(a).value > otherT.value)
    ensures !IsInstance(a.cls, TimePointClass) ==> r == Err(TypeError(NotComparable))
  {
    if !IsInstance(a.cls, TimePointClass) then Err(TypeError(NotComparable))
    else if PointT(a).None? || otherT.None? then Err(AttributeError(MissingAttribute))
    else Ok(PointT(a).value > otherT.value)
  }

  /** A slot: its class, endpoints, the `span` given at construction, the
      timezone a TimeSlot takes from its start, and a DataSlot's coverage and
      data (None when the attribute is absent). */
  datatype Slot = Slot(
    cls: Class,
    start: Point,
    end: Point,
    spanSet: Option<real>,
    coverageSet: Option<real>,
    data: Option<Data>)

  /** The construction of a Slot, TimeSlot, DataSlot or DataTimeSlot, running
      the checks of DataSlot.__init__, TimeSlot.__init__ and Slot.__init__ in
      their method resolution order. */
  function NewSlot(cls: Class, start: Point, end: Point, span: Option<real>,
                   coverage: Option<real>, data: Option<Data>): (r: Result<Slot, Error>)
    requires IsInstance(cls, SlotClass)
    ensures r.Ok? <==>
      && (CarriesData(cls) <==> data.Some?)
      && (coverage.Some? ==> CarriesData(cls))
      && (IsInstance(cls, TimeSlotClass) && PointTz(start).Some? && PointTz(end).Some? ==> PointTz(start) == PointTz(end))
      && IsInstance(start.cls, PointType(cls))
      && IsInstance(end.cls, PointType(cls))
      && CoordMap(start.coords).Keys == CoordMap(end.coords).Keys
      && PointEq(start, end) == Ok(false)
    ensures r.Ok? ==> (r.value.start == start && r.value.end == end && r.value.cls == cls
      && r.value.spanSet == span && r.value.coverageSet == coverage && r.value.data == data)
    ensures r.Ok? && IsInstance(cls, TimeSlotClass) ==> SlotTz(r.value) == PointTz(start) == PointTz(end) && SlotTz(r.value).Some?
    ensures CarriesData(cls) && data.None? ==> r == Err(Exception(MissingData))
    ensures !CarriesData(cls) && data.Some? ==> r == Err(TypeError(UnexpectedArgument))
  {
    // Keyword arguments: only the data classes accept `data` and `coverage`
    if CarriesData(cls) && data.None? then Err(Exception(MissingData))
    else if !CarriesData(cls) && (data.Some? || coverage.Some?) then Err(TypeError(UnexpectedArgument))
    // TimeSlot.__init__: endpoints with a timezone must agree on it
    else if IsInstance(cls, TimeSlotClass) && PointTz(start).Some? && PointTz(end).Some?
         && PointTz(start) != PointTz(end) then Err(ValueError(StartEndTimezones))
    // Slot.__init__
    else if !IsInstance(start.cls, PointType(cls)) then Err(TypeError(NotAPoint))
    else if !IsInstance(end.cls, PointType(cls)) then Err(TypeError(NotAPoint))
    else if CoordMap(start.coords).Keys != CoordMap(end.coords).Keys then Err(ValueError(DifferentDimensions))
    else match PointEq(start, end)
      case Err(e) => Err(e)
      case Ok(true) => Err(ValueError(SameStartEnd))
      case Ok(false) =>
        Ok(Slot(cls, start, end, span, coverage, data))
  }

  /** `slot.tz`: TimeSlot.__init__ sets it to its start's timezone (its
      start is a TimePoint, which has one); other slots have no such
      attribute. */
  function SlotTz(s: Slot): Option<Tz> {
    if IsInstance(s.cls, TimeSlotClass) then PointTz(s.start) else None
  }

  /** A Slot may run from a TimePoint to a DataPoint: the start's
      `__eq__` decides that they differ; the other way round the DataPoint's
      `__eq__` reads the TimePoint's missing `_data`. */
  lemma NewSlotFromTimeToDataPoint()
    ensures var tp := TimePointAt(0.0, None);
      var dp := Point(DataPointClass, [Coord("t", 1.0)], None, Some(IntData(1)));
      && NewSlot(SlotClass, tp, dp, None, None, None).Ok?
      && NewSlot(SlotClass, dp, tp, None, None, None) == Err(AttributeError(MissingAttribute))
  {
    var tp := TimePointAt(0.0, None);
    var dp := Point(DataPointClass, [Coord("t", 1.0)], None, Some(IntData(1)));
    assert CoordMap(tp.coords) == map["t" := 0.0];
    assert dp.coords[..0] == [];
    assert CoordMap(dp.coords) == map["t" := 1.0];
  }

  /** Sum of end minus start over the given coordinate names. */
  function SpanSum(names: seq<string>, s: map<string, real>, e: map<string, real>): real
    requires forall k :: k in names ==> k in s && k in e
  {
    if |names| == 0 then 0.0
    else SpanSum(names[..|names| - 1], s, e) + (e[names[|names| - 1]] - s[names[|names| - 1]])
  }

  /** Slot._compute_span: the mean over the start's coordinates of end minus
      start; a coordinate missing from the end is a KeyError and a start
      without coordinates divides by zero. */
  function ComputeSpan(start: Point, end: Point): (r: Result<real, Error>)
    ensures r.Ok? <==> |CoordMap(start.coords)| > 0 && CoordMap(start.coords).Keys <= CoordMap(end.coords).Keys
    ensures !(CoordMap(start.coords).Keys <= CoordMap(end.coords).Keys) ==> r == Err(KeyError(MissingKey))
    ensures CoordMap(start.coords).Keys <= CoordMap(end.coords).Keys && r.Err? ==> r == Err(ZeroDivisionError(DivisionByZero))
    ensures r.Ok? && |Names(start.coords)| == 1 ==>
      var k := Names(start.coords)[0];
      k in CoordMap(end.coords) && r.value == CoordMap(end.coords)[k] - CoordMap(start.coords)[k]
  {
    var s := CoordMap(start.coords);
    var e := CoordMap(end.coords);
    var names := Names(start.coords);
    if exists k :: k in names && k !in e then Err(KeyError(MissingKey))
    else if |names| == 0 then
      assert s.Keys == {};
      Err(ZeroDivisionError(DivisionByZero))
    else
      assert names[0] in s;
      assert |names| == 1 ==> SpanSum(names, s, e) == e[names[0]] - s[names[0]] by {
        if |names| == 1 {
          assert names[..0] == [];
        }
      }
      Ok(SpanSum(names, s, e) / (|names| as real))
  }

  /** The terms of a span sum that are all d add up to d per name. */
  lemma {:induction false} SpanSumOfShift(names: seq<string>, s: map<string, real>, e: map<string, real>, d: real)
    requires forall k :: k in names ==> k in s && k in e && e[k] == s[k] + d
    ensures SpanSum(names, s, e) == (|names| as real) * d
    decreases |names|
  {
    if |names| > 0 {
      var init, last := names[..|names| - 1], names[|names| - 1];
      assert forall k :: k in init ==> k in names;
      SpanSumOfShift(init, s, e, d);
      assert last in names;
      assert SpanSum(names, s, e) == SpanSum(init, s, e) + (e[last] - s[last]);
      assert ((|names| - 1) as real) * d + d == (|names| as real) * d;
    }
  }

  lemma ComputeSpanIsMean(start: Point, end: Point)
    requires ComputeSpan(start, end).Ok?
    ensures var names := Names(start.coords);
      && (forall k :: k in names ==> k in CoordMap(start.coords) && k in CoordMap(end.coords))
      && ComputeSpan(start, end).value == SpanSum(names, CoordMap(start.coords), CoordMap(end.coords)) / (|names| as real)
  {
  }

  /** When the end lies d beyond the start in every coordinate, the
      computed span is d. */
  lemma ComputeSpanOfShift(start: Point, end: Point, d: real)
    requires |CoordMap(start.coords)| > 0
    requires forall k :: k in CoordMap(start.coords) ==>
      k in CoordMap(end.coords) && CoordMap(end.coords)[k] == CoordMap(start.coords)[k] + d
    ensures ComputeSpan(start, end) == Ok(d)
  {
    var s, e := CoordMap(start.coords), CoordMap(end.coords);
    var names := Names(start.coords);
    assert s.Keys <= e.Keys;
    ComputeSpanIsMean(start, end);
    assert |names| > 0 by {
      assert |s.Keys| == |s| > 0;
      var k :| k in s.Keys;
      assert k in names;
    }
    MeanOfShift(names, s, e, d);
  }

  lemma MeanOfShift(names: seq<string>, s: map<string, real>, e: map<string, real>, d: real)
    requires |names| > 0
    requires forall k :: k in names ==> k in s && k in e && e[k] == s[k] + d
    ensures SpanSum(names, s, e) / (|names| as real) == d
  {
    SpanSumOfShift(names, s, e, d);
  }

  /** Slot.span: the span given at construction, else the computed one. */
  function Span(s: Slot): Result<real, Error> {
    if s.spanSet.Some? then Ok(s.spanSet.value) else ComputeSpan(s.start, s.end)
  }

  /** DataSlot.coverage: None unless a coverage was given. */
  function Coverage(s: Slot): Option<real> {
    s.coverageSet
  }

  /** DataSlot.data_loss: one minus the coverage, None without a coverage. */
  function DataLoss(s: Slot): Option<real> {
    if s.coverageSet.Some? then Some(1.0 - s.coverageSet.value) else None
  }

  /** Whatever a data slot is built with, its coverage and data loss are both
      None or sum to one, and the coverage is the one given. */
  lemma CoverageAndDataLoss(cls: Class, start: Point, end: Point, span: Option<real>,
                            coverage: Option<real>, data: Option<Data>)
    requires IsInstance(cls, DataSlotClass)
    requires NewSlot(cls, start, end, span, coverage, data).Ok?
    ensures var s := NewSlot(cls, start, end, span, coverage, data).value;
      && Coverage(s) == coverage
      && (coverage.None? <==> DataLoss(s).None?)
      && (coverage.Some? ==> Coverage(s).value + DataLoss(s).value == 1.0)
  {
  }

  /** A TimeSlot between two TimePoints built by TimePointAt, without an
      explicit span, has span `end.t - start.t` (its duration), and its start
      and end cannot be the same time. */
  lemma TimeSlotSpanIsDuration(cls: Class, t0: real, t1: real, tz0: Option<Tz>, tz1: Option<Tz>,
                               coverage: Option<real>, data: Option<Data>)
    requires IsInstance(cls, TimeSlotClass)
    requires NewSlot(cls, TimePointAt(t0, tz0), TimePointAt(t1, tz1), None, coverage, data).Ok?
    ensures var s := NewSlot(cls, TimePointAt(t0, tz0), TimePointAt(t1, tz1), None, coverage, data).value;
      Span(s) == Ok(t1 - t0) && t0 != t1
  {
    var p0 := TimePointAt(t0, tz0);
    var p1 := TimePointAt(t1, tz1);
    assert CoordMap(p0.coords) == map["t" := t0];
    assert CoordMap(p1.coords) == map["t" := t1];
    ComputeSpanOfShift(p0, p1, t1 - t0);
  }

  /** An item of a serie: a point or a slot. */
  datatype Item = PointItem(point: Point) | SlotItem(slot: Slot)

  function ClassOf(x: Item): Class {
    match x
    case PointItem(p) => p.cls
    case SlotItem(s) => s.cls
  }

  /** `item.t`: points with a `t` coordinate have one, slots do not. */
  function ItemT(x: Item): Option<real> {
    match x
    case PointItem(p) => PointT(p)
    case SlotItem(_) => None
  }

  /** `item.data`: None when the item has no such attribute. */
  function ItemData(x: Item): Option<Data> {
    match x
    case PointItem(p) => PointData(p)
    case SlotItem(s) => s.data
  }

  /** `item.tz` as a TimeSlotSerie reads it: a slot's own `tz` attribute, or a
      point's `tz`. */
  function ItemTz(x: Item): Option<Tz> {
    match x
    case PointItem(p) => PointTz(p)
    case SlotItem(s) => SlotTz(s)
  }

  /** `item.start.tz`, read when a TimeSlotSerie builds its timezone
      ValueError message: points have no `start`. */
  function StartTz(x: Item): Option<Tz> {
    match x
    case PointItem(_) => None
    case SlotItem(s) => PointTz(s.start)
  }

  /** `item.span`: points have none (AttributeError). */
  function ItemSpan(x: Item): Result<real, Error> {
    match x
    case PointItem(_) => Err(AttributeError(MissingAttribute))
    case SlotItem(s) => Span(s)
  }

  /** Slot.__succedes__ and its TimeSlot override: a slot succeeds `other`
      when other's end is its start; a TimeSlot compares only the `t` of the
      two points, and accepts times that `close` (the source's is_close)
      considers equal. An `other` without the attributes read is an
      AttributeError. */
  function Succedes(s: Slot, other: Item, close: (real, real) -> bool): (r: Result<bool, Error>)
    ensures IsInstance(s.cls, TimeSlotClass) && r.Ok? ==>
      && other.SlotItem?
      && PointT(other.slot.end).Some? && PointT(s.start).Some?
      && (r.value <==> (PointT(other.slot.end) == PointT(s.start)
                        || close(PointT(other.slot.end).value, PointT(s.start).value)))
    ensures !IsInstance(s.cls, TimeSlotClass) && other.SlotItem? ==>
      var e := other.slot.end;
      && (r.Err? <==> CarriesData(EqClass(e.cls, s.start.cls)) && (e.data.None? || s.start.data.None?))
      && (r.Ok? ==> (r.value <==> CoordMap(e.coords) == CoordMap(s.start.coords)
                                  && (CarriesData(EqClass(e.cls, s.start.cls)) ==> DataEq(e.data.value, s.start.data.value))))
    ensures IsInstance(s.cls, TimeSlotClass) && other.SlotItem? ==>
      && (r.Ok? <==> PointT(other.slot.end).Some? && PointT(s.start).Some?)
      && (r.Err? ==> r.error == AttributeError(MissingAttribute))
    ensures other.PointItem? ==> r == Err(AttributeError(MissingAttribute))
  {
    if other.PointItem? then Err(AttributeError(MissingAttribute))
    else if IsInstance(s.cls, TimeSlotClass) then
      var e := PointT(other.slot.end);
      var b := PointT(s.start);
      if e.None? || b.None? then Err(AttributeError(MissingAttribute))
      else if e.value != b.value then Ok(close(e.value, b.value))
      else Ok(true)
    else
      match PointEq(other.slot.end, s.start)
      case Err(err) => Err(err)
      case Ok(eq) => Ok(eq)
  }

  /** The `__eq__` of the class of `self`: DataSlot.__eq__ compares the
      `_data` attributes and then defers to Slot.__eq__, which compares the
      starts and then the ends, each with the self slot's point on the left. */
  function SlotOwnEq(self: Slot, other: Slot): Result<bool, Error> {
    if CarriesData(self.cls) && (self.data.None? || other.data.None?) then Err(AttributeError(MissingAttribute))
    else if CarriesData(self.cls) && !DataEq(self.data.value, other.data.value) then Ok(false)
    else match PointEq(self.start, other.start)
      case Err(e) => Err(e)
      case Ok(false) => Ok(false)
      case Ok(true) => PointEq(self.end, other.end)
  }

  /** Whether a point never makes `==` fail: it is not a data point. */
  predicate PlainPoint(p: Point) {
    !CarriesData(p.cls)
  }

  /** `a == b` on slots: equal data when the slot whose `__eq__` runs is a
      data slot, the same start and the same end. With endpoints that are
      not data points the comparison fails only on a missing `_data` and
      otherwise says exactly that. */
  function SlotEq(a: Slot, b: Slot): (r: Result<bool, Error>)
    ensures r.Ok? && r.value ==>
      CoordMap(a.start.coords) == CoordMap(b.start.coords) && CoordMap(a.end.coords) == CoordMap(b.end.coords)
    ensures CarriesData(EqClass(a.cls, b.cls)) && (a.data.None? || b.data.None?) ==> r == Err(AttributeError(MissingAttribute))
    ensures CarriesData(EqClass(a.cls, b.cls)) && a.data.Some? && b.data.Some? && !DataEq(a.data.value, b.data.value) ==> r == Ok(false)
    ensures PlainPoint(a.start) && PlainPoint(a.end) && PlainPoint(b.start) && PlainPoint(b.end) ==>
      && (r.Err? <==> CarriesData(EqClass(a.cls, b.cls)) && (a.data.None? || b.data.None?))
      && (r.Ok? ==> (r.value <==>
            && CoordMap(a.start.coords) == CoordMap(b.start.coords) && CoordMap(a.end.coords) == CoordMap(b.end.coords)
            && (CarriesData(EqClass(a.cls, b.cls)) ==> DataEq(a.data.value, b.data.value))))
  {
    if ProperSubclass(b.cls, a.cls) then SlotOwnEq(b, a) else SlotOwnEq(a, b)
  }

  /** A slot equals itself when its data, if its class has any, is there. */
  lemma SlotEqIsReflexive(s: Slot)
    requires !CarriesData(s.cls) || s.data.Some?
    requires !CarriesData(s.start.cls) || s.start.data.Some?
    requires !CarriesData(s.end.cls) || s.end.data.Some?
    ensures SlotEq(s, s) == Ok(true)
  {
    PointEqIsReflexive(s.start);
    PointEqIsReflexive(s.end);
    if CarriesData(s.cls) {
      match s.data.value
      case IntData(_) =>
      case FloatData(_) =>
      case _ =>
    }
  }

  /** A TimeSlot and a DataSlot over the same points are equal (only
      Slot.__eq__ runs); a TimeSlot and a DataTimeSlot are not comparable,
      since the DataTimeSlot's `__eq__` runs and reads the missing `_data`. */
  lemma SlotEqDispatch(s: Slot, d: Slot, dt: Slot)
    requires s.cls == TimeSlotClass && s.data.None? && PlainPoint(s.start) && PlainPoint(s.end)
    requires d.cls == DataSlotClass && d.data.Some? && d.start == s.start && d.end == s.end
    requires dt.cls == DataTimeSlotClass
    ensures SlotEq(s, d) == Ok(true)
    ensures SlotEq(s, dt) == Err(AttributeError(MissingAttribute))
  {
    PointEqIsReflexive(s.start);
    PointEqIsReflexive(s.end);
  }
}

=== FILE: lifecycle.dfy ===
/** The life cycle of the models of timeseria/models.py: a Model (stateless)
    guards `predict`, `apply` and `evaluate`; a ParametricModel adds `fit`,
    a `fitted` flag that every other operation requires, `save` and
    `evaluation_score`. Each operation runs its guards in a fixed order and
    then the model's own hook (`_predict`, `_apply`, ...), whose outcome is a
    parameter here. */
module Lifecycle {
  import opened Wrappers
  import opened Errors

  datatype Operation = Predict | Apply | Evaluate | Fit

  datatype Kind = Stateless | Parametric

  /** A model: its kind, the hooks its class defines, the `fitted` flag,
      whether `data` holds an evaluation score, and whether `predict` is
      overridden to refuse (the reconstructors of
      timeseria/models/reconstructors.py). */
  datatype Model = Model(kind: Kind, hooks: set<Operation>, fitted: bool, score: Option<real>, applyOnly: bool)

  /** What an operation is given: whether it is a DataTimeSlotSeries, and its
      length. */
  datatype Input = Input(isSeries: bool, length: nat)

  /** ParametricModel.__init__: fitted exactly when loaded from a path. */
  function NewParametric(hooks: set<Operation>, loaded: bool, score: Option<real>, applyOnly: bool): (m: Model)
    ensures m.fitted <==> loaded
    ensures !loaded ==> m.score.None?
  {
    Model(Parametric, hooks, loaded, if loaded then score else None, applyOnly)
  }

  /** The guards of an operation, in the order the source runs them; None
      when the hook may run. */
  function Guard(m: Model, op: Operation, x: Input): (r: Option<Error>)
    ensures r.None? <==>
      && !(m.applyOnly && op == Predict)
      && !(m.kind == Stateless && op == Fit)
      && op in m.hooks
      && (m.kind == Parametric && op != Fit ==> m.fitted)
      && x.isSeries && x.length > 0
    ensures m.applyOnly && op == Predict ==> r == Some(NotImplementedError(ApplyOnly))
    ensures !(m.applyOnly && op == Predict) && !(m.kind == Stateless && op == Fit) && op !in m.hooks ==>
      r == Some(NotImplementedError(HookMissing))
    ensures r == Some(NotFittedError) <==>
      !(m.applyOnly && op == Predict) && op in m.hooks && m.kind == Parametric && op != Fit && !m.fitted
    ensures r.Some? && r.value.TypeError? ==> !x.isSeries
    ensures r.Some? && r.value.ValueError? ==> x.isSeries && x.length == 0
  {
    if m.applyOnly && op == Predict then Some(NotImplementedError(ApplyOnly))
    else if m.kind == Stateless && op == Fit then Some(AttributeError(MissingAttribute))
    else if op !in m.hooks then Some(NotImplementedError(HookMissing))
    else if m.kind == Parametric && op != Fit && !m.fitted then Some(NotFittedError)
    else if !x.isSeries then Some(TypeError(NotASeries))
    else if x.length == 0 then Some(ValueError(EmptySeries))
    else None
  }

  /** A call: the model afterwards and the error raised, if any. */
  datatype Outcome = Outcome(model: Model, error: Option<Error>)

  /** Calling an operation whose hook, once reached, ends with `hookError`
      (None when it returns). Only a fit whose hook returns sets `fitted`. */
  function Call(m: Model, op: Operation, x: Input, hookError: Option<Error>): (o: Outcome)
    ensures o.model.fitted <==> m.fitted || (op == Fit && Guard(m, op, x).None? && hookError.None?)
    ensures o.model.hooks == m.hooks && o.model.kind == m.kind && o.model.score == m.score && o.model.applyOnly == m.applyOnly
    ensures Guard(m, op, x).Some? ==> o.error == Guard(m, op, x)
    ensures Guard(m, op, x).None? ==> o.error == hookError
  {
    match Guard(m, op, x)
    case Some(e) => Outcome(m, Some(e))
    case None =>
      if hookError.Some? then Outcome(m, hookError)
      else if op == Fit then Outcome(m.(fitted := true), None)
      else Outcome(m, None)
  }

  /** ParametricModel.save (the writing itself is not modelled). */
  function Save(m: Model): (r: Option<Error>)
    ensures r.None? <==> m.fitted
  {
    if !m.fitted then Some(NotFittedError) else None
  }

  /** ParametricModel.evaluation_score: the stored score, once fitted. */
  function EvaluationScore(m: Model): (r: Result<real, Error>)
    ensures !m.fitted ==> r == Err(NotFittedError)
    ensures m.fitted && m.score.None? ==> r == Err(KeyError(MissingKey))
    ensures r.Ok? <==> m.fitted && m.score.Some?
    ensures r.Ok? ==> r.value == m.score.value
  {
    if !m.fitted then Err(NotFittedError)
    else if m.score.None? then Err(KeyError(MissingKey))
    else Ok(m.score.value)
  }

  /** A call made on a model: the operation, its input and how its hook ends. */
  datatype Request = Request(op: Operation, input: Input, hookError: Option<Error>)

  /** The model after a sequence of calls, and the error of each call. */
  function Run(m: Model, rs: seq<Request>): (o: (Model, seq<Option<Error>>))
    ensures |o.1| == |rs|
    decreases |rs|
  {
    if |rs| == 0 then (m, [])
    else
      var first := Call(m, rs[0].op, rs[0].input, rs[0].hookError);
      var rest := Run(first.model, rs[1..]);
      (rest.0, [first.error] + rest.1)
  }

  /** Once fitted, a model stays fitted and never again raises
      NotFittedError, whatever is called on it. */
  lemma {:induction false} FittedIsForever(m: Model, rs: seq<Request>)
    requires m.fitted
    ensures Run(m, rs).0.fitted
    ensures forall i :: 0 <= i < |rs| ==> Run(m, rs).1[i] != Some(NotFittedError) || rs[i].hookError == Some(NotFittedError)
    decreases |rs|
  {
    if |rs| > 0 {
      var first := Call(m, rs[0].op, rs[0].input, rs[0].hookError);
      FittedIsForever(first.model, rs[1..]);
      forall i | 0 <= i < |rs|
        ensures Run(m, rs).1[i] != Some(NotFittedError) || rs[i].hookError == Some(NotFittedError)
      {
        if i > 0 {
          assert Run(m, rs).1[i] == Run(first.model, rs[1..]).1[i - 1];
          assert rs[i] == rs[1..][i - 1];
        }
      }
    }
  }

  /** A parametric model never fitted: as long as no fit is called, every
      predict, apply or evaluate its class implements raises NotFittedError
      (unless the reconstructor's predict refuses first). */
  lemma {:induction false} NotFittedUntilFit(m: Model, rs: seq<Request>)
    requires m.kind == Parametric && !m.fitted
    requires forall i :: 0 <= i < |rs| ==> rs[i].op != Fit
    ensures !Run(m, rs).0.fitted
    ensures forall i :: 0 <= i < |rs| && rs[i].op in m.hooks && !(m.applyOnly && rs[i].op == Predict) ==>
      Run(m, rs).1[i] == Some(NotFittedError)
    decreases |rs|
  {
    if |rs| > 0 {
      var first := Call(m, rs[0].op, rs[0].input, rs[0].hookError);
      assert first.model == m;
      NotFittedUntilFit(m, rs[1..]);
      forall i | 0 <= i < |rs| && rs[i].op in m.hooks && !(m.applyOnly && rs[i].op == Predict)
        ensures Run(m, rs).1[i] == Some(NotFittedError)
      {
        if i > 0 {
          assert Run(m, rs).1[i] == Run(m, rs[1..]).1[i - 1];
          assert rs[i] == rs[1..][i - 1];
        }
      }
    }
  }
}

=== FILE: metrics.dfy ===
/** `mean_error` of timeseria/models.py: the mean absolute difference of two
    equally long lists of numbers. */
module Metrics {
  import opened Wrappers
  import opened Errors

  function Abs(x: real): real {
    if x < 0.0 then -x else x
  }

  /** The sum of |a[i] - b[i]| over the first n positions. */
  function SumAbsDiff(a: seq<real>, b: seq<real>, n: nat): (r: real)
    requires n <= |a| && n <= |b|
    ensures 0.0 <= r
    decreases n
  {
    if n == 0 then 0.0 else SumAbsDiff(a, b, n - 1) + Abs(a[n - 1] - b[n - 1])
  }

  /** mean_error: a ValueError on lists of different lengths, the
      ZeroDivisionError Python raises on two empty lists, and otherwise the
      sum of absolute differences over the length. */
  method MeanError(a: seq<real>, b: seq<real>) returns (r: Result<real, Error>)
    ensures |a| != |b| ==> r == Err(ValueError(LengthMismatch))
    ensures |a| == |b| == 0 ==> r == Err(ZeroDivisionError(DivisionByZero))
    ensures |a| == |b| > 0 ==> r == Ok(SumAbsDiff(a, b, |a|) / (|a| as real))
    ensures r.Ok? ==> 0.0 <= r.value
  {
    if |a| != |b| {
      return Err(ValueError(LengthMismatch));
    }
    var sum := 0.0;
    var i := 0;
    while i < |a|
      invariant 0 <= i <= |a|
      invariant sum == SumAbsDiff(a, b, i)
    {
      sum := sum + Abs(a[i] - b[i]);
      i := i + 1;
    }
    if |a| == 0 {
      return Err(ZeroDivisionError(DivisionByZero));
    }
    return Ok(sum / (|a| as real));
  }

  /** The sum of absolute differences is zero exactly when the lists agree on
      those positions. */
  lemma {:induction false} SumAbsDiffZeroIff(a: seq<real>, b: seq<real>, n: nat)
    requires n <= |a| && n <= |b|
    ensures SumAbsDiff(a, b, n) == 0.0 <==> a[..n] == b[..n]
    decreases n
  {
    if n > 0 {
      SumAbsDiffZeroIff(a, b, n - 1);
      assert a[..n] == a[..n - 1] + [a[n - 1]];
      assert b[..n] == b[..n - 1] + [b[n - 1]];
      if a[..n] == b[..n] {
        assert a[..n - 1] == a[..n][..n - 1];
        assert b[..n - 1] == b[..n][..n - 1];
        assert a[n - 1] == a[..n][n - 1];
      }
    }
  }

  /** The mean error of two non-empty lists of the same length is zero
      exactly when the lists are equal. */
  lemma MeanErrorZeroIffEqual(a: seq<real>, b: seq<real>)
    requires |a| == |b| > 0
    ensures SumAbsDiff(a, b, |a|) / (|a| as real) == 0.0 <==> a == b
  {
    SumAbsDiffZeroIff(a, b, |a|);
    assert a[..|a|] == a && b[..|b|] == b;
  }

  /** The mean error does not depend on the order of its arguments. */
  lemma {:induction false} SumAbsDiffSymmetric(a: seq<real>, b: seq<real>, n: nat)
    requires n <= |a| && n <= |b|
    ensures SumAbsDiff(a, b, n) == SumAbsDiff(b, a, n)
    decreases n
  {
    if n > 0 {
      SumAbsDiffSymmetric(a, b, n - 1);
    }
  }
}

=== FILE: periodicity.dfy ===
/** `get_periodicity_index` of timeseria/models.py: the position of a time
    within a period of `p` slots, `int(t / d) % p` for a slot unit of `d`
    seconds, optionally shifted by the daylight-saving offset in effect at t.
    Python's `int()` truncates toward zero and its `%` takes the sign of the
    divisor; both are written out below. The daylight-saving offset comes
    from the timezone database and is a parameter here. */
module Periodicity {
  import opened Wrappers
  import opened Errors

  /** The `type` of a TimeUnit. */
  datatype UnitKind = Logical | Physical | OtherKind

  /** The `value` of a slot unit that is not a TimeUnit: a number of seconds,
      or a list (a unit in a multi-dimensional space). */
  datatype UnitValue = Number(x: real) | Vector(xs: seq<real>)

  /** A slot unit: a TimeUnit with a type and a duration in seconds, or a
      plain unit with a value. */
  datatype SlotUnit = TimeUnit(kind: UnitKind, duration: real) | ValueUnit(value: UnitValue)

  /** `datetime.dst()` of the slot start: a timedelta of days and seconds. */
  datatype Dst = Dst(days: int, seconds: int)

  /** Python's `int()` on a float: truncation toward zero. */
  function Trunc(x: real): (r: int)
    ensures 0.0 <= x ==> r as real <= x < r as real + 1.0
    ensures x < 0.0 ==> r as real - 1.0 < x <= r as real
  {
    if x >= 0.0 then x.Floor else -((-x).Floor)
  }

  /** The values Python's `% p` can take: from 0 up to p, exclusive, with
      the sign of p. */
  predicate PyRange(k: int, p: int) {
    (0 < p ==> 0 <= k < p) && (p < 0 ==> p < k <= 0)
  }

  /** Python's `a % p` on integers: the remainder with the sign of p, which
      differs from a by a multiple of p. */
  function PyMod(a: int, p: int): (r: int)
    requires p != 0
    ensures PyRange(r, p)
    ensures (a - r) % p == 0
  {
    if p > 0 then
      RemainderCongruent(a, p);
      a % p
    else
      RemainderCongruent(-a, -p);
      assert a - -((-a) % (-p)) == -((-a) - (-a) % (-p));
      NegatedNoRemainder(p, (-a) - (-a) % (-p));
      -((-a) % (-p))
  }

  lemma RemainderCongruent(a: int, p: int)
    requires 0 < p
    ensures (a - a % p) % p == 0
  {
    var q := a / p;
    assert a - a % p == p * q;
    MultipleHasNoRemainder(p, q);
  }

  lemma NegatedNoRemainder(p: int, x: int)
    requires p != 0 && x % (-p) == 0
    ensures (-x) % p == 0
  {
    var q := x / (-p);
    assert x == (-p) * q;
    assert -x == p * q;
    MultipleHasNoRemainder(p, q);
  }

  lemma MultipleHasNoRemainder(p: int, q: int)
    requires p != 0
    ensures (p * q) % p == 0
  {
    var a := p * q;
    var q', r' := a / p, a % p;
    assert p * (q - q') == r';
    if q != q' {
      AbsMulAtLeast(p, q - q');
    }
  }

  lemma AbsMulAtLeast(p: int, k: int)
    requires p != 0 && k != 0
    ensures p * k >= p || p * k <= -p
    ensures p * k <= p || p * k >= -p
  {
    if k > 0 { MulAtLeast(if p > 0 then p else -p, k); }
    else { MulAtLeast(if p > 0 then p else -p, -k); }
  }

  /** The remainder is the one value in range that differs from a by a
      multiple of p. */
  lemma {:induction false} PyModUnique(a: int, p: int, k: int)
    requires p != 0 && PyRange(k, p) && (a - k) % p == 0
    ensures PyMod(a, p) == k
  {
    var q := (a - k) / p;
    assert a - k == p * q;
    if p > 0 {
      DivModUnique(a, p, q, k);
    } else {
      assert -a == (-p) * q + (-k);
      DivModUnique(-a, -p, q, -k);
    }
  }

  /** The duration in seconds of a slot unit, or the error the source raises
      for the units it does not support. */
  function UnitDuration(u: SlotUnit): (r: Result<real, Error>)
    ensures r.Ok? <==> (u.TimeUnit? && u.kind == Physical) || (u.ValueUnit? && u.value.Number?)
    ensures u.TimeUnit? && u.kind == Logical ==> r == Err(NotImplementedError(LogicalUnit))
    ensures u.TimeUnit? && u.kind == OtherKind ==> r == Err(Exception(UnknownUnitType))
    ensures u.ValueUnit? && u.value.Vector? ==> r == Err(NotImplementedError(MultiDimensionalUnit))
  {
    match u
    case TimeUnit(kind, duration) =>
      (match kind
       case Logical => Err(NotImplementedError(LogicalUnit))
       case Physical => Ok(duration)
       case OtherKind => Err(Exception(UnknownUnitType)))
    case ValueUnit(Vector(_)) => Err(NotImplementedError(MultiDimensionalUnit))
    case ValueUnit(Number(x)) => Ok(x)
  }

  /** `int(t / d) % p`, with the ZeroDivisionError Python raises on a zero
      unit or a zero period. */
  function IndexAt(t: real, d: real, p: int): (r: Result<int, Error>)
    ensures r.Ok? <==> d != 0.0 && p != 0
    ensures r.Err? ==> r.error == ZeroDivisionError(DivisionByZero)
    ensures r.Ok? ==> PyRange(r.value, p)
  {
    if d == 0.0 || p == 0 then Err(ZeroDivisionError(DivisionByZero))
    else Ok(PyMod(Trunc(t / d), p))
  }

  predicate NoDst(dst: Dst) {
    dst.days == 0 && dst.seconds == 0
  }

  /** get_periodicity_index: the unit's duration, then either the plain index
      or, when DST is in effect, the index of the time shifted by the DST
      offset; a DST of whole days or a unit coarser than an hour raises. */
  function PeriodicityIndex(t: real, u: SlotUnit, p: int, dstAffected: bool, dst: Dst): (r: Result<int, Error>)
    ensures UnitDuration(u).Err? ==> r == Err(UnitDuration(u).error)
    ensures r.Ok? <==>
      && UnitDuration(u).Ok? && UnitDuration(u).value != 0.0 && p != 0
      && (dstAffected && !NoDst(dst) ==> dst.days == 0 && UnitDuration(u).value <= 3600.0)
    ensures UnitDuration(u).Ok? && dstAffected && !NoDst(dst) && dst.days != 0 ==> r == Err(Exception(DstDays))
    ensures UnitDuration(u).Ok? && dstAffected && !NoDst(dst) && dst.days == 0 && UnitDuration(u).value > 3600.0 ==>
      r == Err(Exception(DstResolution))
    ensures r.Ok? ==> PyRange(r.value, p)
    ensures r.Ok? && (!dstAffected || NoDst(dst)) ==> r == IndexAt(t, UnitDuration(u).value, p)
    ensures r.Ok? && dstAffected && !NoDst(dst) ==> r == IndexAt(t + dst.seconds as real, UnitDuration(u).value, p)
  {
    var d :- UnitDuration(u);
    if !dstAffected || NoDst(dst) then IndexAt(t, d, p)
    else if dst.days != 0 then Err(Exception(DstDays))
    else if d > 3600.0 then Err(Exception(DstResolution))
    else IndexAt(t + dst.seconds as real, d, p)
  }

  /** Slot n of width d holds t, numbered as `int(t / d)` numbers them:
      counting from zero upwards for t >= 0 and, since `int()` truncates
      toward zero, with each slot's upper end included below zero. */
  predicate InSlot(t: real, d: real, n: int) {
    if 0.0 <= t then (n as real) * d <= t < ((n + 1) as real) * d
    else ((n - 1) as real) * d < t <= (n as real) * d
  }

  lemma BelowQuotient(t: real, d: real, x: real)
    requires 0.0 < d && x * d <= t
    ensures x <= t / d
  {
    assert (t / d) * d == t;
  }

  lemma AboveQuotient(t: real, d: real, x: real)
    requires 0.0 < d && t < x * d
    ensures t / d < x
  {
    assert (t / d) * d == t;
  }

  lemma AtMostQuotient(t: real, d: real, x: real)
    requires 0.0 < d && t <= x * d
    ensures t / d <= x
  {
    assert (t / d) * d == t;
  }

  lemma UnderQuotient(t: real, d: real, x: real)
    requires 0.0 < d && x * d < t
    ensures x < t / d
  {
    assert (t / d) * d == t;
  }

  /** `int(t / d)` is the number of the slot that holds t. */
  lemma TruncOfSlot(t: real, d: real, n: int)
    requires 0.0 < d && InSlot(t, d, n)
    ensures Trunc(t / d) == n
  {
    if 0.0 <= t {
      BelowQuotient(t, d, n as real);
      AboveQuotient(t, d, (n + 1) as real);
    } else {
      UnderQuotient(t, d, (n - 1) as real);
      AtMostQuotient(t, d, n as real);
    }
  }

  /** The plain index is k exactly when k is in the remainder's range and
      the slot that holds t is k more than a whole number of periods. */
  lemma {:induction false} IndexAtSlot(t: real, d: real, p: int, n: int, k: int)
    requires 0.0 < d && p != 0 && InSlot(t, d, n)
    ensures IndexAt(t, d, p) == Ok(k) <==> PyRange(k, p) && (n - k) % p == 0
  {
    TruncOfSlot(t, d, n);
    if PyRange(k, p) && (n - k) % p == 0 {
      PyModUnique(n, p, k);
    }
  }

  /** The time the index is taken of: t, moved by the DST seconds when the
      item is DST-affected and DST is in effect. */
  function IndexedTime(t: real, dstAffected: bool, dst: Dst): real {
    if dstAffected && !NoDst(dst) then t + dst.seconds as real else t
  }

  /** For a supported unit and DST, the periodicity index is k exactly when
      the slot that holds the (DST-moved) time is k more than a whole number
      of periods. */
  lemma {:induction false} PeriodicityIndexSlot(t: real, u: SlotUnit, p: int, dstAffected: bool, dst: Dst, n: int, k: int)
    requires UnitDuration(u).Ok? && 0.0 < UnitDuration(u).value && p != 0
    requires dstAffected && !NoDst(dst) ==> dst.days == 0 && UnitDuration(u).value <= 3600.0
    requires InSlot(IndexedTime(t, dstAffected, dst), UnitDuration(u).value, n)
    ensures PeriodicityIndex(t, u, p, dstAffected, dst) == Ok(k) <==> PyRange(k, p) && (n - k) % p == 0
  {
    IndexAtSlot(IndexedTime(t, dstAffected, dst), UnitDuration(u).value, p, n, k);
  }

  /** The periodicity index of a start time for a slot unit, as the models
      call it for a periodicity and a DST setting; `dstAt` is the DST offset
      in effect at a time (from the timezone database). */
  function IndexFor(u: SlotUnit, dstAt: real -> Dst): (int, bool) -> (real -> Result<int, Error>) {
    (p: int, dstAffected: bool) => (t: real) => PeriodicityIndex(t, u, p, dstAffected, dstAt(t))
  }

  /** With DST in effect (and supported), the index is the plain index of the
      time moved forward by the DST seconds; a zero DST offset gives exactly
      the plain index. */
  lemma DstShiftsTime(t: real, u: SlotUnit, p: int, seconds: int, other: Dst)
    requires seconds == 0 || (UnitDuration(u).Ok? && UnitDuration(u).value <= 3600.0)
    ensures PeriodicityIndex(t, u, p, true, Dst(0, seconds)) == PeriodicityIndex(t + seconds as real, u, p, false, other)
  {
  }

  lemma FloorShift(x: real, k: int)
    requires 0.0 <= x
    ensures (x + k as real).Floor == x.Floor + k
  {
  }

  lemma MulAtLeast(p: int, k: int)
    requires p > 0 && k >= 1
    ensures p * k >= p
  {
  }

  /** The quotient and remainder of Euclidean division are unique. */
  lemma DivModUnique(a: int, p: int, q: int, r: int)
    requires p > 0 && 0 <= r < p && a == p * q + r
    ensures a % p == r
  {
    var q', r' := a / p, a % p;
    assert p * (q' - q) == r - r';
    if q' > q {
      MulAtLeast(p, q' - q);
    } else if q' < q {
      MulAtLeast(p, q - q');
    }
  }

  /** Python's `%` is periodic in its left operand. */
  lemma PyModShift(a: int, p: int)
    requires p > 0
    ensures PyMod(a + p, p) == PyMod(a, p)
  {
    var q, r := a / p, a % p;
    assert a + p == p * (q + 1) + r;
    DivModUnique(a + p, p, q + 1, r);
  }

  lemma DivAddMultiple(t: real, y: real, d: real)
    requires d != 0.0
    ensures (t + y * d) / d == t / d + y
  {
    assert (t / d + y) * d == t + y * d;
  }

  lemma QuotientNonNegative(t: real, d: real)
    requires 0.0 <= t && 0.0 < d
    ensures 0.0 <= t / d
  {
  }

  lemma TruncModShift(x: real, p: int)
    requires 0.0 <= x && p > 0
    ensures PyMod(Trunc(x + p as real), p) == PyMod(Trunc(x), p)
  {
    FloorShift(x, p);
    PyModShift(Trunc(x), p);
  }

  /** The plain index is periodic: a whole period of slots later, the index
      is the same. */
  lemma IndexAtShift(t: real, d: real, p: int)
    requires 0.0 <= t && 0.0 < d && p > 0
    ensures IndexAt(t + (p as real) * d, d, p) == IndexAt(t, d, p)
  {
    var y := t + (p as real) * d;
    DivAddMultiple(t, p as real, d);
    QuotientNonNegative(t, d);
    TruncModShift(t / d, p);
  }

  /** Without DST, moving a non-negative time forward by a whole period of
      slots leaves the index unchanged. */
  lemma ShiftByPeriod(t: real, u: SlotUnit, d: real, p: int, other: Dst)
    requires 0.0 <= t
    requires UnitDuration(u) == Ok(d) && d > 0.0 && p > 0
    ensures PeriodicityIndex(t + (p as real) * d, u, p, false, other) == PeriodicityIndex(t, u, p, false, other)
  {
    IndexAtShift(t, d, p);
    SameQuotientIndex(t, t + (p as real) * d, u, p, other);
  }

  /** Without DST, times with the same plain index have the same index. */
  lemma SameQuotientIndex(a: real, b: real, u: SlotUnit, p: int, other: Dst)
    requires UnitDuration(u).Ok? && IndexAt(b, UnitDuration(u).value, p) == IndexAt(a, UnitDuration(u).value, p)
    ensures PeriodicityIndex(b, u, p, false, other) == PeriodicityIndex(a, u, p, false, other)
  {
  }
}

=== FILE: reconstruction.dfy ===
/** The periodic-average reconstructor: `_apply` scans a series for gaps and
    rewrites each gap item as the periodic average at its index plus an
    offset computed for the whole gap; items outside gaps are marked as not
    reconstructed. Two versions of the source are modelled: `Legacy` is
    timeseria/models.py, where an unknown data loss cannot be compared and
    `remove_data_loss` sets the coverage to 1; `Current` is
    timeseria/models/reconstructors.py, where an unknown data loss is never a
    gap, `remove_data_loss` drops the data loss, and the offset can also be
    taken from the gap's extremes. */
module Reconstruction {
  import opened Wrappers
  import opened Errors
  import opened Gaps
  import opened Averages

  datatype Version = Legacy | Current

  /** `offset_method`: the mean residual over the gap, or the residuals of
      the items around it, read as the source reads them
      (`ExtremesAsWritten`) or as evidently intended (`Extremes`). */
  datatype OffsetMethod = Average | ExtremesAsWritten | Extremes

  /** The `offset_method` argument of the current fit: "extremes" selects
      the offset the source computes. */
  function ParseOffsetMethod(name: string): (r: Result<OffsetMethod, Error>)
    ensures r == Ok(Average) <==> name == "average"
    ensures r == Ok(ExtremesAsWritten) <==> name == "extremes"
    ensures r != Ok(Extremes)
    ensures r.Err? ==> r.error == Exception(UnknownOffsetMethod)
  {
    if name == "average" then Ok(Average)
    else if name == "extremes" then Ok(ExtremesAsWritten)
    else Err(Exception(UnknownOffsetMethod))
  }

  // ---------------------------------------------------------------------------
  // Residuals and offsets

  predicate Known(x: Sample, avgs: map<int, real>, index: real -> int) {
    index(x.start) in avgs
  }

  /** How far an item's value lies above the average at its index. */
  function Residual(x: Sample, avgs: map<int, real>, index: real -> int): real
    requires Known(x, avgs, index)
  {
    x.value - avgs[index(x.start)]
  }

  predicate AllKnown(s: seq<Sample>, lo: nat, hi: nat, avgs: map<int, real>, index: real -> int)
    requires lo <= hi <= |s|
  {
    forall j :: lo <= j < hi ==> Known(s[j], avgs, index)
  }

  function ValueSum(s: seq<Sample>, lo: nat, hi: nat): real
    requires lo <= hi <= |s|
    decreases hi
  {
    if lo == hi then 0.0 else ValueSum(s, lo, hi - 1) + s[hi - 1].value
  }

  function AverageSum(s: seq<Sample>, lo: nat, hi: nat, avgs: map<int, real>, index: real -> int): real
    requires lo <= hi <= |s| && AllKnown(s, lo, hi, avgs, index)
    decreases hi
  {
    if lo == hi then 0.0 else AverageSum(s, lo, hi - 1, avgs, index) + avgs[index(s[hi - 1].start)]
  }

  function ResidualSum(s: seq<Sample>, lo: nat, hi: nat, avgs: map<int, real>, index: real -> int): (r: real)
    requires lo <= hi <= |s| && AllKnown(s, lo, hi, avgs, index)
    ensures r == ValueSum(s, lo, hi) - AverageSum(s, lo, hi, avgs, index)
    decreases hi
  {
    if lo == hi then 0.0 else ResidualSum(s, lo, hi - 1, avgs, index) + Residual(s[hi - 1], avgs, index)
  }

  /** The `average` offset: the mean residual over the gap, so that offset
      times the gap length is the total by which the gap's values exceed
      their averages. A missing average raises KeyError. */
  function AverageOffset(s: seq<Sample>, r: Run, avgs: map<int, real>, index: real -> int): (o: Result<real, Error>)
    requires r.from < r.to <= |s|
    ensures o.Ok? <==> AllKnown(s, r.from, r.to, avgs, index)
    ensures o.Err? ==> o.error == KeyError(MissingKey)
  {
    if !AllKnown(s, r.from, r.to, avgs, index) then Err(KeyError(MissingKey))
    else Ok(ResidualSum(s, r.from, r.to, avgs, index) / ((r.to - r.from) as real))
  }

  /** The `average` offset times the gap length is the total by which the
      gap's values exceed their averages. */
  lemma AverageOffsetIsMeanResidual(s: seq<Sample>, r: Run, avgs: map<int, real>, index: real -> int)
    requires r.from < r.to <= |s| && AverageOffset(s, r, avgs, index).Ok?
    ensures AverageOffset(s, r, avgs, index).value * ((r.to - r.from) as real)
            == ValueSum(s, r.from, r.to) - AverageSum(s, r.from, r.to, avgs, index)
  {
  }

  /** Python's `s[k]` for k in [-1, |s|): -1 is the last item. */
  function PyIndex(n: nat, k: int): (p: nat)
    requires 0 < n && -1 <= k < n
    ensures p < n
    ensures 0 <= k ==> p == k
  {
    if k < 0 then n - 1 else k
  }

  /** The `extremes` offset as the source computes it: the residuals at
      positions from-1 and to+1 with Python's indexing, where -1 is the last
      item and an index past the end raises IndexError, which the source
      turns into a zero offset (after the first residual was read). */
  function ExtremesOffsetAsWritten(s: seq<Sample>, r: Run, avgs: map<int, real>, index: real -> int): (o: Result<real, Error>)
    requires r.from < r.to <= |s|
    ensures !Known(s[PyIndex(|s|, r.from - 1)], avgs, index) ==> o == Err(KeyError(MissingKey))
    ensures Known(s[PyIndex(|s|, r.from - 1)], avgs, index) && r.to + 1 >= |s| ==> o == Ok(0.0)
    ensures r.to + 1 < |s| ==>
      (o.Ok? <==> Known(s[PyIndex(|s|, r.from - 1)], avgs, index) && Known(s[r.to + 1], avgs, index))
    ensures r.to + 1 < |s| && o.Ok? ==>
      o.value == (Residual(s[PyIndex(|s|, r.from - 1)], avgs, index) + Residual(s[r.to + 1], avgs, index)) / 2.0
    ensures o.Err? ==> o.error == KeyError(MissingKey)
  {
    var before := PyIndex(|s|, r.from - 1);
    if !Known(s[before], avgs, index) then Err(KeyError(MissingKey))
    else if r.to + 1 >= |s| then Ok(0.0)
    else if !Known(s[r.to + 1], avgs, index) then Err(KeyError(MissingKey))
    else Ok((Residual(s[before], avgs, index) + Residual(s[r.to + 1], avgs, index)) / 2.0)
  }

  /** The `extremes` offset as intended: the mean residual of the items just
      before and just after the gap, zero when the gap touches either end of
      the series. */
  function ExtremesOffset(s: seq<Sample>, r: Run, avgs: map<int, real>, index: real -> int): (o: Result<real, Error>)
    requires r.from < r.to <= |s|
    ensures r.from == 0 || r.to == |s| ==> o == Ok(0.0)
    ensures 0 < r.from && r.to < |s| ==>
      (o.Ok? <==> Known(s[r.from - 1], avgs, index) && Known(s[r.to], avgs, index))
    ensures o.Err? ==> o.error == KeyError(MissingKey)
  {
    if r.from == 0 || r.to == |s| then Ok(0.0)
    else if !Known(s[r.from - 1], avgs, index) || !Known(s[r.to], avgs, index) then Err(KeyError(MissingKey))
    else Ok((Residual(s[r.from - 1], avgs, index) + Residual(s[r.to], avgs, index)) / 2.0)
  }

  /** The items just outside a gap that the intended `extremes` offset
      reads have averages (vacuously when the gap touches an end). */
  predicate NeighboursKnown(s: seq<Sample>, r: Run, avgs: map<int, real>, index: real -> int)
    requires r.from < r.to <= |s|
  {
    0 < r.from && r.to < |s| ==> Known(s[r.from - 1], avgs, index) && Known(s[r.to], avgs, index)
  }

  /** The items the source's `extremes` offset reads have averages: the
      one at position from-1 (the last item when the gap starts the
      series), and the one at to+1 when there is one. */
  predicate ReadsKnown(s: seq<Sample>, r: Run, avgs: map<int, real>, index: real -> int)
    requires r.from < r.to <= |s|
  {
    && Known(s[PyIndex(|s|, r.from - 1)], avgs, index)
    && (r.to + 1 < |s| ==> Known(s[r.to + 1], avgs, index))
  }

  /** The averages the offset of method m reads are all there. */
  predicate OffsetKnown(s: seq<Sample>, r: Run, m: OffsetMethod, avgs: map<int, real>, index: real -> int)
    requires r.from < r.to <= |s|
  {
    match m
    case Average => AllKnown(s, r.from, r.to, avgs, index)
    case ExtremesAsWritten => ReadsKnown(s, r, avgs, index)
    case Extremes => NeighboursKnown(s, r, avgs, index)
  }

  function Offset(s: seq<Sample>, r: Run, m: OffsetMethod, avgs: map<int, real>, index: real -> int): (o: Result<real, Error>)
    requires r.from < r.to <= |s|
    ensures o.Ok? <==> OffsetKnown(s, r, m, avgs, index)
    ensures o.Err? ==> o.error == KeyError(MissingKey)
  {
    match m
    case Average => AverageOffset(s, r, avgs, index)
    case ExtremesAsWritten => ExtremesOffsetAsWritten(s, r, avgs, index)
    case Extremes => ExtremesOffset(s, r, avgs, index)
  }

  /** Whether `_reconstruct` raises on a gap: an item of the gap has no
      average, or the offset reads an item that has none. */
  predicate Fails(s: seq<Sample>, r: Run, m: OffsetMethod, avgs: map<int, real>, index: real -> int)
    requires r.from < r.to <= |s|
  {
    !AllKnown(s, r.from, r.to, avgs, index) || !OffsetKnown(s, r, m, avgs, index)
  }

  /** An item of a gap once reconstructed: the average at its index plus
      the offset, marked reconstructed. */
  function Filled(x: Sample, offset: real, avgs: map<int, real>, index: real -> int): Sample
    requires Known(x, avgs, index)
  {
    x.(value := avgs[index(x.start)] + offset, reconstructed := Some(1))
  }

  /** The first n items of s with the items of the gap r filled. */
  function FillRun(s: seq<Sample>, r: Run, offset: real, n: nat, avgs: map<int, real>, index: real -> int): (f: seq<Sample>)
    requires n <= |s| && r.from < r.to <= |s| && AllKnown(s, r.from, r.to, avgs, index)
    ensures |f| == n
    ensures forall j :: 0 <= j < n && !(r.from <= j < r.to) ==> f[j] == s[j]
    ensures forall j :: 0 <= j < n && r.from <= j < r.to ==> f[j] == Filled(s[j], offset, avgs, index)
    decreases n
  {
    if n == 0 then []
    else
      var j := n - 1;
      FillRun(s, r, offset, j, avgs, index) + [if r.from <= j < r.to then Filled(s[j], offset, avgs, index) else s[j]]
  }

  /** `_reconstruct(from, to)`: every item of the gap becomes the average at
      its index plus the gap's offset, and is marked reconstructed. */
  function ReconstructRun(s: seq<Sample>, r: Run, m: OffsetMethod, avgs: map<int, real>, index: real -> int): (res: Result<seq<Sample>, Error>)
    requires r.from < r.to <= |s|
    ensures res.Err? <==> Fails(s, r, m, avgs, index)
    ensures res.Err? ==> res.error == KeyError(MissingKey)
    ensures res.Ok? ==> |res.value| == |s|
    ensures res.Ok? ==> forall j :: 0 <= j < |s| && !(r.from <= j < r.to) ==> res.value[j] == s[j]
    ensures res.Ok? ==> forall j :: r.from <= j < r.to ==>
      res.value[j] == Filled(s[j], Offset(s, r, m, avgs, index).value, avgs, index)
  {
    var offset :- Offset(s, r, m, avgs, index);
    if !AllKnown(s, r.from, r.to, avgs, index) then Err(KeyError(MissingKey))
    else
      Ok(FillRun(s, r, offset, |s|, avgs, index))
  }

  // ---------------------------------------------------------------------------
  // What the offsets promise

  /** x added up n times: what a reconstructed gap of n items adds on top
      of its averages. */
  function Repeat(x: real, n: nat): real
    decreases n
  {
    if n == 0 then 0.0 else Repeat(x, n - 1) + x
  }

  lemma {:induction false} RepeatIsProduct(x: real, n: nat)
    ensures Repeat(x, n) == x * (n as real)
    decreases n
  {
    if n > 0 {
      RepeatIsProduct(x, n - 1);
      assert x * ((n - 1) as real) + x == x * (n as real);
    }
  }

  /** Adding the `average` offset once per gap item adds back the total
      residual of the gap. */
  lemma AverageOffsetRepeated(s: seq<Sample>, r: Run, avgs: map<int, real>, index: real -> int)
    requires r.from < r.to <= |s| && AverageOffset(s, r, avgs, index).Ok?
    ensures Repeat(AverageOffset(s, r, avgs, index).value, r.to - r.from)
            == ValueSum(s, r.from, r.to) - AverageSum(s, r.from, r.to, avgs, index)
  {
    RepeatIsProduct(AverageOffset(s, r, avgs, index).value, r.to - r.from);
    AverageOffsetIsMeanResidual(s, r, avgs, index);
  }

  lemma {:induction false} ValueSumOfReconstructed(s: seq<Sample>, out: seq<Sample>, lo: nat, hi: nat, offset: real, avgs: map<int, real>, index: real -> int)
    requires lo <= hi <= |s| == |out| && AllKnown(s, lo, hi, avgs, index)
    requires forall j :: lo <= j < hi ==> out[j].value == avgs[index(s[j].start)] + offset
    ensures ValueSum(out, lo, hi) == AverageSum(s, lo, hi, avgs, index) + Repeat(offset, hi - lo)
    decreases hi
  {
    if hi > lo {
      ValueSumOfReconstructed(s, out, lo, hi - 1, offset, avgs, index);
    }
  }

  /** With the `average` offset, each reconstructed item of a gap is its
      average plus the gap's mean residual. */
  lemma AverageFilledValues(s: seq<Sample>, r: Run, avgs: map<int, real>, index: real -> int)
    requires r.from < r.to <= |s|
    requires ReconstructRun(s, r, Average, avgs, index).Ok?
    ensures AverageOffset(s, r, avgs, index).Ok? && AllKnown(s, r.from, r.to, avgs, index)
    ensures forall j :: r.from <= j < r.to ==>
      ReconstructRun(s, r, Average, avgs, index).value[j].value == avgs[index(s[j].start)] + AverageOffset(s, r, avgs, index).value
  {
  }

  /** With the `average` offset, reconstructing a gap keeps the sum, and so
      the mean, of its values. */
  lemma AverageReconstructionKeepsMean(s: seq<Sample>, r: Run, avgs: map<int, real>, index: real -> int)
    requires r.from < r.to <= |s|
    requires ReconstructRun(s, r, Average, avgs, index).Ok?
    ensures ValueSum(ReconstructRun(s, r, Average, avgs, index).value, r.from, r.to) == ValueSum(s, r.from, r.to)
  {
    var out := ReconstructRun(s, r, Average, avgs, index).value;
    AverageFilledValues(s, r, avgs, index);
    var o := AverageOffset(s, r, avgs, index).value;
    AverageOffsetRepeated(s, r, avgs, index);
    SumOfFilledGap(s, out, r, o, avgs, index);
  }

  /** A gap filled with its averages plus an offset that adds back its total
      residual has the sum it had before. */
  lemma SumOfFilledGap(s: seq<Sample>, out: seq<Sample>, r: Run, o: real, avgs: map<int, real>, index: real -> int)
    requires r.from < r.to <= |s| == |out| && AllKnown(s, r.from, r.to, avgs, index)
    requires forall j :: r.from <= j < r.to ==> out[j].value == avgs[index(s[j].start)] + o
    requires Repeat(o, r.to - r.from) == ValueSum(s, r.from, r.to) - AverageSum(s, r.from, r.to, avgs, index)
    ensures ValueSum(out, r.from, r.to) == ValueSum(s, r.from, r.to)
  {
    ValueSumOfReconstructed(s, out, r.from, r.to, o, avgs, index);
  }

  /** When the items on both sides of a gap lie the same amount above their
      averages, the intended `extremes` offset is that amount: the
      reconstructed gap continues the level of its neighbours. */
  lemma ExtremesOffsetFollowsNeighbours(s: seq<Sample>, r: Run, avgs: map<int, real>, index: real -> int, c: real)
    requires 0 < r.from < r.to < |s|
    requires Known(s[r.from - 1], avgs, index) && Known(s[r.to], avgs, index)
    requires Residual(s[r.from - 1], avgs, index) == c && Residual(s[r.to], avgs, index) == c
    ensures ExtremesOffset(s, r, avgs, index) == Ok(c)
  {
  }

  /** The source's `extremes` offset reads the second item after the gap:
      with an item 10 above its average on each side of a one-item gap and a
      second item after it 100 above, the offset is 55 where the neighbours
      ask for 10. */
  lemma ExtremesOffsetSkipsNeighbour()
    ensures var index := (t: real) => 0;
      var avgs := map[0 := 0.0];
      var s := [Sample(0.0, 1.0, 10.0, Some(0.0), None), Sample(1.0, 2.0, 0.0, Some(1.0), None),
                Sample(2.0, 3.0, 10.0, Some(0.0), None), Sample(3.0, 4.0, 100.0, Some(0.0), None)];
      && IsMaximalRun(Flags(s, 1.0), Run(1, 2))
      && ExtremesOffset(s, Run(1, 2), avgs, index) == Ok(10.0)
      && ExtremesOffsetAsWritten(s, Run(1, 2), avgs, index) == Ok(55.0)
      && ReconstructRun(s, Run(1, 2), ExtremesAsWritten, avgs, index).Ok?
      && ReconstructRun(s, Run(1, 2), ExtremesAsWritten, avgs, index).value[1].value == 55.0
      && ReconstructRun(s, Run(1, 2), Extremes, avgs, index).value[1].value == 10.0
      && ApplySeries(s, 1.0, Current, false, ExtremesAsWritten, avgs, index)[1].value == 55.0
  {
    var s := [Sample(0.0, 1.0, 10.0, Some(0.0), None), Sample(1.0, 2.0, 0.0, Some(1.0), None),
              Sample(2.0, 3.0, 10.0, Some(0.0), None), Sample(3.0, 4.0, 100.0, Some(0.0), None)];
    var g := Flags(s, 1.0);
    assert !g[0] && g[1] && !g[2];
    MaximalRunUnique(g, Run(1, 2), 1);
  }

  /** The source's `extremes` offset never reads the item just after the
      gap: when that item has no average and is the last one, the source
      reconstructs the gap with a zero offset where the neighbours would
      raise KeyError. */
  lemma ExtremesOffsetIgnoresNextItem()
    ensures var index := (t: real) => if t < 2.0 then 0 else 1;
      var avgs := map[0 := 0.0];
      var s := [Sample(0.0, 1.0, 10.0, Some(0.0), None), Sample(1.0, 2.0, 0.0, Some(1.0), None),
                Sample(2.0, 3.0, 10.0, Some(0.0), None)];
      && IsMaximalRun(Flags(s, 1.0), Run(1, 2))
      && ReconstructRun(s, Run(1, 2), ExtremesAsWritten, avgs, index).Ok?
      && ReconstructRun(s, Run(1, 2), ExtremesAsWritten, avgs, index).value[1].value == 0.0
      && ReconstructRun(s, Run(1, 2), Extremes, avgs, index) == Err(KeyError(MissingKey))
  {
    var s := [Sample(0.0, 1.0, 10.0, Some(0.0), None), Sample(1.0, 2.0, 0.0, Some(1.0), None),
              Sample(2.0, 3.0, 10.0, Some(0.0), None)];
    var g := Flags(s, 1.0);
    assert !g[0] && g[1] && !g[2];
  }

  /** The source's `extremes` offset for a gap at the start of the series
      reads position -1, the last item, on the far side of the series. */
  lemma ExtremesOffsetWrapsAround()
    ensures var index := (t: real) => 0;
      var avgs := map[0 := 0.0];
      var s := [Sample(0.0, 1.0, 0.0, Some(1.0), None), Sample(1.0, 2.0, 10.0, Some(0.0), None),
                Sample(2.0, 3.0, 20.0, Some(0.0), None), Sample(3.0, 4.0, 90.0, Some(0.0), None)];
      && ExtremesOffset(s, Run(0, 1), avgs, index) == Ok(0.0)
      && ExtremesOffsetAsWritten(s, Run(0, 1), avgs, index) == Ok(55.0)
  {
  }

  // ---------------------------------------------------------------------------
  // The scan

  /** What `remove_data_loss` leaves as the data loss: the current version
      drops the index, the legacy one sets the coverage to 1. */
  function Removed(v: Version): Option<real> {
    if v == Current then None else Some(0.0)
  }

  /** An item once the scan has passed it. */
  function Visit(x: Sample, v: Version, removeDataLoss: bool): Sample {
    if removeDataLoss then x.(dataLoss := Removed(v)) else x
  }

  /** Item j of the applied series: a gap item holds the average at its
      index plus the offset of its whole gap and is marked reconstructed;
      any other item keeps its value and is marked not reconstructed. */
  ghost predicate AppliedItem(items: seq<Sample>, out: seq<Sample>, j: nat, threshold: real, v: Version, removeDataLoss: bool,
                              m: OffsetMethod, avgs: map<int, real>, index: real -> int)
    requires j < |items| == |out|
  {
    var g := Flags(items, threshold);
    var x := Visit(items[j], v, removeDataLoss);
    if g[j] then
      var run := RunAround(g, j);
      && Offset(items, run, m, avgs, index).Ok?
      && Known(items[j], avgs, index)
      && out[j] == x.(value := avgs[index(items[j].start)] + Offset(items, run, m, avgs, index).value, reconstructed := Some(1))
    else
      out[j] == x.(reconstructed := Some(0))
  }

  /** The offset and the failure of a gap depend only on the items from
      just before it to the end of the series. */
  lemma {:induction false} ReadsFrame(a: seq<Sample>, b: seq<Sample>, r: Run, m: OffsetMethod, avgs: map<int, real>, index: real -> int)
    requires r.from < r.to <= |a| == |b|
    requires forall k :: 0 <= k < |a| && r.from <= k + 1 ==> a[k].value == b[k].value && a[k].start == b[k].start
    ensures AllKnown(a, r.from, r.to, avgs, index) == AllKnown(b, r.from, r.to, avgs, index)
    ensures Offset(a, r, m, avgs, index) == Offset(b, r, m, avgs, index)
  {
    assert AllKnown(a, r.from, r.to, avgs, index) == AllKnown(b, r.from, r.to, avgs, index) by {
      assert forall j :: r.from <= j < r.to ==> a[j].start == b[j].start;
    }
    if AllKnown(a, r.from, r.to, avgs, index) {
      ResidualSumFrame(a, b, r.from, r.to, avgs, index);
    }
  }

  lemma {:induction false} ResidualSumFrame(a: seq<Sample>, b: seq<Sample>, lo: nat, hi: nat, avgs: map<int, real>, index: real -> int)
    requires lo <= hi <= |a| == |b|
    requires forall k :: lo <= k < hi ==> a[k].value == b[k].value && a[k].start == b[k].start
    requires AllKnown(a, lo, hi, avgs, index) && AllKnown(b, lo, hi, avgs, index)
    ensures ResidualSum(a, lo, hi, avgs, index) == ResidualSum(b, lo, hi, avgs, index)
    decreases hi
  {
    if hi > lo {
      ResidualSumFrame(a, b, lo, hi - 1, avgs, index);
    }
  }

  /** The legacy scan compares every data loss with the threshold, which
      raises TypeError on an unknown one. */
  predicate LegacyUnknown(v: Version, items: seq<Sample>) {
    v == Legacy && exists j :: 0 <= j < |items| && items[j].dataLoss.None?
  }

  /** Some gap of the series cannot be reconstructed. */
  ghost predicate SomeGapFails(items: seq<Sample>, threshold: real, m: OffsetMethod, avgs: map<int, real>, index: real -> int) {
    exists run :: IsMaximalRun(Flags(items, threshold), run) && Fails(items, run, m, avgs, index)
  }

  /** Item j of the applied series, the reference the scan is checked
      against: an item outside gaps is marked not reconstructed; a gap item
      holds the average at its index plus the offset of the maximal gap that
      holds it, and is marked reconstructed (it is left as it was only when
      that gap cannot be reconstructed, and then the scan fails). */
  function Target(items: seq<Sample>, j: nat, threshold: real, v: Version, removeDataLoss: bool,
                  m: OffsetMethod, avgs: map<int, real>, index: real -> int): Sample
    requires j < |items|
  {
    var g := Flags(items, threshold);
    var x := Visit(items[j], v, removeDataLoss);
    if !g[j] then x.(reconstructed := Some(0))
    else
      var o := Offset(items, RunAround(g, j), m, avgs, index);
      if o.Ok? && Known(items[j], avgs, index) then
        x.(value := avgs[index(items[j].start)] + o.value, reconstructed := Some(1))
      else x
  }

  /** The first n items of the applied series. */
  function AppliedPrefix(items: seq<Sample>, n: nat, threshold: real, v: Version, removeDataLoss: bool,
                         m: OffsetMethod, avgs: map<int, real>, index: real -> int): (out: seq<Sample>)
    requires n <= |items|
    ensures |out| == n
    ensures forall j :: 0 <= j < n ==> out[j] == Target(items, j, threshold, v, removeDataLoss, m, avgs, index)
    decreases n
  {
    if n == 0 then []
    else AppliedPrefix(items, n - 1, threshold, v, removeDataLoss, m, avgs, index)
         + [Target(items, n - 1, threshold, v, removeDataLoss, m, avgs, index)]
  }

  /** The applied series. */
  function ApplySeries(items: seq<Sample>, threshold: real, v: Version, removeDataLoss: bool,
                       m: OffsetMethod, avgs: map<int, real>, index: real -> int): (out: seq<Sample>)
    ensures |out| == |items|
    ensures forall j :: 0 <= j < |items| ==> out[j] == Target(items, j, threshold, v, removeDataLoss, m, avgs, index)
  {
    AppliedPrefix(items, |items|, threshold, v, removeDataLoss, m, avgs, index)
  }

  /** When no gap fails, every item of the applied series is as described:
      gap items hold their gap's reconstruction, other items their value. */
  lemma ApplySeriesMeaning(items: seq<Sample>, threshold: real, v: Version, removeDataLoss: bool,
                           m: OffsetMethod, avgs: map<int, real>, index: real -> int)
    requires !SomeGapFails(items, threshold, m, avgs, index)
    ensures forall j :: 0 <= j < |items| ==>
      AppliedItem(items, ApplySeries(items, threshold, v, removeDataLoss, m, avgs, index), j, threshold, v, removeDataLoss, m, avgs, index)
  {
    var g := Flags(items, threshold);
    forall j | 0 <= j < |items| && g[j]
      ensures Offset(items, RunAround(g, j), m, avgs, index).Ok? && Known(items[j], avgs, index)
    {
      var run := RunAround(g, j);
      assert !Fails(items, run, m, avgs, index);
    }
  }

  /** With the `average` offset, the applied series keeps the sum, and so
      the mean, of the values of every gap that can be reconstructed. */
  lemma ScanKeepsGapMeans(items: seq<Sample>, threshold: real, v: Version, removeDataLoss: bool,
                          avgs: map<int, real>, index: real -> int, run: Run)
    requires IsMaximalRun(Flags(items, threshold), run) && !Fails(items, run, Average, avgs, index)
    ensures ValueSum(ApplySeries(items, threshold, v, removeDataLoss, Average, avgs, index), run.from, run.to)
            == ValueSum(items, run.from, run.to)
  {
    var out := ApplySeries(items, threshold, v, removeDataLoss, Average, avgs, index);
    var o := AverageOffset(items, run, avgs, index).value;
    forall j | run.from <= j < run.to
      ensures out[j].value == avgs[index(items[j].start)] + o
    {
      AppliedGapValue(items, threshold, v, removeDataLoss, avgs, index, run, j);
    }
    AverageOffsetRepeated(items, run, avgs, index);
    ValueSumOfReconstructed(items, out, run.from, run.to, o, avgs, index);
  }

  lemma AppliedGapValue(items: seq<Sample>, threshold: real, v: Version, removeDataLoss: bool,
                        avgs: map<int, real>, index: real -> int, run: Run, j: nat)
    requires IsMaximalRun(Flags(items, threshold), run) && !Fails(items, run, Average, avgs, index)
    requires run.from <= j < run.to
    ensures AverageOffset(items, run, avgs, index).Ok? && Known(items[j], avgs, index)
    ensures ApplySeries(items, threshold, v, removeDataLoss, Average, avgs, index)[j].value
            == avgs[index(items[j].start)] + AverageOffset(items, run, avgs, index).value
  {
    MaximalRunUnique(Flags(items, threshold), run, j);
  }

  /** Item j of the working copy of the scan before item i: items passed
      hold their applied form, except the items of the open gap (from
      `open` on), which so far only had their data loss removed; the rest
      are untouched. */
  function ScanItem(items: seq<Sample>, i: nat, open: Option<nat>, j: nat, threshold: real, v: Version, removeDataLoss: bool,
                    m: OffsetMethod, avgs: map<int, real>, index: real -> int): Sample
    requires j < |items|
  {
    if i <= j then items[j]
    else if open.Some? && open.value <= j then Visit(items[j], v, removeDataLoss)
    else Target(items, j, threshold, v, removeDataLoss, m, avgs, index)
  }

  /** The first n items of the working copy before item i. */
  function PartialUpTo(items: seq<Sample>, i: nat, open: Option<nat>, n: nat, threshold: real, v: Version, removeDataLoss: bool,
                       m: OffsetMethod, avgs: map<int, real>, index: real -> int): (out: seq<Sample>)
    requires n <= |items|
    ensures |out| == n
    ensures forall j :: 0 <= j < n ==> out[j] == ScanItem(items, i, open, j, threshold, v, removeDataLoss, m, avgs, index)
    decreases n
  {
    if n == 0 then []
    else PartialUpTo(items, i, open, n - 1, threshold, v, removeDataLoss, m, avgs, index)
         + [ScanItem(items, i, open, n - 1, threshold, v, removeDataLoss, m, avgs, index)]
  }

  /** The working copy of the scan before item i. */
  function Partial(items: seq<Sample>, i: nat, open: Option<nat>, threshold: real, v: Version, removeDataLoss: bool,
                   m: OffsetMethod, avgs: map<int, real>, index: real -> int): (out: seq<Sample>)
    requires i <= |items| && (open.Some? ==> open.value <= i)
    ensures |out| == |items|
    ensures forall j :: 0 <= j < |items| && i <= j ==> out[j] == items[j]
    ensures forall j :: 0 <= j < |items| && j < i && open.Some? && open.value <= j ==> out[j] == Visit(items[j], v, removeDataLoss)
    ensures forall j :: 0 <= j < |items| && j < i && !(open.Some? && open.value <= j) ==>
      out[j] == Target(items, j, threshold, v, removeDataLoss, m, avgs, index)
  {
    PartialUpTo(items, i, open, |items|, threshold, v, removeDataLoss, m, avgs, index)
  }

  /** The gap the scan has open before item i: there is one exactly when
      item i-1 is a gap item, and it started at the first item of that gap. */
  ghost predicate OpenAt(g: seq<bool>, i: nat, open: Option<nat>)
    requires i <= |g|
  {
    && (open.Some? <==> i > 0 && g[i - 1])
    && (open.Some? ==> open.value == RunStart(g, i - 1))
  }

  /** The gaps reconstructed before item i: exactly the maximal gaps that
      end before i, in order. */
  ghost predicate CallsBefore(g: seq<bool>, i: nat, calls: seq<Run>) {
    && (forall run :: run in calls <==> IsMaximalRun(g, run) && run.to < i)
    && (forall k :: 0 < k < |calls| ==> calls[k - 1].to < calls[k].from)
  }

  /** None of the gaps reconstructed so far failed. */
  ghost predicate NoneFailed(items: seq<Sample>, calls: seq<Run>, m: OffsetMethod, avgs: map<int, real>, index: real -> int) {
    forall run :: run in calls ==> run.from < run.to <= |items| && !Fails(items, run, m, avgs, index)
  }

  /** The items passed could be compared with the threshold. */
  predicate ComparedBefore(items: seq<Sample>, i: nat, v: Version)
    requires i <= |items|
  {
    v == Legacy ==> forall j :: 0 <= j < i ==> items[j].dataLoss.Some?
  }

  /** The open gap at item i, when item i is not a gap (or is the end), is
      the maximal gap ending at i. */
  lemma OpenGap(g: seq<bool>, i: nat, from: nat)
    requires i <= |g| && OpenAt(g, i, Some(from))
    requires i == |g| || !g[i]
    ensures from < i && IsMaximalRun(g, Run(from, i))
  {
  }

  /** Passing a gap item opens a gap or extends the open one. */
  lemma GapStep(g: seq<bool>, i: nat, open: Option<nat>, calls: seq<Run>)
    requires i < |g| && g[i] && OpenAt(g, i, open) && CallsBefore(g, i, calls)
    ensures OpenAt(g, i + 1, if open.None? then Some(i) else open)
    ensures CallsBefore(g, i + 1, calls)
  {
    forall run | IsMaximalRun(g, run) && run.to < i + 1
      ensures run.to < i
    {
      assert run.to == |g| || !g[run.to];
    }
  }

  /** The working copy after a gap item. */
  lemma GapPartialStep(items: seq<Sample>, i: nat, open: Option<nat>, threshold: real, v: Version, removeDataLoss: bool,
                       m: OffsetMethod, avgs: map<int, real>, index: real -> int)
    requires i < |items| && IsGap(items[i], threshold)
    requires open.Some? ==> open.value <= i
    ensures var open' := if open.None? then Some(i) else open;
      Partial(items, i, open, threshold, v, removeDataLoss, m, avgs, index)[i := Visit(items[i], v, removeDataLoss)]
      == Partial(items, i + 1, open', threshold, v, removeDataLoss, m, avgs, index)
  {
  }

  /** Passing an item outside gaps, once no gap is open: it is marked, and
      nothing else changes. */
  lemma PlainStep(items: seq<Sample>, i: nat, threshold: real, v: Version,
                  removeDataLoss: bool, m: OffsetMethod, avgs: map<int, real>, index: real -> int)
    requires i < |items| && !IsGap(items[i], threshold)
    ensures Partial(items, i, None, threshold, v, removeDataLoss, m, avgs, index)[i := Visit(items[i], v, removeDataLoss).(reconstructed := Some(0))]
            == Partial(items, i + 1, None, threshold, v, removeDataLoss, m, avgs, index)
  {
  }

  /** Passing an item outside gaps leaves no gap open. */
  lemma PlainOpenStep(g: seq<bool>, i: nat, open: Option<nat>)
    requires i < |g| && !g[i] && OpenAt(g, i, open)
    ensures OpenAt(g, i + 1, None)
  {
  }

  /** Passing an item outside gaps when no gap is open reconstructs
      nothing. */
  lemma PlainCallsStep(g: seq<bool>, i: nat, calls: seq<Run>)
    requires i < |g| && !g[i] && OpenAt(g, i, None) && CallsBefore(g, i, calls)
    ensures CallsBefore(g, i + 1, calls)
  {
    forall run | IsMaximalRun(g, run) && run.to < i + 1
      ensures run in calls
    {
    }
  }

  /** Passing an item outside gaps right after a gap reconstructs that
      gap, the next maximal one. */
  lemma CloseCallsStep(g: seq<bool>, i: nat, from: nat, calls: seq<Run>)
    requires i < |g| && !g[i] && OpenAt(g, i, Some(from)) && CallsBefore(g, i, calls)
    ensures CallsBefore(g, i + 1, calls + [Run(from, i)])
  {
    OpenGap(g, i, from);
    if |calls| > 0 {
      assert calls[|calls| - 1] in calls;
    }
    var calls' := calls + [Run(from, i)];
    forall run | IsMaximalRun(g, run) && run.to < i + 1
      ensures run in calls'
    {
      if run.to == i {
        MaximalRunUnique(g, run, i - 1);
        MaximalRunUnique(g, Run(from, i), i - 1);
      }
    }
  }

  /** An item outside gaps in the applied series keeps its value and start. */
  lemma TargetOutsideGaps(items: seq<Sample>, j: nat, threshold: real, v: Version,
                          removeDataLoss: bool, m: OffsetMethod, avgs: map<int, real>, index: real -> int)
    requires j < |items| && !IsGap(items[j], threshold)
    ensures Target(items, j, threshold, v, removeDataLoss, m, avgs, index) == Visit(items[j], v, removeDataLoss).(reconstructed := Some(0))
  {
  }

  /** The working copy with a gap open from `from` still holds the
      original values and starts from the item before the gap on. */
  lemma PartialFrame(items: seq<Sample>, i: nat, from: nat, threshold: real, v: Version,
                     removeDataLoss: bool, m: OffsetMethod, avgs: map<int, real>, index: real -> int)
    requires from <= i <= |items|
    requires from == 0 || !IsGap(items[from - 1], threshold)
    ensures var out := Partial(items, i, Some(from), threshold, v, removeDataLoss, m, avgs, index);
      forall k :: 0 <= k < |items| && from <= k + 1 ==> out[k].value == items[k].value && out[k].start == items[k].start
  {
    forall k | 0 <= k < |items| && from <= k + 1
      ensures var out := Partial(items, i, Some(from), threshold, v, removeDataLoss, m, avgs, index);
        out[k].value == items[k].value && out[k].start == items[k].start
    {
      PartialFrameAt(items, i, from, k, threshold, v, removeDataLoss, m, avgs, index);
    }
  }

  lemma PartialFrameAt(items: seq<Sample>, i: nat, from: nat, k: nat, threshold: real, v: Version,
                       removeDataLoss: bool, m: OffsetMethod, avgs: map<int, real>, index: real -> int)
    requires from <= i <= |items| && k < |items| && from <= k + 1
    requires from == 0 || !IsGap(items[from - 1], threshold)
    ensures var out := Partial(items, i, Some(from), threshold, v, removeDataLoss, m, avgs, index);
      out[k].value == items[k].value && out[k].start == items[k].start
  {
    if k + 1 == from {
      TargetOutsideGaps(items, k, threshold, v, removeDataLoss, m, avgs, index);
    }
  }

  /** The gap [from, i) fails on the working copy exactly when it fails on
      the original items, with the same offset. */
  lemma CloseFails(items: seq<Sample>, i: nat, from: nat, threshold: real, v: Version,
                   removeDataLoss: bool, m: OffsetMethod, avgs: map<int, real>, index: real -> int)
    requires from < i <= |items|
    requires from == 0 || !IsGap(items[from - 1], threshold)
    ensures var out := Partial(items, i, Some(from), threshold, v, removeDataLoss, m, avgs, index);
      && (Fails(out, Run(from, i), m, avgs, index) <==> Fails(items, Run(from, i), m, avgs, index))
      && Offset(out, Run(from, i), m, avgs, index) == Offset(items, Run(from, i), m, avgs, index)
  {
    var out := Partial(items, i, Some(from), threshold, v, removeDataLoss, m, avgs, index);
    PartialFrame(items, i, from, threshold, v, removeDataLoss, m, avgs, index);
    ReadsFrame(out, items, Run(from, i), m, avgs, index);
  }

  /** Reconstructing the open gap [from, i) of the working copy: it fails
      exactly when the gap fails on the original items, and otherwise
      leaves the working copy with no gap open. */
  lemma CloseStep(items: seq<Sample>, i: nat, from: nat, threshold: real, v: Version,
                  removeDataLoss: bool, m: OffsetMethod, avgs: map<int, real>, index: real -> int)
    requires i <= |items| && OpenAt(Flags(items, threshold), i, Some(from))
    requires i == |items| || !IsGap(items[i], threshold)
    ensures from < i && IsMaximalRun(Flags(items, threshold), Run(from, i))
    ensures var out := Partial(items, i, Some(from), threshold, v, removeDataLoss, m, avgs, index);
      && (ReconstructRun(out, Run(from, i), m, avgs, index).Err? <==> Fails(items, Run(from, i), m, avgs, index))
      && (ReconstructRun(out, Run(from, i), m, avgs, index).Ok? ==>
            ReconstructRun(out, Run(from, i), m, avgs, index).value == Partial(items, i, None, threshold, v, removeDataLoss, m, avgs, index))
  {
    OpenGap(Flags(items, threshold), i, from);
    var out := Partial(items, i, Some(from), threshold, v, removeDataLoss, m, avgs, index);
    CloseFails(items, i, from, threshold, v, removeDataLoss, m, avgs, index);
    assert ReconstructRun(out, Run(from, i), m, avgs, index).Err? <==> Fails(out, Run(from, i), m, avgs, index);
    CloseDone(items, i, from, threshold, v, removeDataLoss, m, avgs, index);
  }

  lemma CloseDone(items: seq<Sample>, i: nat, from: nat, threshold: real, v: Version,
                  removeDataLoss: bool, m: OffsetMethod, avgs: map<int, real>, index: real -> int)
    requires from < i <= |items| && IsMaximalRun(Flags(items, threshold), Run(from, i))
    requires var out := Partial(items, i, Some(from), threshold, v, removeDataLoss, m, avgs, index);
      Offset(out, Run(from, i), m, avgs, index) == Offset(items, Run(from, i), m, avgs, index)
    ensures var out := Partial(items, i, Some(from), threshold, v, removeDataLoss, m, avgs, index);
      ReconstructRun(out, Run(from, i), m, avgs, index).Ok? ==>
        ReconstructRun(out, Run(from, i), m, avgs, index).value == Partial(items, i, None, threshold, v, removeDataLoss, m, avgs, index)
  {
    var out := Partial(items, i, Some(from), threshold, v, removeDataLoss, m, avgs, index);
    var done := Partial(items, i, None, threshold, v, removeDataLoss, m, avgs, index);
    forall j | 0 <= j < |items|
      ensures from <= j < i ==> out[j] == Visit(items[j], v, removeDataLoss)
      ensures from <= j < i ==> done[j] == Target(items, j, threshold, v, removeDataLoss, m, avgs, index)
      ensures !(from <= j < i) ==> out[j] == done[j]
    {
      CloseAgree(items, i, from, j, threshold, v, removeDataLoss, m, avgs, index);
    }
    CloseResult(items, out, done, Run(from, i), threshold, v, removeDataLoss, m, avgs, index);
  }

  /** Item j of the working copies with the gap [from, i) open and
      closed. */
  lemma CloseAgree(items: seq<Sample>, i: nat, from: nat, j: nat, threshold: real, v: Version,
                   removeDataLoss: bool, m: OffsetMethod, avgs: map<int, real>, index: real -> int)
    requires from <= i <= |items| && j < |items|
    ensures var out := Partial(items, i, Some(from), threshold, v, removeDataLoss, m, avgs, index);
      var done := Partial(items, i, None, threshold, v, removeDataLoss, m, avgs, index);
      && (from <= j < i ==> out[j] == Visit(items[j], v, removeDataLoss))
      && (from <= j < i ==> done[j] == Target(items, j, threshold, v, removeDataLoss, m, avgs, index))
      && (!(from <= j < i) ==> out[j] == done[j])
  {
  }

  /** One item of a maximal gap, reconstructed in a working copy where the
      gap has its original offset, becomes its applied form. */
  lemma GapItemApplied(items: seq<Sample>, out: seq<Sample>, run: Run, j: nat, threshold: real, v: Version,
                removeDataLoss: bool, m: OffsetMethod, avgs: map<int, real>, index: real -> int)
    requires |out| == |items| && IsMaximalRun(Flags(items, threshold), run) && run.from <= j < run.to
    requires Offset(out, run, m, avgs, index) == Offset(items, run, m, avgs, index)
    requires out[j] == Visit(items[j], v, removeDataLoss)
    requires ReconstructRun(out, run, m, avgs, index).Ok?
    ensures ReconstructRun(out, run, m, avgs, index).value[j] == Target(items, j, threshold, v, removeDataLoss, m, avgs, index)
  {
    MaximalRunUnique(Flags(items, threshold), run, j);
  }

  /** Reconstructing a maximal gap of a working copy that holds the
      visited gap items, and otherwise the reference `done`, gives `done`
      when the gap has the same offset in the copy as in the original. */
  lemma CloseResult(items: seq<Sample>, out: seq<Sample>, done: seq<Sample>, run: Run, threshold: real, v: Version,
                    removeDataLoss: bool, m: OffsetMethod, avgs: map<int, real>, index: real -> int)
    requires |out| == |items| == |done| && IsMaximalRun(Flags(items, threshold), run)
    requires Offset(out, run, m, avgs, index) == Offset(items, run, m, avgs, index)
    requires forall j :: run.from <= j < run.to ==> out[j] == Visit(items[j], v, removeDataLoss)
    requires forall j :: 0 <= j < |items| && !(run.from <= j < run.to) ==> out[j] == done[j]
    requires forall j :: run.from <= j < run.to ==> done[j] == Target(items, j, threshold, v, removeDataLoss, m, avgs, index)
    ensures ReconstructRun(out, run, m, avgs, index).Ok? ==> ReconstructRun(out, run, m, avgs, index).value == done
  {
    var res := ReconstructRun(out, run, m, avgs, index);
    if res.Ok? {
      forall j | run.from <= j < run.to
        ensures res.value[j] == done[j]
      {
        GapItemApplied(items, out, run, j, threshold, v, removeDataLoss, m, avgs, index);
      }
    }
  }

  /** At the end of the scan every maximal gap has been reconstructed, and
      the working copy is the applied series. */
  lemma ScanEnds(items: seq<Sample>, calls: seq<Run>, threshold: real, v: Version,
                 removeDataLoss: bool, m: OffsetMethod, avgs: map<int, real>, index: real -> int)
    requires CallsBefore(Flags(items, threshold), |items| + 1, calls)
    requires NoneFailed(items, calls, m, avgs, index) && ComparedBefore(items, |items|, v)
    ensures !LegacyUnknown(v, items) && !SomeGapFails(items, threshold, m, avgs, index)
    ensures ExactlyMaximalRuns(Flags(items, threshold), calls)
    ensures Partial(items, |items|, None, threshold, v, removeDataLoss, m, avgs, index)
            == ApplySeries(items, threshold, v, removeDataLoss, m, avgs, index)
  {
  }

  /** The trailing gap ends at the end of the series. */
  lemma LastGapStep(g: seq<bool>, from: nat, calls: seq<Run>)
    requires OpenAt(g, |g|, Some(from)) && CallsBefore(g, |g|, calls)
    ensures CallsBefore(g, |g| + 1, calls + [Run(from, |g|)])
  {
    OpenGap(g, |g|, from);
    if |calls| > 0 {
      assert calls[|calls| - 1] in calls;
    }
    var calls' := calls + [Run(from, |g|)];
    forall run | IsMaximalRun(g, run)
      ensures run in calls'
    {
      if run.to == |g| {
        MaximalRunUnique(g, run, |g| - 1);
        MaximalRunUnique(g, Run(from, |g|), |g| - 1);
      }
    }
  }

  /** Without a trailing gap, the gaps reconstructed before the end are all
      the maximal gaps. */
  lemma NoLastGap(g: seq<bool>, calls: seq<Run>)
    requires OpenAt(g, |g|, None) && CallsBefore(g, |g|, calls)
    ensures CallsBefore(g, |g| + 1, calls)
  {
    forall run | IsMaximalRun(g, run)
      ensures run in calls
    {
    }
  }

  /** `_reconstruct` called by the scan on the open gap [from, i) of the
      working copy. */
  method CloseGap(items: seq<Sample>, out: seq<Sample>, i: nat, from: nat, threshold: real, v: Version,
                  removeDataLoss: bool, m: OffsetMethod, avgs: map<int, real>, index: real -> int)
    returns (res: Result<seq<Sample>, Error>)
    requires i <= |items| && OpenAt(Flags(items, threshold), i, Some(from))
    requires i == |items| || !IsGap(items[i], threshold)
    requires out == Partial(items, i, Some(from), threshold, v, removeDataLoss, m, avgs, index)
    ensures from < i && IsMaximalRun(Flags(items, threshold), Run(from, i))
    ensures res.Err? <==> Fails(items, Run(from, i), m, avgs, index)
    ensures res.Err? ==> res.error == KeyError(MissingKey)
    ensures res.Ok? ==> res.value == Partial(items, i, None, threshold, v, removeDataLoss, m, avgs, index)
  {
    CloseStep(items, i, from, threshold, v, removeDataLoss, m, avgs, index);
    res := ReconstructRun(out, Run(from, i), m, avgs, index);
  }

  /** The state of the scan before an item: the working copy, the start of
      the open gap, and the gaps handed to `_reconstruct` so far. */
  datatype ScanState = ScanState(out: seq<Sample>, open: Option<nat>, calls: seq<Run>)

  /** What holds of the scan state before item i. */
  ghost predicate ScanInv(items: seq<Sample>, i: nat, st: ScanState, threshold: real, v: Version, removeDataLoss: bool,
                          m: OffsetMethod, avgs: map<int, real>, index: real -> int)
  {
    && i <= |items| && ComparedBefore(items, i, v)
    && OpenAt(Flags(items, threshold), i, st.open) && CallsBefore(Flags(items, threshold), i, st.calls)
    && NoneFailed(items, st.calls, m, avgs, index)
    && st.out == Partial(items, i, st.open, threshold, v, removeDataLoss, m, avgs, index)
  }

  /** Passing a gap item: its data loss is removed and the gap stays open. */
  method GapItem(items: seq<Sample>, i: nat, st: ScanState, threshold: real, v: Version, removeDataLoss: bool,
                 m: OffsetMethod, avgs: map<int, real>, index: real -> int)
    returns (st': ScanState)
    requires i < |items| && IsGap(items[i], threshold)
    requires ScanInv(items, i, st, threshold, v, removeDataLoss, m, avgs, index)
    ensures ScanInv(items, i + 1, st', threshold, v, removeDataLoss, m, avgs, index)
  {
    GapStep(Flags(items, threshold), i, st.open, st.calls);
    GapPartialStep(items, i, st.open, threshold, v, removeDataLoss, m, avgs, index);
    var open := if st.open.None? then Some(i) else st.open;
    st' := ScanState(st.out[i := Visit(items[i], v, removeDataLoss)], open, st.calls);
  }

  /** Handing the open gap, which ends before item i, to `_reconstruct`. */
  method CloseOpen(items: seq<Sample>, i: nat, st: ScanState, threshold: real, v: Version, removeDataLoss: bool,
                   m: OffsetMethod, avgs: map<int, real>, index: real -> int)
    returns (r: Result<ScanState, Error>)
    requires i <= |items| && st.open.Some? && (i == |items| || !IsGap(items[i], threshold))
    requires ScanInv(items, i, st, threshold, v, removeDataLoss, m, avgs, index)
    ensures r.Err? ==> SomeGapFails(items, threshold, m, avgs, index) && r.error == KeyError(MissingKey)
    ensures r.Ok? ==> && r.value.open.None?
                      && r.value.out == Partial(items, i, None, threshold, v, removeDataLoss, m, avgs, index)
                      && CallsBefore(Flags(items, threshold), i + 1, r.value.calls)
                      && NoneFailed(items, r.value.calls, m, avgs, index)
  {
    var g := Flags(items, threshold);
    var run := Run(st.open.value, i);
    var res := CloseGap(items, st.out, i, st.open.value, threshold, v, removeDataLoss, m, avgs, index);
    if res.Err? {
      assert IsMaximalRun(g, run) && Fails(items, run, m, avgs, index);
      return Err(res.error);
    }
    if i < |items| {
      CloseCallsStep(g, i, st.open.value, st.calls);
    } else {
      LastGapStep(g, st.open.value, st.calls);
    }
    NoneFailedAppend(items, st.calls, run, m, avgs, index);
    r := Ok(ScanState(res.value, None, st.calls + [run]));
  }

  /** A call that did not fail extends a list of calls none of which failed. */
  lemma NoneFailedAppend(items: seq<Sample>, calls: seq<Run>, run: Run, m: OffsetMethod, avgs: map<int, real>, index: real -> int)
    requires NoneFailed(items, calls, m, avgs, index)
    requires run.from < run.to <= |items| && !Fails(items, run, m, avgs, index)
    ensures NoneFailed(items, calls + [run], m, avgs, index)
  {
  }

  /** Passing an item outside gaps: the open gap, if any, is handed to
      `_reconstruct`, and the item is marked not reconstructed. */
  method PlainItem(items: seq<Sample>, i: nat, st: ScanState, threshold: real, v: Version, removeDataLoss: bool,
                   m: OffsetMethod, avgs: map<int, real>, index: real -> int)
    returns (r: Result<ScanState, Error>)
    requires i < |items| && !IsGap(items[i], threshold)
    requires v == Legacy ==> items[i].dataLoss.Some?
    requires ScanInv(items, i, st, threshold, v, removeDataLoss, m, avgs, index)
    ensures r.Err? ==> SomeGapFails(items, threshold, m, avgs, index) && r.error == KeyError(MissingKey)
    ensures r.Ok? ==> ScanInv(items, i + 1, r.value, threshold, v, removeDataLoss, m, avgs, index)
  {
    var g := Flags(items, threshold);
    PlainOpenStep(g, i, st.open);
    var done := st;
    if st.open.Some? {
      var res := CloseOpen(items, i, st, threshold, v, removeDataLoss, m, avgs, index);
      if res.Err? {
        return res;
      }
      done := res.value;
    } else {
      PlainCallsStep(g, i, st.calls);
    }
    PlainStep(items, i, threshold, v, removeDataLoss, m, avgs, index);
    r := Ok(ScanState(done.out[i := Visit(items[i], v, removeDataLoss).(reconstructed := Some(0))], None, done.calls));
  }

  /** The end of the scan: the trailing gap, if any, is handed to
      `_reconstruct`, and the working copy is the applied series. */
  method FinishScan(items: seq<Sample>, st: ScanState, threshold: real, v: Version, removeDataLoss: bool,
                    m: OffsetMethod, avgs: map<int, real>, index: real -> int)
    returns (r: Result<seq<Sample>, Error>, calls: seq<Run>)
    requires ScanInv(items, |items|, st, threshold, v, removeDataLoss, m, avgs, index)
    ensures !LegacyUnknown(v, items)
    ensures r.Err? <==> SomeGapFails(items, threshold, m, avgs, index)
    ensures r.Err? ==> r.error == KeyError(MissingKey)
    ensures r.Ok? ==> ExactlyMaximalRuns(Flags(items, threshold), calls)
    ensures r.Ok? ==> r.value == ApplySeries(items, threshold, v, removeDataLoss, m, avgs, index)
  {
    var g := Flags(items, threshold);
    var done := st;
    if st.open.Some? {
      var res := CloseOpen(items, |items|, st, threshold, v, removeDataLoss, m, avgs, index);
      if res.Err? {
        return Err(res.error), st.calls;
      }
      done := res.value;
    } else {
      NoLastGap(g, st.calls);
    }
    ScanEnds(items, done.calls, threshold, v, removeDataLoss, m, avgs, index);
    return Ok(done.out), done.calls;
  }

  /** The scan of `_apply` over the items of the one data label: each
      maximal gap is handed to `_reconstruct` when the first item after it
      (or the end of the series) is reached, items outside gaps are marked
      not reconstructed, and with `removeDataLoss` every item passed has its
      data loss removed. Besides the applied series it returns the gaps it
      reconstructed, in the order of the calls. */
  method ApplyScan(items: seq<Sample>, v: Version, threshold: real, removeDataLoss: bool,
                   m: OffsetMethod, avgs: map<int, real>, index: real -> int)
    returns (r: Result<seq<Sample>, Error>, calls: seq<Run>)
    ensures r.Err? <==> LegacyUnknown(v, items) || SomeGapFails(items, threshold, m, avgs, index)
    ensures r.Err? ==> r.error == TypeError(NoneComparison) || r.error == KeyError(MissingKey)
    ensures r.Err? && !LegacyUnknown(v, items) ==> r.error == KeyError(MissingKey)
    ensures r.Ok? ==> ExactlyMaximalRuns(Flags(items, threshold), calls)
    ensures r.Ok? ==> r.value == ApplySeries(items, threshold, v, removeDataLoss, m, avgs, index)
    ensures r.Ok? ==> forall j :: 0 <= j < |items| ==>
      AppliedItem(items, r.value, j, threshold, v, removeDataLoss, m, avgs, index)
  {
    var st := ScanState(items, None, []);
    assert items == Partial(items, 0, None, threshold, v, removeDataLoss, m, avgs, index);
    var i := 0;
    while i < |items|
      invariant ScanInv(items, i, st, threshold, v, removeDataLoss, m, avgs, index)
    {
      if v == Legacy && items[i].dataLoss.None? {
        assert LegacyUnknown(v, items);
        return Err(TypeError(NoneComparison)), st.calls;
      }
      if IsGap(items[i], threshold) {
        st := GapItem(items, i, st, threshold, v, removeDataLoss, m, avgs, index);
      } else {
        var res := PlainItem(items, i, st, threshold, v, removeDataLoss, m, avgs, index);
        if res.Err? {
          return Err(res.error), st.calls;
        }
        st := res.value;
      }
      i := i + 1;
    }
    r, calls := FinishScan(items, st, threshold, v, removeDataLoss, m, avgs, index);
    if r.Ok? {
      ApplySeriesMeaning(items, threshold, v, removeDataLoss, m, avgs, index);
    }
  }
}

=== FILE: reconstructors.dfy ===
/** The entry points of the periodic-average reconstructors around the scan
    and the averages: `_apply` (the copy or in-place update, the check for a
    single data label) and `_fit` (the offset method, the periodicity, the
    averages). The detected periodicity (`get_periodicity` and
    `detect_periodicity`, not part of this model) is a parameter, and so is
    `indexFor`, the periodicity index of a start time for a periodicity and a
    DST setting, which may raise. For the legacy reconstructor
    `Periodicity.IndexFor` builds it from `get_periodicity_index`; the
    current one calls `_get_periodicity_index`, which is not part of this
    model. */
module Reconstructors {
  import opened Wrappers
  import opened Errors
  import opened Gaps
  import opened Averages
  import opened Reconstruction

  /** What `_apply` leaves behind: the series it returns (None when it works
      in place) and the caller's series afterwards. */
  datatype Applied = Applied(returned: Option<seq<Sample>>, input: seq<Sample>)

  /** `_apply`: more than one data label raises NotImplementedError; a
      series without data labels is returned as it is; otherwise the scan
      runs, on a duplicate unless `inplace`. */
  method Apply(items: seq<Sample>, labels: nat, v: Version, threshold: real, removeDataLoss: bool, inplace: bool,
               m: OffsetMethod, avgs: map<int, real>, index: real -> int)
    returns (r: Result<Applied, Error>)
    ensures labels > 1 ==> r == Err(NotImplementedError(Multivariate))
    ensures labels == 0 ==> r.Ok? && r.value.input == items
    ensures labels == 0 && !inplace ==> r == Ok(Applied(Some(items), items))
    ensures labels == 1 ==> (r.Err? <==> LegacyUnknown(v, items) || SomeGapFails(items, threshold, m, avgs, index))
    ensures labels == 1 && r.Err? ==> r.error == TypeError(NoneComparison) || r.error == KeyError(MissingKey)
    ensures r.Ok? && inplace ==> r.value.returned.None?
    ensures r.Ok? && !inplace ==> r.value.input == items && r.value.returned.Some?
    ensures labels == 1 && r.Ok? ==>
      var applied := ApplySeries(items, threshold, v, removeDataLoss, m, avgs, index);
      if inplace then r.value.input == applied else r.value.returned == Some(applied)
  {
    if labels > 1 {
      return Err(NotImplementedError(Multivariate));
    }
    var result := items;
    if labels == 1 {
      var scanned, calls := ApplyScan(items, v, threshold, removeDataLoss, m, avgs, index);
      if scanned.Err? {
        return Err(scanned.error);
      }
      result := scanned.value;
    }
    if inplace {
      r := Ok(Applied(None, result));
    } else {
      r := Ok(Applied(Some(result), items));
    }
  }

  /** What a fit stores in the model's `data`. */
  datatype Fitted = Fitted(periodicity: int, dstAffected: bool, offsetMethod: OffsetMethod, averages: map<int, real>)

  /** The legacy `_fit`: more than one data key raises NotImplementedError;
      the periodicity is the one given or else the detected one; without
      data keys the averages are read from a variable never bound (a
      NameError); otherwise the averages take the items with a data loss
      below the threshold, and the fit raises at the first item whose data
      loss is unknown or whose index raises. The legacy reconstructor always
      uses the `average` offset. */
  method FitLegacy(items: seq<Sample>, labels: nat, threshold: real, periodicity: Option<int>, detected: int,
                   dstAffected: bool, indexFor: (int, bool) -> (real -> Result<int, Error>))
    returns (r: Result<Fitted, Error>)
    ensures labels > 1 ==> r == Err(NotImplementedError(Multivariate))
    ensures labels == 0 ==> r == Err(NameError(UnboundVariable))
    ensures labels == 1 ==> (r.Ok? <==> Fits(LegacyFilter, items, threshold, indexFor(periodicity.GetOr(detected), dstAffected)))
    ensures labels == 1 && r.Err? ==>
      var index := indexFor(periodicity.GetOr(detected), dstAffected);
      exists j :: 0 <= j < |items| && Fits(LegacyFilter, items[..j], threshold, index)
                  && ItemError(LegacyFilter, items[j], threshold, index) == Some(r.error)
    ensures labels == 1 && (forall t :: indexFor(periodicity.GetOr(detected), dstAffected)(t).Ok?) ==>
      (r.Err? <==> !Comparable(LegacyFilter, items)) && (r.Err? ==> r.error == TypeError(NoneComparison))
    ensures r.Ok? ==> && r.value.periodicity == periodicity.GetOr(detected)
                      && r.value.dstAffected == dstAffected
                      && r.value.offsetMethod == Average
                      && Comparable(LegacyFilter, items)
                      && AreAverages(r.value.averages, items, LegacyFilter, threshold, indexFor(r.value.periodicity, dstAffected))
  {
    if labels > 1 {
      return Err(NotImplementedError(Multivariate));
    }
    var p := periodicity.GetOr(detected);
    if labels == 0 {
      return Err(NameError(UnboundVariable));
    }
    var avgs :- FitAverages(items, LegacyFilter, threshold, indexFor(p, dstAffected));
    r := Ok(Fitted(p, dstAffected, Average, avgs));
  }

  /** The current `_fit`: an unknown offset method raises first, then more
      than one data label raises NotImplementedError; the periodicity is the
      one given or, for 'auto' (None here), the detected one; without data
      labels the averages are read from a variable never bound; otherwise
      the averages take the items whose data loss is unknown or below the
      threshold, and the fit raises at the first of them whose index
      raises. */
  method FitCurrent(items: seq<Sample>, labels: nat, threshold: real, periodicity: Option<int>, detected: int,
                    dstAffected: bool, offsetMethod: string, indexFor: (int, bool) -> (real -> Result<int, Error>))
    returns (r: Result<Fitted, Error>)
    ensures ParseOffsetMethod(offsetMethod).Err? ==> r == Err(Exception(UnknownOffsetMethod))
    ensures ParseOffsetMethod(offsetMethod).Ok? && labels > 1 ==> r == Err(NotImplementedError(Multivariate))
    ensures ParseOffsetMethod(offsetMethod).Ok? && labels == 0 ==> r == Err(NameError(UnboundVariable))
    ensures r.Ok? <==> ParseOffsetMethod(offsetMethod).Ok? && labels == 1
                       && Fits(CurrentFilter, items, threshold, indexFor(periodicity.GetOr(detected), dstAffected))
    ensures ParseOffsetMethod(offsetMethod).Ok? && labels == 1 && r.Err? ==>
      var index := indexFor(periodicity.GetOr(detected), dstAffected);
      exists j :: 0 <= j < |items| && Fits(CurrentFilter, items[..j], threshold, index)
                  && ItemError(CurrentFilter, items[j], threshold, index) == Some(r.error)
    ensures r.Ok? ==> && r.value.periodicity == periodicity.GetOr(detected)
                      && r.value.dstAffected == dstAffected
                      && Ok(r.value.offsetMethod) == ParseOffsetMethod(offsetMethod)
                      && AreAverages(r.value.averages, items, CurrentFilter, threshold, indexFor(r.value.periodicity, dstAffected))
  {
    var m :- ParseOffsetMethod(offsetMethod);
    if labels > 1 {
      return Err(NotImplementedError(Multivariate));
    }
    var p := periodicity.GetOr(detected);
    if labels == 0 {
      return Err(NameError(UnboundVariable));
    }
    var avgs :- FitAverages(items, CurrentFilter, threshold, indexFor(p, dstAffected));
    r := Ok(Fitted(p, dstAffected, m, avgs));
  }

  /** Every item the current fit can see takes part in its averages unless
      its data loss is known and at or above the threshold: the current fit
      and the gaps of the scan agree on which items are gaps. */
  lemma CurrentFitSkipsExactlyGaps(x: Sample, threshold: real)
    ensures Included(CurrentFilter, x, threshold) <==> !IsGap(x, threshold)
  {
  }
}

=== FILE: series.dfy ===
/** The series of timeseria/datastructures.py: a Serie is a list whose
    `append` first runs the checks its subclasses add (data compatibility,
    time ordering, timezone, slot span), then the generic checks of
    Serie.append (item type, then succession or order), and only then extends
    the list. The checks cache what they compare against in attributes of the
    serie (`prev_t`, `item_data_reference`, `tz`, `slot_span`), modelled here
    as fields of the `Serie` record. */
module Series {
  import opened Wrappers
  import opened Errors
  import opened Items

  datatype SerieClass =
    | GenericSerie | PointSerie | TimePointSerie | DataPointSerie | DataTimePointSerie
    | SlotSerie | TimeSlotSerie | DataSlotSerie | DataTimeSlotSerie

  /** The class attribute `__TYPE__`; the generic Serie has none and takes the
      type of its first item. */
  function DeclaredType(k: SerieClass): Option<Class> {
    match k
    case GenericSerie => None
    case PointSerie => Some(PointClass)
    case TimePointSerie => Some(TimePointClass)
    case DataPointSerie => Some(DataPointClass)
    case DataTimePointSerie => Some(DataTimePointClass)
    case SlotSerie => Some(SlotClass)
    case TimeSlotSerie => Some(TimeSlotClass)
    case DataSlotSerie => Some(DataSlotClass)
    case DataTimeSlotSerie => Some(DataTimeSlotClass)
  }

  /** The checks a subclass runs before Serie.append. */
  datatype Check = DataCheck | TimeCheck | TzCheck | SpanCheck

  /** The subclass checks of each serie class, in method resolution order
      (DataTimeSlotSerie: DataSlotSerie, TimeSlotSerie, SlotSerie). */
  function Checks(k: SerieClass): seq<Check> {
    match k
    case GenericSerie => []
    case PointSerie => []
    case TimePointSerie => [TimeCheck]
    case DataPointSerie => [DataCheck]
    case DataTimePointSerie => [DataCheck, TimeCheck]
    case SlotSerie => [SpanCheck]
    case TimeSlotSerie => [TzCheck, SpanCheck]
    case DataSlotSerie => [DataCheck, SpanCheck]
    case DataTimeSlotSerie => [DataCheck, TzCheck, SpanCheck]
  }

  /** A serie: its class, its items, and the attributes its checks keep:
      the item type (`__TYPE__`), `prev_t`, `item_data_reference`,
      `slot_span` and `tz` (set explicitly on a TimePointSerie, taken from the
      first slot by a TimeSlotSerie). None stands for an attribute not set. */
  datatype Serie = Serie(
    cls: SerieClass,
    items: seq<Item>,
    itemType: Option<Class>,
    prevT: Option<real>,
    dataRef: Option<Data>,
    slotSpan: Option<real>,
    tz: Option<Tz>)

  /** A new, empty serie (the optional `tz` is TimePointSerie's keyword). */
  function EmptySerie(k: SerieClass, tz: Option<Tz>): Serie {
    Serie(k, [], DeclaredType(k), None, None, None, if k == TimePointSerie || k == DataTimePointSerie then tz else None)
  }

  /** The state an append leaves behind, and the error it raised (if any).
      A Python exception does not undo the attributes set before it. */
  datatype Attempt = Attempt(state: Serie, error: Option<Error>)

  /** Same Python type and, for lists and dicts, same length and same keys. */
  predicate Compatible(ref: Data, d: Data) {
    && TypeOf(ref) == TypeOf(d)
    && (ref.ListData? ==> |ref.xs| == |d.xs|)
    && (ref.DictData? ==> ref.entries.Keys == d.entries.Keys)
  }

  /** DataPointSerie.append / DataSlotSerie.append: the first item's data is
      the reference every later item's data must be compatible with. */
  function DataStep(s: Serie, x: Item): Attempt {
    var d := ItemData(x);
    if d.None? then Attempt(s, Some(AttributeError(MissingAttribute)))
    else if s.dataRef.None? then Attempt(s.(dataRef := d), None)
    else if TypeOf(s.dataRef.value) != TypeOf(d.value) then Attempt(s, Some(TypeError(DifferentData)))
    else if s.dataRef.value.ListData? && |s.dataRef.value.xs| != |d.value.xs| then Attempt(s, Some(ValueError(DifferentDataLength)))
    else if s.dataRef.value.DictData? && s.dataRef.value.entries.Keys != d.value.entries.Keys then Attempt(s, Some(ValueError(DifferentDataKeys)))
    else Attempt(s, None)
  }

  /** TimePointSerie.append: times strictly increase; `prev_t` is updated as
      soon as the item's time passes. */
  function TimeStep(s: Serie, x: Item): Attempt {
    var t := ItemT(x);
    if t.None? then Attempt(s, Some(AttributeError(MissingAttribute)))
    else if s.prevT.None? then Attempt(s.(prevT := t), None)
    else if t.value < s.prevT.value then Attempt(s, Some(ValueError(OutOfOrder)))
    else if t.value == s.prevT.value then Attempt(s, Some(ValueError(DuplicateTime)))
    else Attempt(s.(prevT := t), None)
  }

  /** TimeSlotSerie.append: every item has the timezone of the first. The
      ValueError's message reads `item.start.tz`; on an item without a start
      that raises AttributeError, which the check's own handler catches by
      caching the item's timezone instead. */
  function TzStep(s: Serie, x: Item): Attempt {
    var z := ItemTz(x);
    if z.None? then Attempt(s, Some(AttributeError(MissingAttribute)))
    else if s.tz.None? then Attempt(s.(tz := z), None)
    else if s.tz != z then
      if StartTz(x).None? then Attempt(s.(tz := z), None)
      else Attempt(s, Some(ValueError(DifferentTimezones)))
    else Attempt(s, None)
  }

  /** Two spans a slot serie accepts as the same: equal, or close. */
  predicate SameSpan(a: real, b: real, close: (real, real) -> bool) {
    a == b || close(a, b)
  }

  /** SlotSerie.append: every slot has the span of the first (up to close). */
  function SpanStep(s: Serie, x: Item, close: (real, real) -> bool): Attempt {
    match ItemSpan(x)
    case Err(e) => Attempt(s, Some(e))
    case Ok(span) =>
      if s.slotSpan.None? then Attempt(s.(slotSpan := Some(span)), None)
      else if !SameSpan(s.slotSpan.value, span, close) then Attempt(s, Some(ValueError(DifferentSpans)))
      else Attempt(s, None)
  }

  function Step(c: Check, s: Serie, x: Item, close: (real, real) -> bool): Attempt {
    match c
    case DataCheck => DataStep(s, x)
    case TimeCheck => TimeStep(s, x)
    case TzCheck => TzStep(s, x)
    case SpanCheck => SpanStep(s, x, close)
  }

  /** Runs the checks in order, stopping at the first that raises. */
  function RunChecks(cs: seq<Check>, s: Serie, x: Item, close: (real, real) -> bool): Attempt
    decreases |cs|
  {
    if |cs| == 0 then Attempt(s, None)
    else
      var a := Step(cs[0], s, x, close);
      if a.error.Some? then a else RunChecks(cs[1..], a.state, x, close)
  }

  /** The order check of Serie.append: a slot must `__succedes__` the last
      item; an item without `__succedes__` must compare greater with `>`. */
  function Follows(last: Item, x: Item, close: (real, real) -> bool): Option<Error> {
    match x
    case SlotItem(sl) =>
      (match Succedes(sl, last, close)
       case Ok(true) => None
       case Ok(false) => Some(ValueError(NotInSuccession))
       case Err(_) => Some(TypeError(NotComparable)))    // the AttributeError falls back to `>`, which slots lack
    case PointItem(p) =>
      (match PointGt(p, ItemT(last))
       case Ok(true) => None
       case Ok(false) => Some(ValueError(NotInOrder))
       case Err(TypeError(_)) => Some(TypeError(NotComparable))
       case Err(e) => Some(e))
  }

  /** Serie.append itself: fix the type on the first item, check the type,
      check the order against the last item, then extend the list. */
  function BaseAppend(s: Serie, x: Item, close: (real, real) -> bool): Attempt {
    var ty := if s.itemType.Some? then s.itemType.value else ClassOf(x);
    var s1 := s.(itemType := Some(ty));
    if !IsInstance(ClassOf(x), ty) then Attempt(s1, Some(TypeError(IncompatibleType)))
    else if |s.items| == 0 then Attempt(s1.(items := [x]), None)
    else
      var e := Follows(s.items[|s.items| - 1], x, close);
      if e.Some? then Attempt(s1, e) else Attempt(s1.(items := s.items + [x]), None)
  }

  /** `serie.append(item)` as the source runs it: the subclass checks, then
      Serie.append; attributes set by a check stay set when a later check
      raises. */
  function AppendAsWritten(s: Serie, x: Item, close: (real, real) -> bool): Attempt {
    var a := RunChecks(Checks(s.cls), s, x, close);
    if a.error.Some? then a else BaseAppend(a.state, x, close)
  }

  /** `serie.append(item)` committing its attribute updates only when the
      item is accepted: the serie after a rejected append is the serie before. */
  function Append(s: Serie, x: Item, close: (real, real) -> bool): Result<Serie, Error> {
    var a := AppendAsWritten(s, x, close);
    if a.error.Some? then Err(a.error.value) else Ok(a.state)
  }

  // ---------------------------------------------------------------------------
  // The serie invariant

  /** The time of every item, strictly increasing from one item to the next. */
  predicate TimesIncrease(items: seq<Item>) {
    && (forall i :: 0 <= i < |items| ==> ItemT(items[i]).Some?)
    && (forall i :: 0 < i < |items| ==> ItemT(items[i - 1]).value < ItemT(items[i]).value)
  }

  function LastT(items: seq<Item>): Option<real> {
    if |items| == 0 then None else ItemT(items[|items| - 1])
  }

  function FirstData(items: seq<Item>): Option<Data> {
    if |items| == 0 then None else ItemData(items[0])
  }

  function FirstTz(items: seq<Item>): Option<Tz> {
    if |items| == 0 then None else ItemTz(items[0])
  }

  function FirstSpan(items: seq<Item>): Option<real> {
    if |items| == 0 || ItemSpan(items[0]).Err? then None else Some(ItemSpan(items[0]).value)
  }

  /** Every item is an instance of the serie's type, fixed by the class or
      by the first item. */
  predicate TypeValid(s: Serie) {
    && (s.itemType == if DeclaredType(s.cls).Some? then DeclaredType(s.cls)
                      else if |s.items| == 0 then None else Some(ClassOf(s.items[0])))
    && (forall i :: 0 <= i < |s.items| ==> IsInstance(ClassOf(s.items[i]), s.itemType.value))
  }

  /** Each item follows the previous one. */
  predicate OrderValid(s: Serie, close: (real, real) -> bool) {
    forall i :: 0 < i < |s.items| ==> Follows(s.items[i - 1], s.items[i], close).None?
  }

  /** The property a subclass check keeps, over all items, with the
      attribute it caches matching them. */
  predicate CheckValid(c: Check, s: Serie, close: (real, real) -> bool) {
    match c
    case TimeCheck => TimesIncrease(s.items) && s.prevT == LastT(s.items)
    case DataCheck =>
      && (forall i :: 0 <= i < |s.items| ==> ItemData(s.items[i]).Some?)
      && s.dataRef == FirstData(s.items)
      && (forall i :: 0 <= i < |s.items| ==> Compatible(s.dataRef.value, ItemData(s.items[i]).value))
    case TzCheck =>
      && (forall i :: 0 <= i < |s.items| ==> ItemTz(s.items[i]).Some? && ItemTz(s.items[i]) == s.tz)
      && s.tz == FirstTz(s.items)
    case SpanCheck =>
      && (forall i :: 0 <= i < |s.items| ==> ItemSpan(s.items[i]).Ok?)
      && s.slotSpan == FirstSpan(s.items)
      && (forall i :: 0 <= i < |s.items| ==> SameSpan(s.slotSpan.value, ItemSpan(s.items[i]).value, close))
  }

  /** What every serie built by appends satisfies: all items are instances of
      its type, each item follows the previous one, and each subclass's
      property holds of all items with its cached attribute matching them. */
  predicate Valid(s: Serie, close: (real, real) -> bool) {
    && TypeValid(s)
    && OrderValid(s, close)
    && (forall c :: c in Checks(s.cls) ==> CheckValid(c, s, close))
  }

  lemma EmptySerieIsValid(k: SerieClass, tz: Option<Tz>, close: (real, real) -> bool)
    ensures Valid(EmptySerie(k, tz), close)
  {
  }

  // ---------------------------------------------------------------------------
  // What an append accepts

  /** The item the serie's type fixes: the declared one, else the first item's
      (the item's own when the serie is empty). */
  function TypeFor(s: Serie, x: Item): Class {
    if DeclaredType(s.cls).Some? then DeclaredType(s.cls).value
    else if |s.items| == 0 then ClassOf(x) else ClassOf(s.items[0])
  }

  /** The property a subclass check enforces, stated over the items. */
  predicate CheckHolds(c: Check, items: seq<Item>, x: Item, close: (real, real) -> bool) {
    match c
    case DataCheck =>
      ItemData(x).Some? && (|items| > 0 ==> FirstData(items).Some? && Compatible(FirstData(items).value, ItemData(x).value))
    case TimeCheck =>
      ItemT(x).Some? && (|items| > 0 ==> LastT(items).Some? && LastT(items).value < ItemT(x).value)
    case TzCheck =>
      ItemTz(x).Some? && (|items| > 0 && ItemTz(x) != FirstTz(items) ==> StartTz(x).None?)
    case SpanCheck =>
      ItemSpan(x).Ok? && (|items| > 0 ==> FirstSpan(items).Some? && SameSpan(FirstSpan(items).value, ItemSpan(x).value, close))
  }

  /** When an item may be appended to a serie, stated over its items alone:
      it is an instance of the serie's type, it follows the last item, and it
      passes every check of the serie's class. */
  predicate Admissible(s: Serie, x: Item, close: (real, real) -> bool) {
    && IsInstance(ClassOf(x), TypeFor(s, x))
    && (|s.items| > 0 ==> Follows(s.items[|s.items| - 1], x, close).None?)
    && (forall c :: c in Checks(s.cls) ==> CheckHolds(c, s.items, x, close))
  }

  /** Two series agree on the attribute a check keeps. */
  predicate AgreeOn(c: Check, s: Serie, t: Serie) {
    match c
    case DataCheck => s.dataRef == t.dataRef
    case TimeCheck => s.prevT == t.prevT
    case TzCheck => s.tz == t.tz
    case SpanCheck => s.slotSpan == t.slotSpan
  }

  lemma AgreeOnTrans(c: Check, s: Serie, t: Serie, u: Serie)
    requires AgreeOn(c, s, t)
    requires AgreeOn(c, t, u) || AgreeOn(c, u, t)
    ensures AgreeOn(c, s, u)
  {
  }

  /** A check reads only its own attribute and the item, and writes only its
      own attribute. */
  lemma StepFrame(c: Check, s: Serie, t: Serie, x: Item, close: (real, real) -> bool)
    requires AgreeOn(c, s, t)
    ensures Step(c, s, x, close).error == Step(c, t, x, close).error
    ensures AgreeOn(c, Step(c, s, x, close).state, Step(c, t, x, close).state)
    ensures forall d :: d != c ==> AgreeOn(d, s, Step(c, s, x, close).state)
    ensures var u := Step(c, s, x, close).state;
      u.items == s.items && u.cls == s.cls && u.itemType == s.itemType
  {
  }

  /** Running distinct checks fails exactly when one of them fails on the
      serie as it was, and on success each attribute is the one its own check
      produced. */
  lemma {:induction false} RunChecksSpec(cs: seq<Check>, s: Serie, x: Item, close: (real, real) -> bool)
    requires forall i, j :: 0 <= i < j < |cs| ==> cs[i] != cs[j]
    ensures RunChecks(cs, s, x, close).error.None? <==> forall c :: c in cs ==> Step(c, s, x, close).error.None?
    ensures var u := RunChecks(cs, s, x, close).state;
      u.items == s.items && u.cls == s.cls && u.itemType == s.itemType
    ensures RunChecks(cs, s, x, close).error.None? ==>
      forall c :: (c in cs ==> AgreeOn(c, RunChecks(cs, s, x, close).state, Step(c, s, x, close).state))
               && (c !in cs ==> AgreeOn(c, RunChecks(cs, s, x, close).state, s))
    decreases |cs|
  {
    if |cs| > 0 {
      var a := Step(cs[0], s, x, close);
      StepFrame(cs[0], s, s, x, close);
      if a.error.None? {
        RunChecksSpec(cs[1..], a.state, x, close);
        forall c | c in cs[1..]
          ensures Step(c, a.state, x, close).error == Step(c, s, x, close).error
          ensures AgreeOn(c, Step(c, a.state, x, close).state, Step(c, s, x, close).state)
        {
          assert c != cs[0];
          StepFrame(c, a.state, s, x, close);
        }
        assert cs[0] !in cs[1..];
        var u := RunChecks(cs, s, x, close).state;
        assert u == RunChecks(cs[1..], a.state, x, close).state;
        forall c | RunChecks(cs, s, x, close).error.None?
          ensures c in cs ==> AgreeOn(c, u, Step(c, s, x, close).state)
          ensures c !in cs ==> AgreeOn(c, u, s)
        {
          if c == cs[0] {
            assert AgreeOn(c, u, a.state);
          } else if c in cs[1..] {
            AgreeOnTrans(c, u, Step(c, a.state, x, close).state, Step(c, s, x, close).state);
          } else {
            assert c !in cs[1..];
            AgreeOnTrans(c, u, a.state, s);
          }
        }
      }
    }
  }

  /** Under the invariant, each check passes exactly when its property holds,
      and the attribute it leaves is the one the longer serie needs. */
  lemma StepMeetsCheck(c: Check, s: Serie, x: Item, close: (real, real) -> bool)
    requires Valid(s, close)
    requires c in Checks(s.cls)
    ensures Step(c, s, x, close).error.None? <==> CheckHolds(c, s.items, x, close)
    ensures Step(c, s, x, close).error.None? ==>
      var u := Step(c, s, x, close).state;
      match c
      case DataCheck => u.dataRef == FirstData(s.items + [x])
      case TimeCheck => u.prevT == LastT(s.items + [x])
      case TzCheck => u.tz == ItemTz(x) && (ItemTz(x) == FirstTz(s.items) ==> u.tz == FirstTz(s.items + [x]))
      case SpanCheck => u.slotSpan == FirstSpan(s.items + [x])
  {
    assert |s.items| > 0 ==> (s.items + [x])[0] == s.items[0];
  }

  lemma ChecksAreDistinct(k: SerieClass)
    ensures forall i, j :: 0 <= i < j < |Checks(k)| ==> Checks(k)[i] != Checks(k)[j]
  {
  }

  /** An append to a valid serie succeeds exactly when the item is
      admissible; the serie then holds the old items followed by the new one,
      keeps its class, and is still valid. */
  lemma AppendSpec(s: Serie, x: Item, close: (real, real) -> bool)
    requires Valid(s, close)
    ensures Append(s, x, close).Ok? <==> Admissible(s, x, close)
    ensures Append(s, x, close).Ok? ==>
      var u := Append(s, x, close).value;
      u.items == s.items + [x] && u.cls == s.cls && Valid(u, close)
  {
    ChecksPassIff(s, x, close);
    var a := RunChecks(Checks(s.cls), s, x, close);
    if a.error.None? && BaseAppend(a.state, x, close).error.None? {
      AcceptedAppendIsValid(s, x, close);
    }
  }

  /** Under the invariant, the subclass checks pass exactly when their
      properties hold, and then leave the serie's items, class and type as
      they were. */
  lemma ChecksPassIff(s: Serie, x: Item, close: (real, real) -> bool)
    requires Valid(s, close)
    ensures var a := RunChecks(Checks(s.cls), s, x, close);
      && (a.error.None? <==> forall c :: c in Checks(s.cls) ==> CheckHolds(c, s.items, x, close))
      && a.state.items == s.items && a.state.cls == s.cls && a.state.itemType == s.itemType
  {
    var cs := Checks(s.cls);
    ChecksAreDistinct(s.cls);
    RunChecksSpec(cs, s, x, close);
    forall c | c in cs
      ensures Step(c, s, x, close).error.None? <==> CheckHolds(c, s.items, x, close)
    {
      StepMeetsCheck(c, s, x, close);
    }
  }

  /** An append that passes every check extends the items by the new one
      and keeps the invariant. */
  lemma AcceptedAppendIsValid(s: Serie, x: Item, close: (real, real) -> bool)
    requires Valid(s, close)
    requires RunChecks(Checks(s.cls), s, x, close).error.None?
    requires BaseAppend(RunChecks(Checks(s.cls), s, x, close).state, x, close).error.None?
    ensures var u := BaseAppend(RunChecks(Checks(s.cls), s, x, close).state, x, close).state;
      u.items == s.items + [x] && u.cls == s.cls && Valid(u, close)
  {
    var cs := Checks(s.cls);
    ChecksAreDistinct(s.cls);
    RunChecksSpec(cs, s, x, close);
    ChecksPassIff(s, x, close);
    var a := RunChecks(cs, s, x, close);
    BaseAppendAccepted(a.state, x, close);
    assert TypeValid(s);
    assert CachedType(a.state, x) == TypeFor(s, x);
    var u := BaseAppend(a.state, x, close).state;
    ValidAfterAppend(s, u, x, close);
  }

  /** The item type `Serie.append` checks against: the one cached, or else
      the class of the first item appended. */
  function CachedType(t: Serie, x: Item): Class {
    if t.itemType.Some? then t.itemType.value else ClassOf(x)
  }

  /** An item `Serie.append` accepts is of the serie's type and follows
      its last item; it is appended and nothing the checks cache changes. */
  lemma BaseAppendAccepted(t: Serie, x: Item, close: (real, real) -> bool)
    requires BaseAppend(t, x, close).error.None?
    ensures var u := BaseAppend(t, x, close).state;
      && u.items == t.items + [x] && u.cls == t.cls
      && u.itemType == Some(CachedType(t, x)) && IsInstance(ClassOf(x), CachedType(t, x))
      && (|t.items| > 0 ==> Follows(t.items[|t.items| - 1], x, close).None?)
      && (forall c :: AgreeOn(c, u, t))
  {
    if |t.items| == 0 {
      assert [x] == t.items + [x];
    }
  }

  /** The invariant of the extended serie, once every check has passed. */
  lemma ValidAfterAppend(s: Serie, u: Serie, x: Item, close: (real, real) -> bool)
    requires Valid(s, close)
    requires Admissible(s, x, close)
    requires u.items == s.items + [x] && u.cls == s.cls
    requires u.itemType == Some(TypeFor(s, x))
    requires forall c :: c in Checks(s.cls) ==> AgreeOn(c, u, Step(c, s, x, close).state)
    ensures Valid(u, close)
  {
    var n := |s.items|;
    assert forall i :: 0 <= i < n ==> u.items[i] == s.items[i];
    assert u.items[n] == x;
    assert TypeValid(u);
    assert OrderValid(u, close);
    forall c | c in Checks(u.cls)
      ensures CheckValid(c, u, close)
    {
      StepMeetsCheck(c, s, x, close);
      if c == TzCheck {
        assert SpanCheck in Checks(s.cls);
      }
      CheckValidAfterAppend(c, s, u, x, close);
    }
  }

  /** The property of one check, extended by an item that passes it (for
      the timezone check, a slot, as the span check that follows it in every
      serie class demands). */
  lemma CheckValidAfterAppend(c: Check, s: Serie, u: Serie, x: Item, close: (real, real) -> bool)
    requires CheckValid(c, s, close) && CheckHolds(c, s.items, x, close)
    requires c == TzCheck ==> x.SlotItem?
    requires u.items == s.items + [x]
    requires match c
      case DataCheck => u.dataRef == FirstData(s.items + [x])
      case TimeCheck => u.prevT == LastT(s.items + [x])
      case TzCheck => u.tz == ItemTz(x) && (ItemTz(x) == FirstTz(s.items) ==> u.tz == FirstTz(s.items + [x]))
      case SpanCheck => u.slotSpan == FirstSpan(s.items + [x])
    ensures CheckValid(c, u, close)
  {
    var n := |s.items|;
    assert forall i :: 0 <= i < n ==> u.items[i] == s.items[i];
    assert u.items[n] == x;
  }

  /** Once the subclass checks hold, an item of the wrong type raises
      TypeError, and an item of the right type that does not follow the
      last one raises the error of the order check. */
  lemma AppendRejects(s: Serie, x: Item, close: (real, real) -> bool)
    requires Valid(s, close)
    requires forall c :: c in Checks(s.cls) ==> CheckHolds(c, s.items, x, close)
    ensures !IsInstance(ClassOf(x), TypeFor(s, x)) ==> Append(s, x, close) == Err(TypeError(IncompatibleType))
    ensures IsInstance(ClassOf(x), TypeFor(s, x)) && |s.items| > 0 && Follows(s.items[|s.items| - 1], x, close).Some? ==>
      Append(s, x, close) == Err(Follows(s.items[|s.items| - 1], x, close).value)
  {
    ChecksPassIff(s, x, close);
    var a := RunChecks(Checks(s.cls), s, x, close);
    assert TypeValid(s);
    assert (if a.state.itemType.Some? then a.state.itemType.value else ClassOf(x)) == TypeFor(s, x);
  }

  /** In a data serie, whose data check runs first, an item whose data
      differs from the first item's in Python type raises TypeError, and a
      list of another length or a dict with other keys raises ValueError. */
  lemma DataMismatchRaises(s: Serie, x: Item, close: (real, real) -> bool)
    requires Valid(s, close) && |s.items| > 0 && ItemData(x).Some?
    requires |Checks(s.cls)| > 0 && Checks(s.cls)[0] == DataCheck
    ensures FirstData(s.items).Some?
    ensures var ref := FirstData(s.items).value;
      var d := ItemData(x).value;
      && (TypeOf(ref) != TypeOf(d) ==> Append(s, x, close) == Err(TypeError(DifferentData)))
      && (TypeOf(ref) == TypeOf(d) && ref.ListData? && |ref.xs| != |d.xs| ==>
            Append(s, x, close) == Err(ValueError(DifferentDataLength)))
      && (TypeOf(ref) == TypeOf(d) && ref.DictData? && ref.entries.Keys != d.entries.Keys ==>
            Append(s, x, close) == Err(ValueError(DifferentDataKeys)))
  {
    assert CheckValid(DataCheck, s, close) by { assert DataCheck in Checks(s.cls); }
  }

  /** In a valid time-slot serie every slot starts where the one before it
      ends (up to `close`), has the span of the first slot and the
      timezone of the first slot. */
  lemma SlotsAreContiguous(s: Serie, close: (real, real) -> bool, i: int)
    requires Valid(s, close) && (s.cls == TimeSlotSerie || s.cls == DataTimeSlotSerie)
    requires 0 < i < |s.items|
    ensures s.items[i - 1].SlotItem? && s.items[i].SlotItem?
    ensures var prev := s.items[i - 1].slot;
      var next := s.items[i].slot;
      && PointT(prev.end).Some? && PointT(next.start).Some?
      && (PointT(prev.end) == PointT(next.start) || close(PointT(prev.end).value, PointT(next.start).value))
    ensures ItemTz(s.items[i]).Some? && ItemTz(s.items[i]) == ItemTz(s.items[0])
    ensures ItemSpan(s.items[i]).Ok? && FirstSpan(s.items).Some?
    ensures SameSpan(FirstSpan(s.items).value, ItemSpan(s.items[i]).value, close)
  {
    assert TypeValid(s) && s.itemType == DeclaredType(s.cls);
    assert IsInstance(ClassOf(s.items[i]), TimeSlotClass);
    assert Follows(s.items[i - 1], s.items[i], close).None?;
    assert CheckValid(TzCheck, s, close) by { assert TzCheck in Checks(s.cls); }
    assert CheckValid(SpanCheck, s, close) by { assert SpanCheck in Checks(s.cls); }
  }

  /** An append the source rejects leaves the items as they were, whatever
      attributes its checks have already set. */
  lemma RejectedAppendKeepsItems(s: Serie, x: Item, close: (real, real) -> bool)
    requires AppendAsWritten(s, x, close).error.Some?
    ensures AppendAsWritten(s, x, close).state.items == s.items
    ensures AppendAsWritten(s, x, close).state.cls == s.cls
    ensures Append(s, x, close) == Err(AppendAsWritten(s, x, close).error.value)
  {
    ChecksAreDistinct(s.cls);
    RunChecksSpec(Checks(s.cls), s, x, close);
  }

  /** The times of a time-ordered serie increase between any two items, not
      only between neighbours. */
  lemma {:induction false} TimesStrictlyIncrease(items: seq<Item>, i: int, j: int)
    requires TimesIncrease(items)
    requires 0 <= i < j < |items|
    ensures ItemT(items[i]).value < ItemT(items[j]).value
    decreases j - i
  {
    if i + 1 < j {
      TimesStrictlyIncrease(items, i, j - 1);
    }
  }

  /** TimePointSerie.append on a non-empty serie: a time before the last one
      is out of order, the same time is a duplicate, a later time is
      accepted. */
  lemma TimePointSerieOrder(s: Serie, p: Point, close: (real, real) -> bool)
    requires Valid(s, close) && s.cls == TimePointSerie && |s.items| > 0
    requires IsInstance(p.cls, TimePointClass) && PointT(p).Some?
    ensures LastT(s.items).Some?
    ensures var t := PointT(p).value;
      var last := LastT(s.items).value;
      && (Append(s, PointItem(p), close) == Err(ValueError(OutOfOrder)) <==> t < last)
      && (Append(s, PointItem(p), close) == Err(ValueError(DuplicateTime)) <==> t == last)
      && (Append(s, PointItem(p), close).Ok? <==> last < t)
  {
    assert CheckValid(TimeCheck, s, close) by { assert TimeCheck in Checks(s.cls); }
    assert ItemT(s.items[|s.items| - 1]).Some?;
    var x := PointItem(p);
    AppendSpec(s, x, close);
    assert Checks(s.cls) == [TimeCheck];
    assert RunChecks([TimeCheck], s, x, close) == TimeStep(s, x);
    assert CheckHolds(TimeCheck, s.items, x, close) <==> LastT(s.items).value < PointT(p).value;
  }

  /** The source's append on an empty TimePointSerie: a plain Point with a
      coordinate `t` passes the time check, which records its `t`, and then
      fails the type check; the serie stays empty but a later TimePoint at an
      earlier time is refused as out of order. Committing only accepted
      appends, the serie is unchanged and takes that TimePoint. */
  lemma StaleTimeAfterRejectedAppend(close: (real, real) -> bool)
    ensures var s0 := EmptySerie(TimePointSerie, None);
      var bad := PointItem(Point(PointClass, [Coord("t", 5.0)], None, None));
      var later := PointItem(TimePointAt(3.0, None));
      var a := AppendAsWritten(s0, bad, close);
      && a.error == Some(TypeError(IncompatibleType))
      && a.state.items == []
      && a.state.prevT == Some(5.0)
      && !Valid(a.state, close)
      && AppendAsWritten(a.state, later, close).error == Some(ValueError(OutOfOrder))
      && Append(s0, bad, close) == Err(TypeError(IncompatibleType))
      && Append(s0, later, close).Ok?
      && Append(s0, later, close).value.items == [later]
  {
    var bad := PointItem(Point(PointClass, [Coord("t", 5.0)], None, None));
    assert CoordMap([Coord("t", 5.0)]) == map["t" := 5.0];
    assert CoordMap([Coord("t", 3.0)]) == map["t" := 3.0];
    assert TimeCheck in Checks(TimePointSerie);
  }

  /** A time-slot serie offered a point of another timezone: building the
      timezone ValueError reads the point's missing `start`, the handler
      caches the point's timezone as the serie's, and the span check then
      raises AttributeError, since points have no span. */
  lemma PointOfOtherTzResetsSerieTz(s: Serie, p: Point, close: (real, real) -> bool)
    requires s.cls == TimeSlotSerie
    requires s.tz.Some? && PointTz(p).Some? && PointTz(p) != s.tz
    ensures AppendAsWritten(s, PointItem(p), close) == Attempt(s.(tz := PointTz(p)), Some(AttributeError(MissingAttribute)))
    ensures Append(s, PointItem(p), close) == Err(AttributeError(MissingAttribute))
  {
    var a := TzStep(s, PointItem(p));
    assert a == Attempt(s.(tz := PointTz(p)), None);
    assert RunChecks([SpanCheck], a.state, PointItem(p), close) == SpanStep(a.state, PointItem(p), close);
  }

  /** A plain Point with a coordinate named `data`, offered to a data point
      serie with no reference yet: `item.data` is that coordinate, so the
      data check caches it, and then the type check raises TypeError. */
  lemma DataCoordinateIsCached(s: Serie, p: Point, close: (real, real) -> bool)
    requires s.cls == DataPointSerie && s.itemType == Some(DataPointClass) && s.dataRef.None?
    requires p.cls == PointClass && "data" in CoordMap(p.coords)
    ensures AppendAsWritten(s, PointItem(p), close) ==
      Attempt(s.(dataRef := Some(FloatData(CoordMap(p.coords)["data"]))), Some(TypeError(IncompatibleType)))
  {
    var a := DataStep(s, PointItem(p));
    assert a == Attempt(s.(dataRef := Some(FloatData(CoordMap(p.coords)["data"]))), None);
    assert RunChecks([DataCheck], s, PointItem(p), close) == RunChecks([], a.state, PointItem(p), close);
  }

  /** A DataPoint with a coordinate named `tz`, offered to a time-slot serie
      without a timezone: `item.tz` is that coordinate, so the serie caches
      it as its timezone before the span check raises. */
  lemma TzCoordinateIsCached(s: Serie, p: Point, close: (real, real) -> bool)
    requires s.cls == TimeSlotSerie && s.tz.None?
    requires p.cls == DataPointClass && "tz" in CoordMap(p.coords)
    ensures AppendAsWritten(s, PointItem(p), close) ==
      Attempt(s.(tz := Some(TzNumber(CoordMap(p.coords)["tz"]))), Some(AttributeError(MissingAttribute)))
  {
    var a := TzStep(s, PointItem(p));
    assert a == Attempt(s.(tz := Some(TzNumber(CoordMap(p.coords)["tz"]))), None);
    assert RunChecks([SpanCheck], a.state, PointItem(p), close) == SpanStep(a.state, PointItem(p), close);
  }

  // ---------------------------------------------------------------------------
  // Reading a serie

  /** The keys of the data of a slot serie: the keys of a dict, the positions
      of a list or string. */
  datatype Keys = KeyNames(names: set<string>) | Positions(count: nat)

  /** DataSlotSerie.data_keys: None for an empty serie, else the keys of the
      first item's data; data with neither keys nor a length raises. */
  function DataKeys(s: Serie): (r: Result<Option<Keys>, Error>)
    ensures r == Ok(None) <==> |s.items| == 0
    ensures r.Err? ==> |s.items| > 0 && !(FirstData(s.items).Some? && TypeOf(FirstData(s.items).value) in {DictType, ListType, StrType})
  {
    if |s.items| == 0 then Ok(None)
    else
      match ItemData(s.items[0])
      case None => Err(AttributeError(MissingAttribute))
      case Some(DictData(m)) => Ok(Some(KeyNames(m.Keys)))
      case Some(ListData(xs)) => Ok(Some(Positions(|xs|)))
      case Some(StrData(str)) => Ok(Some(Positions(|str|)))
      case Some(_) => Err(TypeError(IncompatibleType))
  }

  /** On a valid data serie the keys read off the first item are the keys of
      every item. */
  lemma DataKeysDescribeEveryItem(s: Serie, close: (real, real) -> bool, i: int)
    requires Valid(s, close) && DataCheck in Checks(s.cls)
    requires 0 <= i < |s.items|
    ensures DataKeys(s).Ok? && DataKeys(s).value.Some? ==>
      match DataKeys(s).value.value
      case KeyNames(ks) => ItemData(s.items[i]).value.DictData? && ItemData(s.items[i]).value.entries.Keys == ks
      case Positions(n) =>
        || (ItemData(s.items[i]).value.ListData? && |ItemData(s.items[i]).value.xs| == n)
        || ItemData(s.items[i]).value.StrData?
  {
    assert Compatible(s.dataRef.value, ItemData(s.items[i]).value);
  }

  /** Whether every item has a timezone (every TimePoint has one). */
  predicate AllHaveTz(items: seq<Item>) {
    forall i :: 0 <= i < |items| ==> ItemTz(items[i]).Some?
  }

  /** TimePointSerie.tz: the timezone set explicitly, else the one all items
      share, UTC when they differ, None for an empty serie. */
  method SerieTimezone(s: Serie) returns (r: Option<Tz>)
    ensures s.tz.Some? ==> r == s.tz
    ensures s.tz.None? && |s.items| == 0 ==> r == None
    ensures s.tz.None? && AllHaveTz(s.items) && |s.items| > 0 ==>
      ((forall i :: 0 <= i < |s.items| ==> ItemTz(s.items[i]) == ItemTz(s.items[0])) ==> r == ItemTz(s.items[0]))
    ensures s.tz.None? && AllHaveTz(s.items) ==>
      ((exists i :: 0 <= i < |s.items| && ItemTz(s.items[i]) != ItemTz(s.items[0])) ==> r == Some(UTC))
  {
    if s.tz.Some? {
      return s.tz;
    }
    var detected: Option<Tz> := None;
    var i := 0;
    while i < |s.items|
      invariant 0 <= i <= |s.items|
      invariant AllHaveTz(s.items) ==> detected == (if i == 0 then None else ItemTz(s.items[0]))
      invariant AllHaveTz(s.items) ==> forall k :: 0 <= k < i ==> ItemTz(s.items[k]) == ItemTz(s.items[0])
      invariant |s.items| == 0 ==> detected == None
    {
      var z := ItemTz(s.items[i]);
      if detected.None? {
        detected := z;
      } else if z != detected {
        return Some(UTC);
      }
      i := i + 1;
    }
    return detected;
  }

  /** On a valid TimePointSerie every item has a timezone, so the timezone
      detection above is fully determined. */
  lemma TimePointsHaveTz(s: Serie, close: (real, real) -> bool)
    requires Valid(s, close) && (s.cls == TimePointSerie || s.cls == DataTimePointSerie)
    ensures AllHaveTz(s.items)
  {
    forall i | 0 <= i < |s.items|
      ensures ItemTz(s.items[i]).Some?
    {
      assert TypeValid(s) && s.itemType == DeclaredType(s.cls);
      assert CheckValid(TimeCheck, s, close) by { assert TimeCheck in Checks(s.cls); }
      assert ItemT(s.items[i]).Some?;
      assert IsInstance(ClassOf(s.items[i]), s.itemType.value);
    }
  }
}

=== FILE: wrappers.dfy ===
/** Option and Result, the failure-compatible datatypes the model uses in place
    of Python's `None` and raised exceptions. */
module Wrappers {

  /** A value that may be missing: Python's `None`, or an attribute never set. */
  datatype Option<+T> = None | Some(value: T) {

    /** Returns the value, or `default` when there is none. */
    function GetOr(default: T): T {
      match this
      case Some(v) => v
      case None => default
    }
  }

  /** Either a value or the error an operation raised. */
  datatype Result<+T, +E> = Ok(value: T) | Err(error: E) {

    predicate IsFailure() {
      Err?
    }

    function PropagateFailure<U>(): Result<U, E>
      requires Err?
    {
      Err(error)
    }

    function Extract(): T
      requires Ok?
    {
      value
    }
  }
}
